=== FILE: README.md ===
# FRLMapModCreator UGC rules in Dafny

FRLMapModCreator is a Unity editor extension. Map authors use it to publish
user-generated maps ("UGC items") through the PlayFab Economy catalog.
Underneath the editor windows sits a small sequential rules layer, and this
project models that layer as pure Dafny functions and proves properties of
it:

- **Version arithmetic**: strict `major.minor` parsing, the successor version, the "is newer" order, and the looser dotted comparator the service uses.
- **Catalog records**: the item view over a catalog record. Status, thumbnail, screenshots, bundles, title, description, scene path and versions are derived from display properties and image lists.
- **Item lifecycle**: the gates (edit, submit, cancel, edit metadata) and the guarded server operations (login, refresh, create, submit, cancel, new version, delete, draft updates, screenshot and thumbnail uploads). Each operation is a function from the session and the server's reply to the new session and the callback values it produces.
- **Editor validators**:
  - suggested versions and the new-version check;
  - tag selection, and name and description normalisation;
  - screenshot slot choice and the save diff;
  - the publish checklist, button gating and scene retarget;
  - the retarget window's entry list, order and selection;
  - the shader whitelist.

Modules follow the source's structure:

| module | source |
|---|---|
| `Wrappers`, `Text`, `Numbers` | the .NET string and integer operations the rules use |
| `Items` | `UGCItemData.cs` |
| `Versions` | `UGCVersionHelper.cs` |
| `ServiceRules`, `ServiceArguments`, `ServiceSession` | `UGCService.cs` |
| `EditWindow` | `UGCItemEditWindow.cs` |
| `ManagerWindow` | `UGCManagerWindow.cs` |
| `RetargetWindow` | `UGCSceneRetargetWindow.cs` |
| `Shaders` | `UGCShaderWhitelistChecker.cs` and `AllowedShaders.cs` |

Modelling conventions:

- **Nulls** are `Option`.
- **Item references** are indices into the session's item list.
- **Remote calls** become a `Reply` parameter: `Ok(value)`, `TooLarge` (the reply never reaches the callback), or `Failed`.
- **Callback invocations** are recorded as a sequence, so a callback invoked twice is visible.
- **Enumeration order of a `HashSet`** is a parameter, required to list the set exactly once.

## Model

| member | source | states |
|---|---|---|
| Items.StatusOfCode | Assets/Scripts/Editor/UGCItemData.cs:9-15 | the enum cast keeps the integer (an out-of-range code stays an undefined status carrying it), and every 32-bit code gives a status |
| Items.ThumbnailIndex | Assets/Scripts/Editor/UGCItemData.cs:26-34 | the position of the first image whose type is "Thumbnail" ignoring case, with no thumbnail before it, or -1 when there is none |
| Items.ThumbnailUrl | Assets/Scripts/Editor/UGCItemData.cs:22-38 | null without images or without a thumbnail, otherwise the first thumbnail's URL |
| Items.ScreenshotImages | Assets/Scripts/Editor/UGCItemData.cs:63-80 | exactly the images of type "Screenshot" with a non-empty URL are kept |
| Items.ScreenshotImagesAppend | Assets/Scripts/Editor/UGCItemData.cs:63-80 | the filter distributes over concatenation, so it keeps the images' order |
| Items.ScreenshotUrlsMatchImages | Assets/Scripts/Editor/UGCItemData.cs:42-80 | `ScreenshotUrls` is the `Screenshots` list mapped to URLs, position by position, all non-empty |
| Items.Bundles | Assets/Scripts/Editor/UGCItemData.cs:82-98 | null exactly when the contents are null, otherwise an element-for-element copy |
| Items.Neutral | Assets/Scripts/Editor/UGCItemData.cs:100-110 | the "NEUTRAL" entry of a title or description map, or "" when the map or the key is missing |
| Items.Title | Assets/Scripts/Editor/UGCItemData.cs:100-110 | the title map's "NEUTRAL" entry, and "" when there is no title map or no such entry |
| Items.Description | Assets/Scripts/Editor/UGCItemData.cs:241-251 | the description map's "NEUTRAL" entry, and "" when there is no description map or no such entry |
| Items.HasThumbnail | Assets/Scripts/Editor/UGCItemData.cs:22-40 | true exactly when there are images, one is typed "Thumbnail", and the first such has a non-empty URL |
| Items.HasScreenshots | Assets/Scripts/Editor/UGCItemData.cs:42-80 | true exactly when some image is a screenshot with a URL, and exactly when the URL list is non-empty |
| Items.Property | Assets/Scripts/Editor/UGCItemData.cs:137-180 | a display property is read only from a dictionary and only when present and not null |
| Items.StatusOf | Assets/Scripts/Editor/UGCItemData.cs:112-127 | always a 32-bit status; Draft when "state" is absent, null or not an integer, and otherwise the status whose code is the parsed integer |
| Items.WithStatus | Assets/Scripts/Editor/UGCItemData.cs:128-134 | the setter does nothing without a dictionary, and changes no other property, image, content or tag |
| Items.StatusRoundTrip | Assets/Scripts/Editor/UGCItemData.cs:112-135 | writing a status into a dictionary and reading it back gives that status |
| Items.WithDraftVersion | Assets/Scripts/Editor/UGCItemData.cs:254-258 | setting the draft version writes the display version and leaves status, id and properties unchanged |
| Items.RejectReason | Assets/Scripts/Editor/UGCItemData.cs:137-150 | the text of the "rejectedReason" display property when the properties are a dictionary holding a non-null value there, and "" otherwise |
| Items.ApprovedVersion | Assets/Scripts/Editor/UGCItemData.cs:152-165 | the text of the "approvedVersion" display property when present and not null, and "" otherwise |
| Items.ScenePath | Assets/Scripts/Editor/UGCItemData.cs:167-180 | the text of the "scenePath" display property when present and not null, and null otherwise |
| Items.HasDraft | Assets/Scripts/Editor/UGCItemData.cs:254-269 | true exactly when the catalog's display version is non-null and non-empty |
| Items.TagsSurviveSetters | Assets/Scripts/Editor/UGCItemData.cs:128-267 | `Tags` is the record's own list: setting the status or the draft version leaves it as it was |
| Items.DerivedPropertyDefaults | Assets/Scripts/Editor/UGCItemData.cs:137-180 | reject reason and approved version default to "", the scene path to null, and a draft exists exactly when the draft version is non-empty |
| Numbers.TryParseInt | Assets/Scripts/Editor/UGCVersionHelper.cs:26-29 | a successful `int.TryParse` always yields a value in the 32-bit range |
| Numbers.TryParseShort | Assets/Scripts/Editor/UGCVersionHelper.cs:21-29 | a part of at most three characters that parses lies in -999..999 |
| Numbers.ParsePrintRoundTrip | Assets/Scripts/Editor/UGCVersionHelper.cs:51 | printing a non-negative integer and parsing it back gives the integer |
| Text.IndexOf | Assets/Scripts/Editor/UGCService.cs:191-195 | the first position at or after the start holding the character, or -1 when none does |
| Text.Split | Assets/Scripts/Editor/UGCVersionHelper.cs:17 | `Split` on one character: the parts contain no separator and joining them gives the input back |
| Text.Trim | Assets/Scripts/Editor/UGCItemEditWindow.cs:223 | the input without leading and trailing white space |
| Text.TrimIdempotent | Assets/Scripts/Editor/UGCItemEditWindow.cs:223 | trimming twice is trimming once |
| Text.Truncate | Assets/Scripts/Editor/UGCItemEditWindow.cs:224-227 | the input when it fits; otherwise exactly its first n characters |
| Text.FileNameWithoutExtension | Assets/Scripts/Editor/UGCService.cs:430-433 | a prefix of the file name: it contains no directory separator |
| Text.FileNameWithoutExtensionOfPath | Assets/Scripts/Editor/UGCService.cs:430-433 | for "dir/stem.ext" the result is the stem |
| Versions.TryParseVersion | Assets/Scripts/Editor/UGCVersionHelper.cs:9-35 | fails for null, "" and "N/A", for other than two parts, and for parts of length 0 or over 3; a success holds both parts' parsed values, each in 0..999 |
| Versions.FormatRoundTrip | Assets/Scripts/Editor/UGCVersionHelper.cs:51 | an in-range version prints as "major.minor" and parses back to itself |
| Versions.FormatTooLong | Assets/Scripts/Editor/UGCVersionHelper.cs:21-22 | a major part of 1000 or more prints too long to parse |
| Versions.GetNextVersionString | Assets/Scripts/Editor/UGCVersionHelper.cs:37-42 | "0.1" for anything that does not parse |
| Versions.NextVersionSpec | Assets/Scripts/Editor/UGCVersionHelper.cs:43-51 | the successor bumps minor below 999 and otherwise bumps major and keeps minor; it parses and is greater exactly unless the input is 999.999 |
| Versions.GreaterIsStrictTotalOrder | Assets/Scripts/Editor/UGCVersionHelper.cs:76-85 | "is newer" is irreflexive, asymmetric, transitive and total on unequal versions |
| Versions.GreaterMatchesKey | Assets/Scripts/Editor/UGCVersionHelper.cs:76-85 | on in-range versions it is the order of major * 1000 + minor |
| Versions.CanEditMetadata | Assets/Scripts/Editor/UGCVersionHelper.cs:54-74 | true exactly for a Draft item that is unpublished, or whose draft and published versions both parse with the draft newer |
| Versions.ColorString | Assets/Scripts/Editor/UGCVersionHelper.cs:87-90 | unchanged exactly when the colour is null or empty, otherwise wrapped in a colour tag |
| Versions.RedString | Assets/Scripts/Editor/UGCVersionHelper.cs:92-95 | changed exactly when the flag is set, and then wrapped in a red tag |
| ServiceRules.CompareFrom | Assets/Scripts/Editor/UGCService.cs:1130-1140 | the componentwise comparison yields -1, 0 or 1 |
| ServiceRules.CompareVersionStrings | Assets/Scripts/Editor/UGCService.cs:1121-1141 | two empty strings are equal, and an empty string is below any non-empty one |
| ServiceRules.CompareAntisymmetric | Assets/Scripts/Editor/UGCService.cs:1121-1141 | swapping the arguments negates the result |
| ServiceRules.CompareEqualIffComponentsAgree | Assets/Scripts/Editor/UGCService.cs:1127-1140 | two non-empty strings compare equal exactly when every component agrees, a missing or unparseable one counting as 0 |
| ServiceRules.TrailingZeroComponentIsIgnored | Assets/Scripts/Editor/UGCService.cs:1127-1140 | "1" and "1.0" compare equal |
| ServiceRules.CompareAgreesWithStrictOrder | Assets/Scripts/Editor/UGCService.cs:1121-1141 | on strictly parsed versions the comparator agrees with "is newer", in both directions, and with equality |
| ServiceRules.CanSubmit | Assets/Scripts/Editor/UGCService.cs:1197-1210 | only a Draft item with a draft; for such an item, allowed exactly when the draft is loosely newer than the approved version: no approved version, or a larger value at the first dotted component where the two differ (so "1.0.1" beats "1.0") |
| ServiceRules.CanEdit | Assets/Scripts/Editor/UGCService.cs:1191-1195 | false for a null item; for an item, true exactly when cancelling a submission is not offered |
| ServiceRules.CanCancelSubmit | Assets/Scripts/Editor/UGCService.cs:1212-1216 | only offered for an item, and never together with submitting |
| ServiceRules.CompareGreaterIffLooselyNewer | Assets/Scripts/Editor/UGCService.cs:1121-1141 | the comparator answers 1 exactly when the first string is non-empty and the second is empty or has the smaller value at the first differing component |
| ServiceRules.GatesExclusive | Assets/Scripts/Editor/UGCService.cs:1191-1216 | submit and cancel are never both allowed, submit implies edit, and edit is allowed exactly when cancel is not |
| ServiceRules.NewerDraftCanSubmit | Assets/Scripts/Editor/UGCService.cs:1197-1210 | with both versions parseable, submit is allowed exactly when the draft is newer than the approved version |
| ServiceRules.GetStatusDisplayText | Assets/Scripts/Editor/UGCService.cs:1143-1189 | "Non-Existing" without an item or draft; the draft label alone when unpublished; the published label, followed by the draft label only when the draft compares greater |
| ServiceRules.LabelShowsDraftIffEditable | Assets/Scripts/Editor/UGCService.cs:1143-1189 | for a published Draft item with strictly parsed versions, the label mentions the draft exactly when its metadata may be edited |
| ServiceRules.IsEmailFormatIff | Assets/Scripts/Editor/UGCService.cs:186-200 | the check holds exactly when the string has an '@' neither first nor last, with a '.' at least two places after it, and that '.' not last |
| ServiceRules.EmailFormatHasShape | Assets/Scripts/Editor/UGCService.cs:186-200 | an accepted string has that shape |
| ServiceRules.ShapeIsEmailFormat | Assets/Scripts/Editor/UGCService.cs:186-200 | a string with that shape at the first '@' and the first later '.' is accepted |
| ServiceRules.FindItemByScenePath | Assets/Scripts/Editor/UGCService.cs:1218-1225 | null for an empty path; otherwise the first item whose scene path matches ignoring case, and null only when none does |
| ServiceRules.MapCatalogItemToUGC | Assets/Scripts/Editor/UGCService.cs:1073-1089 | the draft record is kept, the published version is the published record's, the rejected flag holds exactly when moderation rejected it, and the reason is the moderation reason when rejected and null otherwise |
| ServiceRules.MergeDraftAndPublished | Assets/Scripts/Editor/UGCService.cs:1073-1112 | one item per listed id: its draft record, its published version, rejected exactly when that id's published record was rejected by moderation, with that record's reason |
| ServiceRules.MergeCoversUnionOnce | Assets/Scripts/Editor/UGCService.cs:1094-1112 | the list is as long as the union of draft and published ids, and each such id has an item built from its own draft and published records |
| ServiceRules.RemoveScreenshot | Assets/Scripts/Editor/UGCService.cs:924-932 | refused outside 0..count-1; otherwise the list loses exactly the element at the index and keeps the others in order |
| ServiceRules.PlaceScreenshot | Assets/Scripts/Editor/UGCService.cs:1027-1050 | an index past the end appends; otherwise the image at the index is replaced and nothing else changes |
| ServiceArguments.ItemToDictionary | Assets/Scripts/Editor/UGCService.cs:1373-1383 | the metadata dictionary always holds "Id", and each other key exactly when its field is set |
| ServiceArguments.FilesToDictionary | Assets/Scripts/Editor/UGCService.cs:1395-1406 | the files dictionary always holds "Id", and each other key exactly when its field is set |
| ServiceArguments.ItemDictionaryRoundTrip | Assets/Scripts/Editor/UGCService.cs:1373-1383 | reading the metadata dictionary back gives the argument and the id |
| ServiceArguments.FilesDictionaryRoundTrip | Assets/Scripts/Editor/UGCService.cs:1395-1406 | reading the files dictionary back gives the argument and the id |
| ServiceArguments.EmptyArgumentsSendOnlyId | Assets/Scripts/Editor/UGCService.cs:1373-1406 | an argument with nothing set sends only the id |
| ServiceSession.NewService | Assets/Scripts/Editor/UGCService.cs:84-91 | a new service has a valid session exactly when the shared login exists; no items, no credentials, and a limit of 5 |
| ServiceSession.SetCredentials | Assets/Scripts/Editor/UGCService.cs:110-114 | null credentials are stored as empty, and nothing else changes |
| ServiceSession.StartLogin | Assets/Scripts/Editor/UGCService.cs:124-184 | nothing is sent for empty credentials (an error is recorded only when not automatic) or when a login is in flight; otherwise the credentials are cached, a login is in flight, and an e-mail login is chosen exactly for e-mail-like names |
| ServiceSession.OnLoginSuccess | Assets/Scripts/Editor/UGCService.cs:202-214 | the session becomes valid, and the callback receives true |
| ServiceSession.ApplyUserData | Assets/Scripts/Editor/UGCService.cs:230-248 | a "trackModMaxCount" entry sets the limit, to 1 when it does not parse; otherwise nothing changes |
| ServiceSession.OnLoginFailure | Assets/Scripts/Editor/UGCService.cs:254-268 | no valid session and no login in flight; only an interactive login records the message |
| ServiceSession.Logout | Assets/Scripts/Editor/UGCService.cs:271-291 | the session ends, the password and the items are cleared, and the user name is kept |
| ServiceSession.LoginLifecycle | Assets/Scripts/Editor/UGCService.cs:124-291 | a login sends, its success yields a session that logout ends, and after a failure a retry sends again |
| ServiceSession.DraftsById | Assets/Scripts/Editor/UGCService.cs:326-340 | exactly the track drafts, keyed by their own ids |
| ServiceSession.RefreshItems | Assets/Scripts/Editor/UGCService.cs:300-362 | refused when logged out; a failed draft listing empties the list and reports false; no track draft empties it and reports true; otherwise true (none for a reply too large) with the list the merge of the track drafts and published records |
| ServiceSession.MergedDraftsAreDistinctTracks | Assets/Scripts/Editor/UGCService.cs:326-348 | merged items that carry a draft carry a track record, and no two share an id |
| ServiceSession.RefreshedIdsAreDistinct | Assets/Scripts/Editor/UGCService.cs:300-362 | after a successful refresh the list is empty without track drafts, and otherwise holds one item per id of either kind, with distinct ids |
| ServiceSession.RefreshedItemsPairRecords | Assets/Scripts/Editor/UGCService.cs:326-359 | after a successful refresh each track draft id, and each published id when there is a track draft, has an item built from that id's own records |
| ServiceSession.DefaultTitle | Assets/Scripts/Editor/UGCService.cs:430-433 | the display name, or the scene's file name without extension when it is empty |
| ServiceSession.CreateItemForScene | Assets/Scripts/Editor/UGCService.cs:411-496 | sends exactly below the limit, for a non-empty path no item uses, when logged in; a success appends the created item and passes it to the callback |
| ServiceSession.CreateKeepsLimit | Assets/Scripts/Editor/UGCService.cs:413-418 | creating never takes the list past the limit |
| ServiceSession.StateRequestRoundTrip | Assets/Scripts/Editor/UGCService.cs:567-575 | the request names the item and reads back as exactly the operation it was built from, the new version included |
| ServiceSession.StateRequestInjective | Assets/Scripts/Editor/UGCService.cs:567-575 | different operations never send the same request for an item |
| ServiceSession.ApplyStateOp | Assets/Scripts/Editor/UGCService.cs:590-601 | submit sets Submitted, new version sets the draft version and Draft, cancel sets Draft; id, published version and other properties are kept |
| ServiceSession.UpdateItemState | Assets/Scripts/Editor/UGCService.cs:537-614 | a request is sent exactly with a draft, a login and an entity, and it is the item's id, the operation and, for a new version, the version; true exactly when sent and accepted, and then only the chosen item is rewritten |
| ServiceSession.NewVersionSendsTheNewDraftVersion | Assets/Scripts/Editor/UGCService.cs:567-575 | an accepted new version sends as "DraftVersion" exactly the draft version the item is left with |
| ServiceSession.SubmitItem | Assets/Scripts/Editor/UGCService.cs:508-518 | a Submit request is sent exactly for a submittable item in a session with an entity; at most one callback, true exactly when the request was sent and the server accepted it; success leaves it Submitted, anything else leaves the session unchanged |
| ServiceSession.CreateVersion | Assets/Scripts/Editor/UGCService.cs:498-506 | the request is sent exactly for an item with a draft in a logged-in session with an entity, and asks for a new version with the given version; the callback reports success exactly for a sent request the server accepts, which sets the draft version and returns the item to Draft; otherwise the session is unchanged |
| ServiceSession.CancelSubmitItemAsWritten | Assets/Scripts/Editor/UGCService.cs:520-535 | for an item not under review it reports false and still sends the change |
| ServiceSession.CancelSubmitAsWrittenReportsTwice | Assets/Scripts/Editor/UGCService.cs:528-534 | an Approved item gets callbacks false then true and is moved to Draft |
| ServiceSession.CancelSubmitItem | Assets/Scripts/Editor/UGCService.cs:520-535 | with the missing return: the request is sent exactly for an item under review with a draft, in a logged-in session with an entity, and is a CancelSubmit; at most one callback, true exactly for a sent request the server accepts, which returns the item to Draft; otherwise the session is unchanged |
| ServiceSession.SubmitThenCancelRestoresDraft | Assets/Scripts/Editor/UGCService.cs:508-535 | submitting then cancelling returns the item to Draft with its draft version |
| ServiceSession.DeleteItem | Assets/Scripts/Editor/UGCService.cs:616-690 | succeeds exactly when logged in, for a non-empty id, unpublished and not under review, with the server agreeing; then only that item is removed |
| ServiceSession.DeleteRemovesExactlyOne | Assets/Scripts/Editor/UGCService.cs:679 | the list loses exactly one copy of the item and keeps the rest in order |
| ServiceSession.UpdateDraft | Assets/Scripts/Editor/UGCService.cs:695-814 | sent exactly when logged in with an id; a success replaces only the item's draft record |
| ServiceSession.UpdateDraftItemMetadata | Assets/Scripts/Editor/UGCService.cs:695-756 | the request is sent exactly when logged in and the item has an id, and reads back as the argument with the item's id; the callback reports success exactly when the server accepts, and then the returned record replaces the item's draft record and nothing else; otherwise the session is unchanged |
| ServiceSession.UpdateDraftFiles | Assets/Scripts/Editor/UGCService.cs:758-814 | sent exactly when logged in with an id, and the dictionary reads back as the argument with the item's id; true exactly when sent and accepted, and then only the item's draft record is replaced |
| ServiceSession.UploadThumbnail | Assets/Scripts/Editor/UGCService.cs:816-913 | sent exactly with a file, a session, an entity, an upload slot and an item id, and then only the new thumbnail; true exactly when sent and accepted, and then the returned record replaces the item's draft record |
| ServiceSession.DeleteScreenshot | Assets/Scripts/Editor/UGCService.cs:915-940 | sent exactly for an index inside the screenshots, when logged in with an item id, and then the list without that screenshot; true exactly when sent and accepted, and then the returned record replaces the item's draft record |
| ServiceSession.UploadScreenshot | Assets/Scripts/Editor/UGCService.cs:942-1056 | sent exactly with a file, a session, an entity, an upload slot and an item id, and then the list with the new image placed at the index; true exactly when sent and accepted, and then the returned record replaces the item's draft record |
| ServiceSession.UploadThenDeleteRestoresScreenshots | Assets/Scripts/Editor/UGCService.cs:924-1050 | a screenshot appended past the end and deleted at its position gives back the item's list |
| EditWindow.SuggestedNewVersion | Assets/Scripts/Editor/UGCItemEditWindow.cs:118-129 | "0.1" when the draft does not parse |
| EditWindow.SuggestionIsSuccessorBelowCarry | Assets/Scripts/Editor/UGCItemEditWindow.cs:118-129 | below minor 999 the suggestion is the helper's successor |
| EditWindow.SuggestionAtCarryDoesNotParse | Assets/Scripts/Editor/UGCItemEditWindow.cs:118-129 | at minor 999 the suggestion no longer parses |
| EditWindow.OneDot999SuggestsOneDot1000 | Assets/Scripts/Editor/UGCItemEditWindow.cs:118-129 | "1.999" suggests "1.1000", which does not parse |
| EditWindow.SuggestedNewVersionCorrected | Assets/Scripts/Editor/UGCItemEditWindow.cs:118-129 | with the carry, the suggestion parses and is newer for every parseable draft but 999.999 |
| EditWindow.KeepAvailableSpec | Assets/Scripts/Editor/UGCItemEditWindow.cs:131-141 | the initial tags are distinct, and are exactly the item's tags that are available |
| EditWindow.KeepAvailableIdentity | Assets/Scripts/Editor/UGCItemEditWindow.cs:131-141 | nothing is dropped exactly when the tags are distinct and all available |
| EditWindow.InitialSelectedTags | Assets/Scripts/Editor/UGCItemEditWindow.cs:131-141 | the loop computes the reference selection |
| Text.RemoveFirst | Assets/Scripts/Editor/UGCItemEditWindow.cs:428-431 | `List.Remove` leaves a list without the value unchanged, and otherwise cuts out exactly its first occurrence, keeping the rest in order; so one copy fewer |
| EditWindow.ToggleTag | Assets/Scripts/Editor/UGCItemEditWindow.cs:415-435 | on adds the tag at the end only below three tags; off cuts out the tag's first occurrence and keeps the others in order; a disabled form or an unchanged toggle changes nothing |
| EditWindow.ToggleKeepsSelectionValid | Assets/Scripts/Editor/UGCItemEditWindow.cs:415-435 | toggling keeps the selection distinct and available, and never grows it past three |
| EditWindow.ToggleOnOffRestores | Assets/Scripts/Editor/UGCItemEditWindow.cs:415-435 | on then off restores the selection |
| EditWindow.NormalizeName | Assets/Scripts/Editor/UGCItemEditWindow.cs:222-228 | the trimmed name when it fits in 20 characters; otherwise exactly its first 20 characters, which never start with white space |
| EditWindow.NameFixedIff | Assets/Scripts/Editor/UGCItemEditWindow.cs:222-228 | a repaint leaves the name alone exactly when it fits 20 characters and has no white space at either end |
| EditWindow.SecondRepaintChangesNameIff | Assets/Scripts/Editor/UGCItemEditWindow.cs:222-228 | the second repaint changes the name exactly when the trimmed name is longer than 20 and its 20th character is white space |
| EditWindow.NameSettlesAfterTwoRepaints | Assets/Scripts/Editor/UGCItemEditWindow.cs:222-228 | from the second repaint on the name no longer changes |
| EditWindow.NormalizeDescription | Assets/Scripts/Editor/UGCItemEditWindow.cs:252-257 | the description when it fits in 100 characters; otherwise exactly its first 100 characters, untrimmed |
| EditWindow.DescriptionNormalizationIdempotent | Assets/Scripts/Editor/UGCItemEditWindow.cs:252-257 | normalising twice equals normalising once |
| EditWindow.CheckNewVersion | Assets/Scripts/Editor/UGCItemEditWindow.cs:446-494 | rejects, in order: no draft, empty input, unparseable input, and input not newer than a parseable draft |
| EditWindow.SuggestionRejectedAtCarry | Assets/Scripts/Editor/UGCItemEditWindow.cs:118-129 | at minor 999 the window's own check rejects its suggestion |
| EditWindow.CorrectedSuggestionAccepted | Assets/Scripts/Editor/UGCItemEditWindow.cs:446-494 | the corrected suggestion passes the check for every parseable draft but 999.999 |
| EditWindow.NewVersionUnlocksEditing | Assets/Scripts/Editor/UGCItemEditWindow.cs:446-494 | an accepted new version on a published item makes its metadata editable |
| EditWindow.ReloadSlots | Assets/Scripts/Editor/UGCItemEditWindow.cs:966-990 | five slots, the first min(5, n) holding the URLs in order and the rest empty |
| EditWindow.ScreenshotTargetSlot | Assets/Scripts/Editor/UGCItemEditWindow.cs:871-885 | the first empty slot before the index, else the index; nothing outside 0..4 |
| EditWindow.TargetSlotUnique | Assets/Scripts/Editor/UGCItemEditWindow.cs:876-885 | the target is determined by the slots and the index |
| EditWindow.TargetSlotAfterReload | Assets/Scripts/Editor/UGCItemEditWindow.cs:876-990 | after a reload the target is min(index, number of screenshots) |
| EditWindow.UploadAtTargetStaysWithinFive | Assets/Scripts/Editor/UGCItemEditWindow.cs:871-885 | an upload at the target replaces a screenshot or appends one, staying within five |
| EditWindow.FormOf | Assets/Scripts/Editor/UGCItemEditWindow.cs:101-141 | the form starts from the item's title, scene path, description and valid tags |
| EditWindow.IsItemEdited | Assets/Scripts/Editor/UGCItemEditWindow.cs:1209-1222 | a changed title, scene path or description is an edit, and so is a different tag count or a tag present on one side only; a form equal in its text fields whose tags are a reordering of the item's is not an edit; a form that is not an edit has the same tag count and tag set |
| EditWindow.SaveArguments | Assets/Scripts/Editor/UGCItemEditWindow.cs:1118-1163 | nothing is sent exactly when nothing changed; otherwise exactly the changed fields |
| EditWindow.Repaint | Assets/Scripts/Editor/UGCItemEditWindow.cs:222-257 | a repaint keeps scene path and tags, bounds name and description, and leaves the form alone exactly when both fields are already normalised |
| EditWindow.RepaintSettles | Assets/Scripts/Editor/UGCItemEditWindow.cs:222-257 | the form no longer changes from the second repaint on |
| EditWindow.FreshFormEditedIff | Assets/Scripts/Editor/UGCItemEditWindow.cs:222-271 | on the first repaint of a fresh window, Save counts the item as unedited exactly when its tags are a valid selection, its title fits 20 characters with no white space at either end, and its description fits 100 |
| EditWindow.SaveEnabled | Assets/Scripts/Editor/UGCItemEditWindow.cs:219-271 | Save is offered exactly when metadata may be edited, nothing is uploading, and the repainted form has changes to send |
| EditWindow.SaveSendsChanges | Assets/Scripts/Editor/UGCItemEditWindow.cs:222-271 | an enabled Save, judged on the repainted form, sends a dictionary carrying the changed fields, with a title of at most 20 characters |
| ManagerWindow.OnEnableAction | Assets/Scripts/Editor/UGCManagerWindow.cs:56-86 | refresh exactly for a valid session; otherwise auto-login exactly with stored credentials |
| ManagerWindow.AutoLoginOnEnable | Assets/Scripts/Editor/UGCManagerWindow.cs:68-85 | the automatic login sends unless one is in flight, records no error, and its success makes the next opening refresh |
| ManagerWindow.FreshServiceOnEnable | Assets/Scripts/Editor/UGCManagerWindow.cs:47-86 | a new window refreshes exactly with a shared login, and otherwise logs in exactly with both credentials |
| ManagerWindow.CurrentItemButtons | Assets/Scripts/Editor/UGCManagerWindow.cs:303-337 | Edit exactly when editable, Publish exactly when submittable, Abort exactly when under review, Delete always |
| ManagerWindow.ButtonsMatchServiceGates | Assets/Scripts/Editor/UGCManagerWindow.cs:303-337 | one of Edit and Abort; Publish only with Edit; a hidden Publish or Abort would be refused by the service |
| ManagerWindow.CurrentSceneRegion | Assets/Scripts/Editor/UGCManagerWindow.cs:233-260 | no panel without an active scene; the first matching item when one exists; otherwise a create offer for a scene no item matches |
| ManagerWindow.NotCreatedSceneIsCreatable | Assets/Scripts/Editor/UGCManagerWindow.cs:257-275 | the create offer appears exactly when the service would send a create request |
| ManagerWindow.DeleteButtonsAgainstService | Assets/Scripts/Editor/UGCManagerWindow.cs:548-567 | a delete that succeeds had its row button enabled; under review the panel still offers Delete and the service refuses |
| ManagerWindow.RowDeleteEnabled | Assets/Scripts/Editor/UGCManagerWindow.cs:548-551 | a row's Delete is enabled exactly when the service would let the item be edited |
| ManagerWindow.OpenButtonAction | Assets/Scripts/Editor/UGCManagerWindow.cs:509-545 | no path, a missing file (offer a retarget), or a scene to open |
| ManagerWindow.TryPublish | Assets/Scripts/Editor/UGCManagerWindow.cs:360-412 | the first missing item of thumbnail, screenshots, title and two bundles; ready exactly when none is missing |
| ManagerWindow.PublishItem | Assets/Scripts/Editor/UGCManagerWindow.cs:360-395 | a Submit request is sent exactly when the checklist passes, the user confirms, the item is submittable and the session can call the backend; at most one callback, true exactly for a sent request the server accepts; success leaves the item Submitted, anything else leaves the session unchanged |
| ManagerWindow.PublishedItemKeepsChecklist | Assets/Scripts/Editor/UGCManagerWindow.cs:360-395 | a published item still meets the checklist and is under review |
| ManagerWindow.BaseVersion | Assets/Scripts/Editor/UGCManagerWindow.cs:640 | the draft version, or the published one when the draft is null |
| ManagerWindow.PlanRetarget | Assets/Scripts/Editor/UGCManagerWindow.cs:579-664 | nothing for an empty path; the scene path alone when metadata is editable; otherwise with the successor of the base version |
| ManagerWindow.RetargetScene | Assets/Scripts/Editor/UGCManagerWindow.cs:579-664 | a request goes out exactly for a plan, confirmed when it creates a version, in a logged-in session for an item with an id; it carries the plan's fields; declining the new version sends nothing and reports nothing; the callback reports success exactly when the server accepts, and only then does the item's record change |
| ManagerWindow.RetargetRequestKeys | Assets/Scripts/Editor/UGCManagerWindow.cs:633-660 | the request holds exactly the id and scene path, plus a draft version when a version is created |
| ManagerWindow.RetargetVersionIsNewer | Assets/Scripts/Editor/UGCManagerWindow.cs:638-641 | the version a retarget creates parses and is newer than its base, unless the base is 999.999 |
| RetargetWindow.UniquePaths | Assets/Scripts/Editor/UGCSceneRetargetWindow.cs:58-62 | the scene paths without empties and repeats |
| RetargetWindow.LinkedItem | Assets/Scripts/Editor/UGCSceneRetargetWindow.cs:68-71 | the first other item using the path ignoring case, or none when no item does |
| RetargetWindow.EntryFor | Assets/Scripts/Editor/UGCSceneRetargetWindow.cs:73-78 | linked exactly when some other item uses the path, and then with a name |
| RetargetWindow.FoldLeTotal | Assets/Scripts/Editor/UGCSceneRetargetWindow.cs:87 | the case-insensitive path order is total |
| RetargetWindow.FoldLeTransitive | Assets/Scripts/Editor/UGCSceneRetargetWindow.cs:87 | the case-insensitive path order is transitive |
| RetargetWindow.Rank | Assets/Scripts/Editor/UGCSceneRetargetWindow.cs:85-86 | the current path ranks before others, and unlinked before linked |
| RetargetWindow.Insert | Assets/Scripts/Editor/UGCSceneRetargetWindow.cs:84-88 | inserting into a sorted list keeps it sorted and adds exactly the entry |
| RetargetWindow.InsertAtPoint | Assets/Scripts/Editor/UGCSceneRetargetWindow.cs:84-88 | the entry goes right after the leading entries at or below it, so after every entry it ties with, and before the first one strictly above it |
| RetargetWindow.SortEntries | Assets/Scripts/Editor/UGCSceneRetargetWindow.cs:84-88 | the result is sorted and a permutation of the input |
| RetargetWindow.TiedPairKeepsOrder | Assets/Scripts/Editor/UGCSceneRetargetWindow.cs:84-88 | like the stable `OrderBy`, two entries that tie (paths equal ignoring case, same rank) stay in input order |
| RetargetWindow.InitializeEntries | Assets/Scripts/Editor/UGCSceneRetargetWindow.cs:51-89 | sorted, one entry per distinct non-empty path, each with its own link state |
| RetargetWindow.PermutedEntries | Assets/Scripts/Editor/UGCSceneRetargetWindow.cs:58-88 | sorting keeps every path once with its entry |
| RetargetWindow.DisplayOrder | Assets/Scripts/Editor/UGCSceneRetargetWindow.cs:84-88 | current path entries come first, then unlinked before linked |
| RetargetWindow.ClickEntry | Assets/Scripts/Editor/UGCSceneRetargetWindow.cs:135-159 | the selection changes only to an unlinked row that was switched on |
| RetargetWindow.SelectionStaysSelectable | Assets/Scripts/Editor/UGCSceneRetargetWindow.cs:54-159 | after any clicks the selection is the initial one or an unlinked row's path |
| RetargetWindow.ConfirmedSceneIsFree | Assets/Scripts/Editor/UGCSceneRetargetWindow.cs:113-118 | a confirmed scene is the item's own or one no other item uses, and the manager plans a retarget to it |
| Shaders.AllowedNames | Assets/Scripts/AllowedShaders.cs:8-20 | five names pass, compared case-sensitively; "(missing)" and "" fail |
| Shaders.ShaderName | Assets/Scripts/Editor/UGCShaderWhitelistChecker.cs:23-24 | a shader that does not load is named "(missing)" |
| Shaders.ShaderExtensionTest | Assets/Scripts/Editor/UGCShaderWhitelistChecker.cs:19-20 | a dependency is a shader asset by its ending ".shader" ignoring case: ".SHADER" counts, ".shadergraph" and ".shader.meta" do not |
| Shaders.Violations | Assets/Scripts/Editor/UGCShaderWhitelistChecker.cs:15-33 | no reports exactly when no dependency offends, and never more reports than dependencies |
| Shaders.ViolationsAppend | Assets/Scripts/Editor/UGCShaderWhitelistChecker.cs:17-33 | reports follow dependency order: those of two lists are the lists' reports in a row |
| Shaders.ViolationsOfOne | Assets/Scripts/Editor/UGCShaderWhitelistChecker.cs:19-31 | a dependency gives its own report when it offends, and none otherwise |
| Shaders.EnforceShaderWhitelist | Assets/Scripts/Editor/UGCShaderWhitelistChecker.cs:35-50 | true exactly when no dependency offends |
| Shaders.EnforceCases | Assets/Scripts/Editor/UGCShaderWhitelistChecker.cs:19-26 | a shader that fails to load stops the build, and a non-shader dependency changes nothing |

## Left out

- PlayFab calls, JSON, and files:
  - PlayFab requests and the JSON deserialisation of their results: each remote call is a `Reply` parameter.
  - `UploadFile`, the `WebClient` image downloads and reading local files: their success is a parameter.
- Editor state and UI:
  - EditorPrefs credential storage and the static shared session: the latter is only the flag of `NewService`.
  - Dialogs, progress bars and all GUI layout: a dialog's answer is a parameter.
- Floating point and time:
  - bundle sizes in MB and their `F4` formatting;
  - `BundleUploadTime`;
  - the thumbnail's file-size check and `trackModMaxFileMB`.
- Unity engine code:
  - `BundleBuilder` and the asset-database dependency walk: the whitelist decision takes the dependency list as input.
  - `SoftOutlineProcessor`, `RaceManager`, `SecondaryCamera` and `QualityHiddenManager`.
- Strings and numbers:
  - Case folding covers ASCII letters only.
  - Strings are sequences of Unicode characters, not UTF-16 code units. Lengths, `Trim` and the 20- and 100-character cuts (`Text.Truncate`) count characters. Outside the Basic Multilingual Plane a .NET length is larger, and `Substring` can split a surrogate pair.
  - `int.TryParse` ignores culture-specific signs.
  - Doubles in request dictionaries are `real`.
- Null item references passed to service operations: operations take an index into the item list. Creating and finding items require every item to carry its draft record, since the source reads properties that throw otherwise.
- RetargetWindow.SortEntries: `Insert` places an entry after the entries it ties with, and `RetargetWindow.TiedPairKeepsOrder` shows two tied entries keep their order; stability of `OrderBy` over a whole list of ties is not stated. Ties arise only for two paths that differ by case alone.
- Numbers.TryParseInt: the contract states only the 32-bit range of a result. The accepted grammar (white space, sign, digits) is in the body, and `Numbers.ParsePrintRoundTrip` states what it accepts. Trailing NUL characters, which .NET `int.TryParse` also accepts, are rejected here.
- ServiceSession.UploadScreenshot: the index is a `nat`. A negative index from the window cannot occur, because the slot index is 0..4.
- EditWindow.NormalizeName: models one repaint's normalisation of the name. A second repaint can still trim white space that the cut exposed; `EditWindow.SecondRepaintChangesNameIff` says exactly when, and the name settles from then on.
- Interleaving of remote calls: each call and its reply are one atomic step. So the window between `_items.Clear()` and the reply in `RefreshItemsFromServer` (UGCService.cs:316) is not modelled. Neither is an upload callback re-reading `item.Screenshots` after another edit (UGCService.cs:1001).

## Findings

| source | as written | input that shows it | evidently intended | confidence | as-written member | corrected member |
|---|---|---|---|---|---|---|
| Assets/Scripts/Editor/UGCService.cs:520-535 | for an item not under review, `CancelSubmitItemOnServer` reports failure but has no `return`, so it still sends the cancel | an Approved item with a draft, in a valid session, with the server accepting: callbacks false then true, and the item becomes Draft | stop after reporting failure | high, not executed | ServiceSession.CancelSubmitAsWrittenReportsTwice | ServiceSession.CancelSubmitItem |
| Assets/Scripts/Editor/UGCItemEditWindow.cs:118-129 | the suggested new version adds one to the minor part with no carry | draft "1.999" suggests "1.1000", which the window's own check rejects as an invalid format | the helper's successor with the carry ("2.999") | medium, not executed | EditWindow.SuggestionRejectedAtCarry | EditWindow.CorrectedSuggestionAccepted |

=== FILE: edit_window.dfy ===
/**
 * The validation and selection rules of the item edit window: the
 * suggested next version, the tag selection, name and description limits,
 * the new-version check, the screenshot slot an upload goes to, and the
 * change detection behind Save.
 */
module EditWindow {
  import opened Wrappers
  import opened Text
  import opened Numbers
  import opened Items
  import opened Versions
  import opened ServiceRules
  import opened ServiceArguments
  import opened ServiceSession

  const AVAILABLE_TAGS: seq<string> :=
    ["Mini", "Medium", "Large", "City", "Touge", "Park", "Circuit", "Harbor", "Industrial", "Fantasy"]
  const MAX_SELECTED_TAGS := 3
  const SCREENSHOT_MAX_COUNT := 5
  const MAX_TITLE_LENGTH := 20
  const MAX_DESC_LENGTH := 100

  predicate Distinct(s: seq<string>) {
    forall i, j :: 0 <= i < j < |s| ==> s[i] != s[j]
  }

  // ---------------------------------------------------------------------
  // Suggested version
  // ---------------------------------------------------------------------

  /** The window's suggestion: "major.(minor+1)" with no carry, or "0.1". */
  function SuggestedNewVersion(draft: Option<string>): (r: string)
    ensures TryParseVersion(draft).None? ==> r == "0.1"
  {
    if IsNullOrEmpty(draft) || draft == Some("N/A") then "0.1"
    else
      match TryParseVersion(draft)
      case None => "0.1"
      case Some(v) => Format(Version(v.major, v.minor + 1))
  }

  /** Below the carry the suggestion is the helper's successor, and the new-version check accepts it. */
  lemma {:induction false} SuggestionIsSuccessorBelowCarry(draft: Option<string>)
    requires TryParseVersion(draft).Some? && TryParseVersion(draft).value.minor < 999
    ensures SuggestedNewVersion(draft) == GetNextVersionString(draft)
    ensures var v := TryParseVersion(draft).value;
      TryParseVersion(Some(SuggestedNewVersion(draft))) == Some(Version(v.major, v.minor + 1))
  {
    var v := TryParseVersion(draft).value;
    assert Next(v) == Version(v.major, v.minor + 1);
    assert GetNextVersionString(draft) == Format(Next(v));
    assert SuggestedNewVersion(draft) == Format(Version(v.major, v.minor + 1));
    NextVersionSpec(draft);
  }

  /** At minor 999 the suggestion has a four-digit minor, which the parser rejects. */
  lemma {:induction false} SuggestionAtCarryDoesNotParse(draft: Option<string>)
    requires TryParseVersion(draft).Some? && TryParseVersion(draft).value.minor == 999
    ensures TryParseVersion(Some(SuggestedNewVersion(draft))).None?
  {
    var v := TryParseVersion(draft).value;
    var s := SuggestedNewVersion(draft);
    assert s == IntToString(v.major) + "." + IntToString(1000);
    NatToDigitsLength(1000);
    assert '.' !in IntToString(v.major) by {
      forall k | 0 <= k < |IntToString(v.major)| ensures IntToString(v.major)[k] != '.' {
        assert IsDigit(IntToString(v.major)[k]);
      }
    }
    assert '.' !in IntToString(1000) by {
      forall k | 0 <= k < |IntToString(1000)| ensures IntToString(1000)[k] != '.' {
        assert IsDigit(IntToString(1000)[k]);
      }
    }
    SplitTwo(IntToString(v.major), IntToString(1000), '.');
  }

  lemma OneDot999SuggestsOneDot1000()
    ensures SuggestedNewVersion(Some("1.999")) == "1.1000"
    ensures TryParseVersion(Some("1.1000")).None?
  {
    var d := Some("1.999");
    OneDot999Parses();
    SuggestionFormatsSuccessor(d);
    SuggestionAtCarryDoesNotParse(d);
    OneThousandNumeral();
  }

  /** For a draft that parses, the suggestion prints the version with minor one higher. */
  lemma SuggestionFormatsSuccessor(draft: Option<string>)
    requires TryParseVersion(draft).Some?
    ensures var v := TryParseVersion(draft).value;
      SuggestedNewVersion(draft) == Format(Version(v.major, v.minor + 1))
  {
  }

  lemma OneThousandNumeral()
    ensures Format(Version(1, 1000)) == "1.1000"
  {
    SmallNumerals();
  }

  /** "1.999" parses as version 1.999. */
  lemma OneDot999Parses()
    ensures TryParseVersion(Some("1.999")) == Some(Version(1, 999))
  {
    SmallNumerals();
    assert Format(Version(1, 999)) == "1.999";
    FormatRoundTrip(Version(1, 999));
  }

  lemma SmallNumerals()
    ensures IntToString(1) == "1" && IntToString(999) == "999" && IntToString(1000) == "1000"
  {
    assert NatToDigits(9) == "9";
    assert NatToDigits(99) == "99";
    assert NatToDigits(999) == "999";
    assert NatToDigits(1) == "1";
    assert NatToDigits(10) == "10";
    assert NatToDigits(100) == "100";
    assert NatToDigits(1000) == "1000";
  }

  /**
   * The suggestion with the helper's carry: the successor version, which
   * the new-version check accepts for every parseable draft but 999.999.
   */
  function SuggestedNewVersionCorrected(draft: Option<string>): (r: string)
    ensures TryParseVersion(draft).None? ==> r == "0.1"
    ensures TryParseVersion(draft).Some? && TryParseVersion(draft).value != Version(999, 999) ==>
      TryParseVersion(Some(r)).Some?
      && IsNewVersionGreater(TryParseVersion(draft).value, TryParseVersion(Some(r)).value)
  {
    SuccessorParses(draft);
    GetNextVersionString(draft)
  }

  lemma SuccessorParses(draft: Option<string>)
    ensures TryParseVersion(draft).Some? && TryParseVersion(draft).value != Version(999, 999) ==>
      var r := TryParseVersion(Some(GetNextVersionString(draft)));
      r.Some? && IsNewVersionGreater(TryParseVersion(draft).value, r.value)
  {
    if TryParseVersion(draft).Some? {
      NextVersionSpec(draft);
    }
  }

  // ---------------------------------------------------------------------
  // Tags
  // ---------------------------------------------------------------------

  /** The item's tags restricted to the available ones, first occurrence kept, in order. */
  function KeepAvailable(tags: seq<string>): seq<string>
    decreases |tags|
  {
    if |tags| == 0 then []
    else
      var kept := KeepAvailable(tags[..|tags| - 1]);
      var t := tags[|tags| - 1];
      if t in AVAILABLE_TAGS && t !in kept then kept + [t] else kept
  }

  lemma {:induction false} KeepAvailableSpec(tags: seq<string>)
    ensures Distinct(KeepAvailable(tags))
    ensures forall t :: t in KeepAvailable(tags) <==> t in tags && t in AVAILABLE_TAGS
    ensures |KeepAvailable(tags)| <= |tags|
    decreases |tags|
  {
    if |tags| > 0 {
      var init := tags[..|tags| - 1];
      KeepAvailableSpec(init);
      assert tags == init + [tags[|tags| - 1]];
    }
  }

  /** Nothing is dropped exactly when the tags are distinct and all available. */
  lemma {:induction false} KeepAvailableIdentity(tags: seq<string>)
    ensures KeepAvailable(tags) == tags <==> Distinct(tags) && forall t :: t in tags ==> t in AVAILABLE_TAGS
    ensures |KeepAvailable(tags)| == |tags| ==> KeepAvailable(tags) == tags
    decreases |tags|
  {
    KeepAvailableSpec(tags);
    if |tags| > 0 {
      var init := tags[..|tags| - 1];
      var last := tags[|tags| - 1];
      KeepAvailableIdentity(init);
      KeepAvailableSpec(init);
      assert tags == init + [last];
      if Distinct(tags) && forall t :: t in tags ==> t in AVAILABLE_TAGS {
        assert Distinct(init) by {
          forall i, j | 0 <= i < j < |init| ensures init[i] != init[j] { assert tags[i] == init[i] && tags[j] == init[j]; }
        }
        assert last !in init by {
          forall i | 0 <= i < |init| ensures init[i] != last { assert tags[i] == init[i]; }
        }
      }
    }
  }

  /** `InitializeFromItem`'s tag loop. */
  method InitialSelectedTags(tags: Option<seq<string>>) returns (selected: seq<string>)
    ensures selected == KeepAvailable(tags.GetOr([]))
    ensures Distinct(selected)
    ensures forall t :: t in selected <==> t in tags.GetOr([]) && t in AVAILABLE_TAGS
  {
    selected := [];
    if tags.Some? && |tags.value| > 0 {
      var ts := tags.value;
      var i := 0;
      while i < |ts|
        invariant 0 <= i <= |ts|
        invariant selected == KeepAvailable(ts[..i])
      {
        var t := ts[i];
        assert ts[..i + 1][..i] == ts[..i];
        if t in AVAILABLE_TAGS && t !in selected {
          selected := selected + [t];
        }
        i := i + 1;
      }
      assert ts[..i] == ts;
    }
    KeepAvailableSpec(tags.GetOr([]));
  }

  /**
   * One tag toggle in an enabled form: switching a tag on appends it unless
   * three are already selected; switching it off removes it.
   */
  function ToggleTag(selected: seq<string>, tag: string, clicked: bool, canEdit: bool): (r: seq<string>)
    ensures !canEdit || clicked == (tag in selected) ==> r == selected
    ensures canEdit && clicked && tag !in selected && |selected| >= MAX_SELECTED_TAGS ==> r == selected
    ensures canEdit && clicked && tag !in selected && |selected| < MAX_SELECTED_TAGS ==> r == selected + [tag]
    ensures canEdit && !clicked && tag in selected ==> multiset(r) == multiset(selected) - multiset{tag}
    ensures canEdit && !clicked && tag in selected ==>
      r == selected[..FirstIndex(selected, tag)] + selected[FirstIndex(selected, tag) + 1..]
  {
    var isSelected := tag in selected;
    if canEdit && clicked != isSelected then
      if clicked then
        if |selected| >= MAX_SELECTED_TAGS then selected else selected + [tag]
      else RemoveFirst(selected, tag)
    else selected
  }

  /** A valid selection: distinct available tags. */
  predicate ValidSelection(selected: seq<string>) {
    Distinct(selected) && forall t :: t in selected ==> t in AVAILABLE_TAGS
  }

  lemma {:induction false} DistinctMultiset(s: seq<string>)
    ensures Distinct(s) <==> forall x :: multiset(s)[x] <= 1
    decreases |s|
  {
    if |s| > 0 {
      DistinctMultiset(s[1..]);
      assert s == [s[0]] + s[1..];
      if Distinct(s) {
        assert s[0] !in s[1..] by {
          forall j | 0 <= j < |s[1..]| ensures s[1..][j] != s[0] { assert s[1..][j] == s[j + 1]; }
        }
        assert Distinct(s[1..]) by {
          forall i, j | 0 <= i < j < |s[1..]| ensures s[1..][i] != s[1..][j] { assert s[1..][i] == s[i + 1] && s[1..][j] == s[j + 1]; }
        }
      }
      if forall x :: multiset(s)[x] <= 1 {
        assert forall x :: multiset(s[1..])[x] <= 1 by {
          forall x ensures multiset(s[1..])[x] <= 1 { assert multiset(s)[x] == multiset{s[0]}[x] + multiset(s[1..])[x]; }
        }
        assert multiset(s)[s[0]] == 1 + multiset(s[1..])[s[0]];
        forall i, j | 0 <= i < j < |s| ensures s[i] != s[j] {
          if i == 0 {
            assert s[j] in s[1..] by { assert s[1..][j - 1] == s[j]; }
          } else {
            assert s[1..][i - 1] == s[i] && s[1..][j - 1] == s[j];
          }
        }
      }
    }
  }

  /**
   * Toggling keeps the selection distinct and within the available tags,
   * and never takes it past three tags (an item may arrive with more).
   */
  lemma {:induction false} ToggleKeepsSelectionValid(selected: seq<string>, tag: string, clicked: bool, canEdit: bool)
    requires ValidSelection(selected) && tag in AVAILABLE_TAGS
    ensures var r := ToggleTag(selected, tag, clicked, canEdit);
      && ValidSelection(r)
      && |r| <= Max(|selected|, MAX_SELECTED_TAGS)
      && (canEdit && !clicked ==> tag !in r)
  {
    var r := ToggleTag(selected, tag, clicked, canEdit);
    DistinctMultiset(selected);
    if canEdit && clicked && tag !in selected && |selected| < MAX_SELECTED_TAGS {
      assert forall x :: multiset(r)[x] <= 1 by {
        forall x ensures multiset(r)[x] <= 1 { assert multiset(r) == multiset(selected) + multiset{tag}; }
      }
      DistinctMultiset(r);
    } else if canEdit && !clicked && tag in selected {
      assert forall x :: multiset(r)[x] <= 1;
      DistinctMultiset(r);
      assert |r| < |selected| by { assert |multiset(r)| == |multiset(selected)| - 1; }
      assert forall t :: t in r ==> t in selected by {
        forall t | t in r ensures t in selected { assert multiset(r)[t] > 0; }
      }
      assert tag !in r by { assert multiset(r)[tag] == 0; }
    }
  }

  /** Switching an unselected tag on and off again, with room to add it, restores the selection. */
  lemma {:induction false} ToggleOnOffRestores(selected: seq<string>, tag: string)
    requires tag !in selected && |selected| < MAX_SELECTED_TAGS
    ensures ToggleTag(ToggleTag(selected, tag, true, true), tag, false, true) == selected
  {
    var added := selected + [tag];
    assert tag in added by { assert added[|selected|] == tag; }
    RemoveLastUnique(selected, tag);
  }

  lemma {:induction false} RemoveLastUnique(s: seq<string>, x: string)
    requires x !in s
    ensures RemoveFirst(s + [x], x) == s
  {
    var t := s + [x];
    assert t[..|s|] == s;
    assert FirstIndex(t, x) == |s|;
    assert t[|s| + 1..] == [];
  }

  // ---------------------------------------------------------------------
  // Name and description
  // ---------------------------------------------------------------------

  /** The name field after each edit: trimmed, then cut to 20 characters. */
  function NormalizeName(s: string): (r: string)
    ensures |r| <= MAX_TITLE_LENGTH && r <= Trim(s)
    ensures |Trim(s)| <= MAX_TITLE_LENGTH ==> r == Trim(s)
    ensures |Trim(s)| > MAX_TITLE_LENGTH ==> |r| == MAX_TITLE_LENGTH
    ensures r == [] || !IsWhiteSpace(r[0])
  {
    Truncate(Trim(s), MAX_TITLE_LENGTH)
  }

  /** A name is left alone by a repaint exactly when it fits and has no white space at either end. */
  lemma NameFixedIff(s: string)
    ensures NormalizeName(s) == s <==>
      |s| <= MAX_TITLE_LENGTH && (s == [] || (!IsWhiteSpace(s[0]) && !IsWhiteSpace(s[|s| - 1])))
  {
    if |s| <= MAX_TITLE_LENGTH && (s == [] || (!IsWhiteSpace(s[0]) && !IsWhiteSpace(s[|s| - 1]))) {
      TrimmedIsFixed(s);
    }
  }

  /**
   * A second repaint changes the name exactly when the trimmed name is
   * longer than 20 characters and the cut leaves white space at its end;
   * the second repaint then trims that away.
   */
  lemma {:induction false} SecondRepaintChangesNameIff(s: string)
    ensures NormalizeName(NormalizeName(s)) != NormalizeName(s) <==>
      |Trim(s)| > MAX_TITLE_LENGTH && IsWhiteSpace(Trim(s)[MAX_TITLE_LENGTH - 1])
  {
    var x := NormalizeName(s);
    NameFixedIff(x);
    if |Trim(s)| > MAX_TITLE_LENGTH {
      assert x == Trim(s)[..MAX_TITLE_LENGTH];
      assert x[|x| - 1] == Trim(s)[MAX_TITLE_LENGTH - 1];
    }
  }

  /** From the second repaint on the name no longer changes. */
  lemma {:induction false} NameSettlesAfterTwoRepaints(s: string)
    ensures NormalizeName(NormalizeName(NormalizeName(s))) == NormalizeName(NormalizeName(s))
  {
    var x := NormalizeName(s);
    var y := NormalizeName(x);
    assert |Trim(x)| <= MAX_TITLE_LENGTH;
    assert y == Trim(x);
    TrimIdempotent(x);
    assert |Trim(y)| <= MAX_TITLE_LENGTH;
  }

  /** The description field after each edit: cut to 100 characters, not trimmed. */
  function NormalizeDescription(s: string): (r: string)
    ensures |r| <= MAX_DESC_LENGTH && r <= s
    ensures |s| <= MAX_DESC_LENGTH ==> r == s
    ensures |s| > MAX_DESC_LENGTH ==> |r| == MAX_DESC_LENGTH
  {
    Truncate(s, MAX_DESC_LENGTH)
  }

  /** A description the field already holds is left alone. */
  lemma DescriptionNormalizationIdempotent(s: string)
    ensures NormalizeDescription(NormalizeDescription(s)) == NormalizeDescription(s)
  {
  }

  // ---------------------------------------------------------------------
  // New version
  // ---------------------------------------------------------------------

  datatype VersionCheck = NoDraft | EmptyInput | InvalidFormat | NotGreater | Accepted(version: Version)

  /**
   * `CreateNewVersion`'s checks, in order: a draft, a non-empty input, an
   * input that parses, and one greater than the current draft when that
   * parses (no comparison otherwise).
   */
  function CheckNewVersion(item: ItemData, input: Option<string>): (r: VersionCheck)
    requires HasRecord(item)
    ensures r.NoDraft? <==> !HasDraft(item)
    ensures r.EmptyInput? <==> HasDraft(item) && IsNullOrEmpty(input)
    ensures r.InvalidFormat? <==> HasDraft(item) && !IsNullOrEmpty(input) && TryParseVersion(input).None?
    ensures r.Accepted? <==> (HasDraft(item) && TryParseVersion(input).Some?
      && (TryParseVersion(DraftVersion(item)).Some? ==>
            IsNewVersionGreater(TryParseVersion(DraftVersion(item)).value, TryParseVersion(input).value)))
    ensures r.Accepted? ==> TryParseVersion(input) == Some(r.version)
  {
    if !HasDraft(item) then NoDraft
    else if IsNullOrEmpty(input) then EmptyInput
    else
      match TryParseVersion(input)
      case None => InvalidFormat
      case Some(v) =>
        match TryParseVersion(DraftVersion(item))
        case Some(current) =>
          if !IsNewVersionGreater(current, v) then NotGreater else Accepted(v)
        case None => Accepted(v)
  }

  /** The window suggests a version its own check rejects once the minor reaches 999. */
  lemma {:induction false} SuggestionRejectedAtCarry(item: ItemData)
    requires HasRecord(item) && TryParseVersion(DraftVersion(item)).Some?
    requires TryParseVersion(DraftVersion(item)).value.minor == 999
    ensures CheckNewVersion(item, Some(SuggestedNewVersion(DraftVersion(item)))) == InvalidFormat
  {
    SuggestionAtCarryDoesNotParse(DraftVersion(item));
  }

  /** The corrected suggestion passes the window's check for every parseable draft but 999.999. */
  lemma {:induction false} CorrectedSuggestionAccepted(item: ItemData)
    requires HasRecord(item) && TryParseVersion(DraftVersion(item)).Some?
    requires TryParseVersion(DraftVersion(item)).value != Version(999, 999)
    ensures CheckNewVersion(item, Some(SuggestedNewVersionCorrected(DraftVersion(item)))).Accepted?
  {
  }

  /**
   * Creating an accepted version on a published item whose draft is not
   * older than the published version unlocks metadata editing.
   */
  lemma {:induction false} NewVersionUnlocksEditing(s: Session, k: int, input: Option<string>)
    requires ValidIndex(s, k) && HasValidSession(s)
    requires s.items[k].catalog.value.displayProperties.Some?
    requires CheckNewVersion(s.items[k], input).Accepted?
    requires HasPublished(s.items[k])
    requires TryParseVersion(DraftVersion(s.items[k])).Some? && TryParseVersion(s.items[k].publishedVersion).Some?
    requires !IsNewVersionGreater(TryParseVersion(DraftVersion(s.items[k])).value,
                                  TryParseVersion(s.items[k].publishedVersion).value)
    ensures CreateVersion(s, k, input, Ok(())).calls == [true]
    ensures CanEditMetadata(Some(CreateVersion(s, k, input, Ok(())).session.items[k]))
  {
    var old_ := TryParseVersion(DraftVersion(s.items[k])).value;
    var pub := TryParseVersion(s.items[k].publishedVersion).value;
    var v := TryParseVersion(input).value;
    GreaterIsStrictTotalOrder(pub, old_, v);
    var item := CreateVersion(s, k, input, Ok(())).session.items[k];
    assert item == ApplyStateOp(s.items[k], NewVersionOp(input));
  }

  // ---------------------------------------------------------------------
  // Screenshot slots
  // ---------------------------------------------------------------------

  /** `ReloadScreenshots`: five slots, the first filled in order from the server's URLs. */
  function ReloadSlots(urls: seq<string>): (slots: seq<Option<string>>)
    ensures |slots| == SCREENSHOT_MAX_COUNT
    ensures forall i :: 0 <= i < SCREENSHOT_MAX_COUNT ==>
      slots[i] == (if i < |urls| then Some(urls[i]) else None)
  {
    seq(SCREENSHOT_MAX_COUNT, i requires 0 <= i < SCREENSHOT_MAX_COUNT =>
      if i < |urls| then Some(urls[i]) else None)
  }

  /** `t` is the slot an upload clicked at `index` goes to. */
  predicate IsTargetSlot(slots: seq<Option<string>>, index: int, t: int) {
    && 0 <= t <= index < |slots|
    && (forall i :: 0 <= i < t ==> !IsNullOrEmpty(slots[i]))
    && (t < index ==> IsNullOrEmpty(slots[t]))
  }

  /** The slot choice of `BrowseAndUploadScreenshot`: the first empty slot before `index`, else `index`. */
  method ScreenshotTargetSlot(slots: seq<Option<string>>, index: int) returns (target: Option<int>)
    requires |slots| == SCREENSHOT_MAX_COUNT
    ensures target.None? <==> !(0 <= index < SCREENSHOT_MAX_COUNT)
    ensures target.Some? ==> IsTargetSlot(slots, index, target.value)
  {
    if index < 0 || index >= SCREENSHOT_MAX_COUNT {
      return None;
    }
    var t := index;
    var i := 0;
    while i < index
      invariant 0 <= i <= index
      invariant forall j :: 0 <= j < i ==> !IsNullOrEmpty(slots[j])
    {
      if IsNullOrEmpty(slots[i]) {
        t := i;
        break;
      }
      i := i + 1;
    }
    return Some(t);
  }

  /** The target slot is determined by the slots and the index. */
  lemma TargetSlotUnique(slots: seq<Option<string>>, index: int, t1: int, t2: int)
    requires IsTargetSlot(slots, index, t1) && IsTargetSlot(slots, index, t2)
    ensures t1 == t2
  {
  }

  /** After a reload from non-empty URLs, an upload goes to slot min(index, number of screenshots). */
  lemma TargetSlotAfterReload(urls: seq<string>, index: int, t: int)
    requires forall i :: 0 <= i < |urls| ==> urls[i] != ""
    requires IsTargetSlot(ReloadSlots(urls), index, t)
    ensures t == Min(index, |urls|)
  {
    var slots := ReloadSlots(urls);
    assert forall i :: |urls| <= i < SCREENSHOT_MAX_COUNT ==> IsNullOrEmpty(slots[i]);
    assert forall i :: 0 <= i < |urls| && i < SCREENSHOT_MAX_COUNT ==> !IsNullOrEmpty(slots[i]);
    assert |urls| < SCREENSHOT_MAX_COUNT ==> IsNullOrEmpty(slots[|urls|]);
  }

  function Min(a: int, b: int): int {
    if a <= b then a else b
  }

  /**
   * An upload placed at the window's target slot keeps the screenshot list
   * gap-free and within five: it replaces an existing screenshot or appends
   * exactly one.
   */
  lemma {:induction false} UploadAtTargetStaysWithinFive(shots: seq<Image>, urls: seq<string>, index: int, t: int, img: Image)
    requires |urls| == |shots| <= SCREENSHOT_MAX_COUNT
    requires forall i :: 0 <= i < |urls| ==> urls[i] != ""
    requires IsTargetSlot(ReloadSlots(urls), index, t)
    ensures var r := PlaceScreenshot(shots, t, img);
      && |r| <= SCREENSHOT_MAX_COUNT
      && t <= |shots| && r[t] == img
      && |r| == (if index < |shots| then |shots| else |shots| + 1)
  {
    TargetSlotAfterReload(urls, index, t);
  }

  // ---------------------------------------------------------------------
  // Save
  // ---------------------------------------------------------------------

  /** The editable fields of the window. */
  datatype Form = Form(name: string, scenePath: Option<string>, description: string, tags: seq<string>)

  /** The fields as `InitializeFromItem` fills them. */
  function FormOf(item: ItemData): (f: Form)
    requires HasRecord(item)
    ensures f.name == Title(item) && f.scenePath == ScenePath(item) && f.description == Description(item)
    ensures ValidSelection(f.tags)
  {
    KeepAvailableSpec(Tags(item).GetOr([]));
    Form(Title(item), ScenePath(item), Description(item), KeepAvailable(Tags(item).GetOr([])))
  }

  /** Tags differ when the counts differ or either list has a tag the other lacks. */
  predicate TagsChanged(original: seq<string>, selected: seq<string>) {
    || |original| != |selected|
    || (exists t :: t in original && t !in selected)
    || (exists t :: t in selected && t !in original)
  }

  /**
   * `IsItemEdited`: a text field differs, or the tag lists differ in length
   * or in the set of tags. Reordering the tags is not an edit.
   */
  function IsItemEdited(item: ItemData, form: Form): (r: bool)
    requires HasRecord(item)
    ensures (&& form.name == Title(item) && form.scenePath == ScenePath(item) && form.description == Description(item)
             && multiset(form.tags) == multiset(Tags(item).GetOr([]))) ==> !r
    ensures !r ==> |form.tags| == |Tags(item).GetOr([])|
    ensures Title(item) != form.name || ScenePath(item) != form.scenePath || Description(item) != form.description ==> r
    ensures || |form.tags| != |Tags(item).GetOr([])|
            || (exists t :: t in Tags(item).GetOr([]) && t !in form.tags)
            || (exists t :: t in form.tags && t !in Tags(item).GetOr([]))
            ==> r
    ensures !r ==> forall t :: t in form.tags <==> t in Tags(item).GetOr([])
  {
    var original := Tags(item).GetOr([]);
    assert multiset(form.tags) == multiset(original) ==> |form.tags| == |original| by {
      assert |multiset(form.tags)| == |form.tags| && |multiset(original)| == |original|;
    }
    assert multiset(form.tags) == multiset(original) ==> forall t :: t in form.tags <==> t in original by {
      assert forall t :: t in form.tags <==> t in multiset(form.tags);
      assert forall t :: t in original <==> t in multiset(original);
    }
    || Title(item) != form.name
    || ScenePath(item) != form.scenePath
    || Description(item) != form.description
    || TagsChanged(Tags(item).GetOr([]), form.tags)
  }

  /** The argument `SaveItemChanges` sends: only the changed fields; nothing when nothing changed. */
  function SaveArguments(item: ItemData, form: Form): (r: Option<ItemArgument>)
    requires HasRecord(item)
    ensures r.None? <==> !IsItemEdited(item, form)
    ensures r.Some? ==> (
      && (r.value.title.Some? <==> Title(item) != form.name)
      && (r.value.title.Some? ==> r.value.title.value == form.name)
      && (r.value.description.Some? <==> Description(item) != form.description)
      && (r.value.description.Some? ==> r.value.description.value == form.description)
      && (ScenePath(item) != form.scenePath ==> r.value.scenePath == form.scenePath)
      && (ScenePath(item) == form.scenePath ==> r.value.scenePath.None?)
      && (r.value.tags.Some? <==> TagsChanged(Tags(item).GetOr([]), form.tags))
      && (r.value.tags.Some? ==> r.value.tags.value == form.tags)
      && r.value.draftVersion.None?)
  {
    var nameChanged := Title(item) != form.name;
    var pathChanged := ScenePath(item) != form.scenePath;
    var descChanged := Description(item) != form.description;
    var tagsChanged := TagsChanged(Tags(item).GetOr([]), form.tags);
    if !(nameChanged || pathChanged || descChanged || tagsChanged) then None
    else
      Some(ItemArgument(
        if nameChanged then Some(form.name) else None,
        if descChanged then Some(form.description) else None,
        if pathChanged then form.scenePath else None,
        if tagsChanged then Some(form.tags) else None,
        None))
  }

  /**
   * One pass of `DrawEditableFields` over the text fields: the name is
   * trimmed and cut, the description cut; the Save gate and a pressed Save
   * both see the form as it is after this pass.
   */
  function Repaint(form: Form): (f: Form)
    ensures f.scenePath == form.scenePath && f.tags == form.tags
    ensures |f.name| <= MAX_TITLE_LENGTH && |f.description| <= MAX_DESC_LENGTH
    ensures f == form <==> NormalizeName(form.name) == form.name && NormalizeDescription(form.description) == form.description
  {
    form.(name := NormalizeName(form.name), description := NormalizeDescription(form.description))
  }

  /** Repainting settles by the second pass. */
  lemma {:induction false} RepaintSettles(form: Form)
    ensures Repaint(Repaint(Repaint(form))) == Repaint(Repaint(form))
  {
    NameSettlesAfterTwoRepaints(form.name);
    DescriptionNormalizationIdempotent(NormalizeDescription(form.description));
  }

  /**
   * On the first repaint of a freshly opened window Save counts the item
   * as edited unless its tags are a valid selection, its title fits 20
   * characters with no white space at either end, and its description fits
   * 100 characters.
   */
  lemma {:induction false} FreshFormEditedIff(item: ItemData)
    requires HasRecord(item)
    ensures !IsItemEdited(item, Repaint(FormOf(item))) <==>
      && ValidSelection(Tags(item).GetOr([]))
      && |Title(item)| <= MAX_TITLE_LENGTH
      && (Title(item) == [] || (!IsWhiteSpace(Title(item)[0]) && !IsWhiteSpace(Title(item)[|Title(item)| - 1])))
      && |Description(item)| <= MAX_DESC_LENGTH
  {
    var tags := Tags(item).GetOr([]);
    KeepAvailableIdentity(tags);
    KeepAvailableSpec(tags);
    NameFixedIff(Title(item));
    if !TagsChanged(tags, KeepAvailable(tags)) {
      assert KeepAvailable(tags) == tags;
    }
  }

  /**
   * Save is offered only when metadata may be edited, nothing is uploading,
   * and the form as this repaint leaves it differs from the item.
   */
  function SaveEnabled(item: ItemData, form: Form, isUploading: bool): (r: bool)
    requires HasRecord(item)
    ensures r <==> CanEditMetadata(Some(item)) && !isUploading && SaveArguments(item, Repaint(form)).Some?
  {
    CanEditMetadata(Some(item)) && !isUploading && IsItemEdited(item, Repaint(form))
  }

  /** An enabled Save always has something to send, and the dictionary carries exactly those fields. */
  lemma SaveSendsChanges(item: ItemData, form: Form, isUploading: bool)
    requires HasRecord(item) && SaveEnabled(item, form, isUploading)
    ensures SaveArguments(item, Repaint(form)).Some?
    ensures var args := SaveArguments(item, Repaint(form)).value;
      ItemOfDictionary(ItemToDictionary(args, ItemId(item))) == args
    ensures var args := SaveArguments(item, Repaint(form)).value;
      args.title.Some? ==> |args.title.value| <= MAX_TITLE_LENGTH
  {
    ItemDictionaryRoundTrip(SaveArguments(item, Repaint(form)).value, ItemId(item));
  }
}

=== FILE: items.dfy ===
/**
 * A UGC map item: the catalog record the backend stores for it, and the
 * view the editor derives from that record (status, title, description,
 * thumbnail, screenshots, bundles, versions).
 */
module Items {
  import opened Wrappers
  import opened Text
  import opened Numbers

  const NEUTRAL_KEY: string := "NEUTRAL"
  const SCENE_PATH_KEY: string := "scenePath"
  const STATUS_KEY: string := "state"
  const REJECT_REASON_KEY: string := "rejectedReason"
  const APPROVED_VERSION_KEY: string := "approvedVersion"
  const TRACK_CONTENT_TYPE: string := "ugc_track"

  /**
   * The moderation state of an item's draft. The source stores it as an
   * integer code; `Undefined(code)` is what casting any code other than
   * 0..3 to the enum yields.
   */
  datatype Status = Draft | Submitted | Approved | Rejected | Undefined(code: int)

  /** A status some 32-bit code denotes. */
  predicate ValidStatus(s: Status) {
    s.Undefined? ==> IsInt32(s.code) && !(0 <= s.code <= 3)
  }

  /** The integer `(int)status`. */
  function CodeOf(s: Status): int {
    match s
    case Draft => 0
    case Submitted => 1
    case Approved => 2
    case Rejected => 3
    case Undefined(c) => c
  }

  /** The cast `(UGCItemStatus)i`. */
  function StatusOfCode(i: int): (s: Status)
    ensures CodeOf(s) == i
    ensures IsInt32(i) ==> ValidStatus(s)
  {
    if i == 0 then Draft
    else if i == 1 then Submitted
    else if i == 2 then Approved
    else if i == 3 then Rejected
    else Undefined(i)
  }

  /** A value of the display-property dictionary: null, a number, or text. */
  datatype Value = Null | Num(n: int) | Str(s: string)

  /** `value.ToString()` of a non-null property value. */
  function ValueToString(v: Value): string
    requires !v.Null?
  {
    match v
    case Num(n) => IntToString(n)
    case Str(s) => s
  }

  datatype Image = Image(id: Option<string>, url: Option<string>, kind: Option<string>)

  /** A content (bundle) entry; the model only copies these. */
  datatype Content = Content(id: Option<string>, url: Option<string>, kind: Option<string>)

  /** PlayFab's moderation states; only the rejected one is consulted. */
  datatype ModerationStatus = Unknown | AwaitingModeration | ModerationApproved | ModerationRejected

  datatype Moderation = Moderation(status: Option<ModerationStatus>, reason: Option<string>)

  /**
   * The catalog record of an item. `displayProperties` is `None` both when
   * it is null and when it is not a dictionary, since the source treats
   * those alike.
   */
  datatype CatalogItem = CatalogItem(
    id: string,
    contentType: Option<string>,
    title: Option<map<string, string>>,
    description: Option<map<string, string>>,
    displayVersion: Option<string>,
    displayProperties: Option<map<string, Value>>,
    images: Option<seq<Image>>,
    contents: Option<seq<Content>>,
    tags: Option<seq<string>>,
    moderation: Option<Moderation>)

  /**
   * The editor's view of an item. `catalog` is the draft record; the source
   * can build an item without one (for an id that only has a published
   * record), and every property read of such an item throws.
   */
  datatype ItemData = ItemData(
    catalog: Option<CatalogItem>,
    publishedVersion: Option<string>,
    publishedRejected: bool,
    publishedRejectReason: Option<string>)

  predicate HasRecord(item: ItemData) {
    item.catalog.Some?
  }

  function ItemId(item: ItemData): string
    requires HasRecord(item)
  {
    item.catalog.value.id
  }

  predicate IsThumbnail(img: Image) {
    img.kind.Some? && EqualsIgnoreCase(img.kind.value, "Thumbnail")
  }

  predicate IsScreenshot(img: Image) {
    img.kind.Some? && EqualsIgnoreCase(img.kind.value, "Screenshot") && !IsNullOrEmpty(img.url)
  }

  /** The position of the first thumbnail image, or -1. */
  function ThumbnailIndex(images: seq<Image>): (k: int)
    ensures -1 <= k < |images|
    ensures k >= 0 ==> IsThumbnail(images[k])
    ensures forall j :: 0 <= j < |images| && (k < 0 || j < k) ==> !IsThumbnail(images[j])
  {
    if |images| == 0 then -1
    else if IsThumbnail(images[0]) then 0
    else
      var k := ThumbnailIndex(images[1..]);
      if k < 0 then -1 else k + 1
  }

  /** The URL of the first image whose type is "Thumbnail", or null. */
  function ThumbnailUrl(item: ItemData): (r: Option<string>)
    requires HasRecord(item)
    ensures item.catalog.value.images.None? ==> r.None?
    ensures item.catalog.value.images.Some? ==>
      var images := item.catalog.value.images.value;
      var k := ThumbnailIndex(images);
      (k < 0 ==> r.None?) && (k >= 0 ==> r == images[k].url)
  {
    match item.catalog.value.images
    case None => None
    case Some(images) =>
      var k := ThumbnailIndex(images);
      if k < 0 then None else images[k].url
  }

  /** A thumbnail counts when the first image typed "Thumbnail" has a non-empty URL; later ones are not consulted. */
  function HasThumbnail(item: ItemData): (r: bool)
    requires HasRecord(item)
    ensures r <==> (
      && item.catalog.value.images.Some?
      && ThumbnailIndex(item.catalog.value.images.value) >= 0
      && !IsNullOrEmpty(item.catalog.value.images.value[ThumbnailIndex(item.catalog.value.images.value)].url))
  {
    !IsNullOrEmpty(ThumbnailUrl(item))
  }

  /** The screenshot images of `images`, in order. */
  function ScreenshotImages(images: seq<Image>): (r: seq<Image>)
    ensures |r| <= |images|
    ensures forall x :: x in r <==> x in images && IsScreenshot(x)
  {
    if |images| == 0 then []
    else
      var rest := ScreenshotImages(images[1..]);
      assert forall x :: x in images <==> x == images[0] || x in images[1..];
      if IsScreenshot(images[0]) then [images[0]] + rest else rest
  }

  /** Filtering commutes with concatenation: order is kept and nothing is reordered. */
  lemma {:induction false} ScreenshotImagesAppend(a: seq<Image>, b: seq<Image>)
    ensures ScreenshotImages(a + b) == ScreenshotImages(a) + ScreenshotImages(b)
  {
    if |a| > 0 {
      assert (a + b)[1..] == a[1..] + b;
      ScreenshotImagesAppend(a[1..], b);
    } else {
      assert a + b == b;
    }
  }

  /** The URLs of the screenshot images of `images`, gathered by a separate pass. */
  function ScreenshotUrlList(images: seq<Image>): seq<string> {
    if |images| == 0 then []
    else
      var rest := ScreenshotUrlList(images[1..]);
      if IsScreenshot(images[0]) then [images[0].url.value] + rest else rest
  }

  function Screenshots(item: ItemData): seq<Image>
    requires HasRecord(item)
  {
    ScreenshotImages(item.catalog.value.images.GetOr([]))
  }

  function ScreenshotUrls(item: ItemData): seq<string>
    requires HasRecord(item)
  {
    ScreenshotUrlList(item.catalog.value.images.GetOr([]))
  }

  /** Some image is a screenshot with a URL; the URL pass agrees. */
  function HasScreenshots(item: ItemData): (r: bool)
    requires HasRecord(item)
    ensures r <==> exists img :: img in item.catalog.value.images.GetOr([]) && IsScreenshot(img)
    ensures r <==> |ScreenshotUrls(item)| > 0
  {
    ScreenshotUrlsMatchImages(item.catalog.value.images.GetOr([]));
    var shots := Screenshots(item);
    assert |shots| > 0 ==> shots[0] in shots;
    |shots| > 0
  }

  /** The two screenshot passes agree: the URL list is the image list's URLs, all non-empty. */
  lemma {:induction false} ScreenshotUrlsMatchImages(images: seq<Image>)
    ensures |ScreenshotUrlList(images)| == |ScreenshotImages(images)|
    ensures forall i :: 0 <= i < |ScreenshotUrlList(images)| ==>
      ScreenshotImages(images)[i].url == Some(ScreenshotUrlList(images)[i])
      && ScreenshotUrlList(images)[i] != ""
  {
    if |images| > 0 {
      ScreenshotUrlsMatchImages(images[1..]);
    }
  }

  /** A copy of the contents list, or null when there is none. */
  function Bundles(item: ItemData): (r: Option<seq<Content>>)
    requires HasRecord(item)
    ensures r.None? <==> item.catalog.value.contents.None?
    ensures r.Some? ==> (|r.value| == |item.catalog.value.contents.value|
      && forall i :: 0 <= i < |r.value| ==> r.value[i] == item.catalog.value.contents.value[i])
  {
    item.catalog.value.contents
  }

  /** The "NEUTRAL" entry of a localised map, or "" when the map or the entry is missing. */
  function Neutral(m: Option<map<string, string>>): (r: string)
    ensures m.Some? && NEUTRAL_KEY in m.value ==> r == m.value[NEUTRAL_KEY]
    ensures m.None? || NEUTRAL_KEY !in m.value ==> r == ""
  {
    match m
    case None => ""
    case Some(entries) => if NEUTRAL_KEY in entries then entries[NEUTRAL_KEY] else ""
  }

  /** The title's "NEUTRAL" entry; "" without a title map or without that entry. */
  function Title(item: ItemData): (r: string)
    requires HasRecord(item)
    ensures item.catalog.value.title.None? ==> r == ""
    ensures item.catalog.value.title.Some? ==>
      r == (if NEUTRAL_KEY in item.catalog.value.title.value then item.catalog.value.title.value[NEUTRAL_KEY] else "")
  {
    Neutral(item.catalog.value.title)
  }

  /** The description's "NEUTRAL" entry; "" without a description map or without that entry. */
  function Description(item: ItemData): (r: string)
    requires HasRecord(item)
    ensures item.catalog.value.description.None? ==> r == ""
    ensures item.catalog.value.description.Some? ==>
      r == (if NEUTRAL_KEY in item.catalog.value.description.value then item.catalog.value.description.value[NEUTRAL_KEY] else "")
  {
    Neutral(item.catalog.value.description)
  }

  /** The text of a non-null display property, or null when it is absent or null. */
  function Property(item: ItemData, key: string): (r: Option<string>)
    requires HasRecord(item)
    ensures r.Some? <==> (item.catalog.value.displayProperties.Some?
      && key in item.catalog.value.displayProperties.value
      && !item.catalog.value.displayProperties.value[key].Null?)
  {
    match item.catalog.value.displayProperties
    case None => None
    case Some(dp) => if key in dp && !dp[key].Null? then Some(ValueToString(dp[key])) else None
  }

  /** The status stored under "state"; Draft when absent, null or not an integer. */
  function StatusOf(item: ItemData): (s: Status)
    requires HasRecord(item)
    ensures ValidStatus(s)
    ensures Property(item, STATUS_KEY).None? ==> s == Draft
    ensures Property(item, STATUS_KEY).Some? && TryParseInt(Property(item, STATUS_KEY).value).None? ==> s == Draft
    ensures Property(item, STATUS_KEY).Some? && TryParseInt(Property(item, STATUS_KEY).value).Some? ==>
      CodeOf(s) == TryParseInt(Property(item, STATUS_KEY).value).value
  {
    match Property(item, STATUS_KEY)
    case None => Draft
    case Some(text) =>
      match TryParseInt(text)
      case None => Draft
      case Some(i) => StatusOfCode(i)
  }

  /**
   * The status setter: stores the code under "state" when the display
   * properties are a dictionary, and does nothing otherwise. No other
   * property of the item changes.
   */
  function WithStatus(item: ItemData, s: Status): (r: ItemData)
    requires HasRecord(item)
    ensures HasRecord(r)
    ensures item.catalog.value.displayProperties.None? ==> r == item
    ensures ItemId(r) == ItemId(item) && Title(r) == Title(item) && Description(r) == Description(item)
    ensures DraftVersion(r) == DraftVersion(item) && r.publishedVersion == item.publishedVersion
    ensures r.catalog.value.images == item.catalog.value.images
    ensures r.catalog.value.contents == item.catalog.value.contents
    ensures r.catalog.value.tags == item.catalog.value.tags
    ensures forall key :: key != STATUS_KEY ==> Property(r, key) == Property(item, key)
  {
    var c := item.catalog.value;
    match c.displayProperties
    case None => item
    case Some(dp) =>
      item.(catalog := Some(c.(displayProperties := Some(dp[STATUS_KEY := Num(CodeOf(s))]))))
  }

  /** Writing a status and reading it back gives the status written. */
  lemma StatusRoundTrip(item: ItemData, s: Status)
    requires HasRecord(item) && item.catalog.value.displayProperties.Some?
    requires ValidStatus(s)
    ensures StatusOf(WithStatus(item, s)) == s
  {
    ParsePrintRoundTrip(CodeOf(s));
  }

  /** The display properties are a dictionary holding a non-null value under `key`. */
  predicate Present(item: ItemData, key: string)
    requires HasRecord(item)
  {
    var dp := item.catalog.value.displayProperties;
    dp.Some? && key in dp.value && !dp.value[key].Null?
  }

  /** The text of a present value. */
  function PresentText(item: ItemData, key: string): string
    requires HasRecord(item) && Present(item, key)
  {
    ValueToString(item.catalog.value.displayProperties.value[key])
  }

  function RejectReason(item: ItemData): (r: string)
    requires HasRecord(item)
    ensures Present(item, REJECT_REASON_KEY) ==> r == PresentText(item, REJECT_REASON_KEY)
    ensures !Present(item, REJECT_REASON_KEY) ==> r == ""
  {
    Property(item, REJECT_REASON_KEY).GetOr("")
  }

  function ApprovedVersion(item: ItemData): (r: string)
    requires HasRecord(item)
    ensures Present(item, APPROVED_VERSION_KEY) ==> r == PresentText(item, APPROVED_VERSION_KEY)
    ensures !Present(item, APPROVED_VERSION_KEY) ==> r == ""
  {
    Property(item, APPROVED_VERSION_KEY).GetOr("")
  }

  function ScenePath(item: ItemData): (r: Option<string>)
    requires HasRecord(item)
    ensures Present(item, SCENE_PATH_KEY) ==> r == Some(PresentText(item, SCENE_PATH_KEY))
    ensures !Present(item, SCENE_PATH_KEY) ==> r.None?
  {
    Property(item, SCENE_PATH_KEY)
  }

  /** The draft version is the catalog's display version. */
  function DraftVersion(item: ItemData): Option<string>
    requires HasRecord(item)
  {
    item.catalog.value.displayVersion
  }

  /** The draft-version setter writes the catalog's display version and nothing else. */
  function WithDraftVersion(item: ItemData, v: Option<string>): (r: ItemData)
    requires HasRecord(item)
    ensures HasRecord(r) && DraftVersion(r) == v
    ensures StatusOf(r) == StatusOf(item) && ItemId(r) == ItemId(item)
    ensures forall key :: Property(r, key) == Property(item, key)
  {
    item.(catalog := Some(item.catalog.value.(displayVersion := v)))
  }

  function Tags(item: ItemData): Option<seq<string>>
    requires HasRecord(item)
  {
    item.catalog.value.tags
  }

  function HasDraft(item: ItemData): (r: bool)
    requires HasRecord(item)
    ensures r <==> item.catalog.value.displayVersion.Some? && |item.catalog.value.displayVersion.value| > 0
  {
    !IsNullOrEmpty(DraftVersion(item))
  }

  predicate HasPublished(item: ItemData) {
    !IsNullOrEmpty(item.publishedVersion)
  }

  /** The tag list is the record's own: neither setter touches it. */
  lemma TagsSurviveSetters(item: ItemData, s: Status, v: Option<string>)
    requires HasRecord(item)
    ensures Tags(WithStatus(item, s)) == Tags(item)
    ensures Tags(WithDraftVersion(item, v)) == Tags(item)
  {
  }

  /** Reading the view of a record: the derived properties and their defaults. */
  lemma DerivedPropertyDefaults(item: ItemData)
    requires HasRecord(item)
    ensures RejectReason(item) == "" <== Property(item, REJECT_REASON_KEY).None?
    ensures ApprovedVersion(item) == "" <== Property(item, APPROVED_VERSION_KEY).None?
    ensures ScenePath(item).None? <==> Property(item, SCENE_PATH_KEY).None?
    ensures HasDraft(item) <==> DraftVersion(item).Some? && DraftVersion(item).value != ""
    ensures HasScreenshots(item) <==> |ScreenshotUrls(item)| > 0
  {
    ScreenshotUrlsMatchImages(item.catalog.value.images.GetOr([]));
  }
}

=== FILE: manager_window.dfy ===
/**
 * The manager window's decisions: what opening the window starts, which
 * buttons the current-scene panel and the item rows offer, the checklist
 * Publish runs before submitting, and the metadata change a scene retarget
 * sends.
 */
module ManagerWindow {
  import opened Wrappers
  import opened Text
  import opened Items
  import opened Versions
  import opened ServiceRules
  import opened ServiceArguments
  import opened ServiceSession

  // ---------------------------------------------------------------------
  // Opening the window
  // ---------------------------------------------------------------------

  datatype EnableAction = RefreshList | AutoLogin | StayIdle

  /**
   * `OnEnable`, after the stored credentials are loaded: a valid session
   * only refreshes the list; otherwise stored credentials start an
   * automatic login.
   */
  function OnEnableAction(s: Session): (r: EnableAction)
    ensures r == RefreshList <==> HasValidSession(s)
    ensures r == AutoLogin <==> !HasValidSession(s) && s.username != "" && s.password != ""
  {
    if HasValidSession(s) then RefreshList
    else if s.username != "" && s.password != "" then AutoLogin
    else StayIdle
  }

  /**
   * The automatic login started on opening sends a request (unless one is
   * already in flight) and never records an error for the user, and a
   * success makes the next opening refresh instead of logging in again.
   */
  lemma {:induction false} AutoLoginOnEnable(s: Session)
    requires OnEnableAction(s) == AutoLogin
    ensures var st := StartLogin(s, Some(s.username), Some(s.password), true);
      && (st.request.NoRequest? <==> s.isLoggingIn)
      && (!s.isLoggingIn ==> st.session.lastLoginError.None?)
      && (!s.isLoggingIn ==> (st.request.EmailLogin? <==> LooksLikeEmail(s.username)))
      && OnEnableAction(OnLoginSuccess(st.session).session) == RefreshList
  {
  }

  /** A fresh service refreshes exactly when the editor still holds a login; otherwise credentials decide. */
  lemma FreshServiceOnEnable(shared: bool, user: Option<string>, pass: Option<string>)
    ensures OnEnableAction(NewService(shared)) == (if shared then RefreshList else StayIdle)
    ensures !shared ==>
      ((OnEnableAction(SetCredentials(NewService(false), user, pass)) == AutoLogin)
         <==> !IsNullOrEmpty(user) && !IsNullOrEmpty(pass))
  {
  }

  // ---------------------------------------------------------------------
  // The current-scene panel
  // ---------------------------------------------------------------------

  datatype SceneButtons = SceneButtons(edit: bool, publish: bool, abort: bool, delete: bool)

  /**
   * The buttons under an existing item: Edit unless it is awaiting review,
   * Publish when it may be submitted and otherwise Abort Publishing when it
   * is awaiting review, and Delete always.
   */
  function CurrentItemButtons(item: ItemData): (b: SceneButtons)
    requires HasRecord(item)
    ensures b.edit <==> CanEdit(Some(item))
    ensures b.publish <==> CanSubmit(Some(item))
    ensures b.abort <==> CanCancelSubmit(Some(item))
    ensures b.delete
  {
    GatesExclusive(Some(item));
    var edit := StatusOf(item) != Submitted;
    if CanSubmit(Some(item)) then SceneButtons(edit, true, false, true)
    else SceneButtons(edit, false, StatusOf(item) == Submitted, true)
  }

  /**
   * Exactly one of Edit and Abort Publishing is shown, Publish only beside
   * Edit, and the button shown passes the service's own gate.
   */
  lemma {:induction false} ButtonsMatchServiceGates(s: Session, k: int, reply: Reply<()>)
    requires ValidIndex(s, k)
    ensures var b := CurrentItemButtons(s.items[k]);
      && (b.edit != b.abort)
      && (b.publish ==> b.edit)
      && (!b.publish ==> SubmitItem(s, k, reply) == StateCall(s, None, [false]))
      && (!b.abort ==> CancelSubmitItem(s, k, reply) == StateCall(s, None, [false]))
  {
    GatesExclusive(Some(s.items[k]));
  }

  /** What the current-scene panel shows. */
  datatype SceneRegion = NoActiveScene | NotCreated(path: string) | Existing(index: nat, buttons: SceneButtons)

  /** `DrawCurrentSceneRegion`: the item of the active scene is looked up by its path. */
  function CurrentSceneRegion(s: Session, activePath: Option<string>): (r: SceneRegion)
    requires AllRecords(s.items)
    ensures r.NoActiveScene? <==> IsNullOrEmpty(activePath)
    ensures r.NotCreated? ==> (r.path == activePath.value
      && forall j :: 0 <= j < |s.items| ==> !ScenePathMatches(s.items[j], activePath.value))
    ensures r.Existing? ==> (r.index < |s.items| && ScenePathMatches(s.items[r.index], activePath.value)
      && r.buttons == CurrentItemButtons(s.items[r.index]))
  {
    if IsNullOrEmpty(activePath) then NoActiveScene
    else
      match FindItemByScenePath(s.items, activePath)
      case None => NotCreated(activePath.value)
      case Some(k) => Existing(k, CurrentItemButtons(s.items[k]))
  }

  /**
   * An active scene without an item is exactly one the service would
   * create an item for, once logged in and below the limit.
   */
  lemma {:induction false} NotCreatedSceneIsCreatable(s: Session, activePath: Option<string>, name: Option<string>,
                                                       reply: Reply<CatalogItem>)
    requires AllRecords(s.items) && CanCallBackend(s) && |s.items| < s.trackModMaxCount
    requires !IsNullOrEmpty(activePath)
    ensures CurrentSceneRegion(s, activePath).NotCreated? <==>
      CreateItemForScene(s, activePath, name, reply).request.Some?
  {
  }

  // ---------------------------------------------------------------------
  // Item rows
  // ---------------------------------------------------------------------

  /** A row's Delete button is disabled while the item awaits review. */
  function RowDeleteEnabled(item: ItemData): (r: bool)
    requires HasRecord(item)
    ensures r <==> CanEdit(Some(item))
  {
    StatusOf(item) != Submitted
  }

  /**
   * The row never disables a delete the service would carry out, while
   * the current-scene panel offers Delete on an item awaiting review,
   * which the service then refuses.
   */
  lemma {:induction false} DeleteButtonsAgainstService(s: Session, k: int, serverOk: bool)
    requires ValidIndex(s, k)
    ensures DeleteItem(s, k, serverOk).calls == [true] ==> RowDeleteEnabled(s.items[k])
    ensures !RowDeleteEnabled(s.items[k]) ==>
      (CurrentItemButtons(s.items[k]).delete && DeleteItem(s, k, serverOk) == Outcome(s, [false]))
  {
  }

  datatype OpenAction = NoScenePath | OfferRetarget(missing: string) | OpenScene(path: string)

  /** The row's Open button: no path, a path whose file is gone (offer a retarget), or a scene to open. */
  function OpenButtonAction(item: ItemData, fileExists: bool): (r: OpenAction)
    requires HasRecord(item)
    ensures r.NoScenePath? <==> IsNullOrEmpty(ScenePath(item))
    ensures r.OfferRetarget? <==> !IsNullOrEmpty(ScenePath(item)) && !fileExists
    ensures r.OfferRetarget? ==> Some(r.missing) == ScenePath(item)
    ensures r.OpenScene? ==> Some(r.path) == ScenePath(item) && fileExists
  {
    if IsNullOrEmpty(ScenePath(item)) then NoScenePath
    else if !fileExists then OfferRetarget(ScenePath(item).value)
    else OpenScene(ScenePath(item).value)
  }

  // ---------------------------------------------------------------------
  // Publish
  // ---------------------------------------------------------------------

  const MIN_BUNDLE_COUNT := 2

  datatype PublishCheck = MissingThumbnail | MissingScreenshots | MissingTitle | BundlesNotReady | ReadyToSubmit

  predicate BundlesReady(item: ItemData)
    requires HasRecord(item)
  {
    Bundles(item).Some? && |Bundles(item).value| >= MIN_BUNDLE_COUNT
  }

  /** Everything Publish insists on before asking to submit. */
  predicate PublishChecklist(item: ItemData)
    requires HasRecord(item)
  {
    HasThumbnail(item) && HasScreenshots(item) && Title(item) != "" && BundlesReady(item)
  }

  /** `TryPublish`: the first missing requirement, in the order the window checks them. */
  function TryPublish(item: ItemData): (r: PublishCheck)
    requires HasRecord(item)
    ensures r == ReadyToSubmit <==> PublishChecklist(item)
    ensures r == MissingThumbnail <==> !HasThumbnail(item)
    ensures r == MissingScreenshots <==> HasThumbnail(item) && !HasScreenshots(item)
    ensures r == MissingTitle <==> HasThumbnail(item) && HasScreenshots(item) && Title(item) == ""
  {
    if !HasThumbnail(item) then MissingThumbnail
    else if !HasScreenshots(item) then MissingScreenshots
    else if Title(item) == "" then MissingTitle
    else if !BundlesReady(item) then BundlesNotReady
    else ReadyToSubmit
  }

  /** Pressing Publish: the submit request goes out only when the checklist passes and the user confirms. */
  function PublishItem(s: Session, k: int, confirmed: bool, reply: Reply<()>): (r: StateCall)
    requires ValidIndex(s, k)
    ensures ValidIndex(r.session, k) && |r.session.items| == |s.items|
    ensures TryPublish(s.items[k]) != ReadyToSubmit || !confirmed ==> r == StateCall(s, None, [])
    ensures r.calls == [true] ==> PublishChecklist(s.items[k]) && CanSubmit(Some(s.items[k]))
    ensures r.request.Some? <==> TryPublish(s.items[k]) == ReadyToSubmit && confirmed && SubmitItem(s, k, reply).request.Some?
    ensures r.request.Some? <==>
      PublishChecklist(s.items[k]) && confirmed && CanSubmit(Some(s.items[k])) && CanCallBackend(s) && s.hasEntityKey
    ensures r.request.Some? ==> OpOfRequest(r.request.value) == Some(SubmitOp)
    ensures |r.calls| <= 1
    ensures r.calls == [true] <==> r.request.Some? && reply.Ok?
    ensures r.calls != [true] ==> r.session == s
    ensures r.calls == [true] && s.items[k].catalog.value.displayProperties.Some? ==>
      StatusOf(r.session.items[k]) == Submitted
  {
    if TryPublish(s.items[k]) != ReadyToSubmit || !confirmed then StateCall(s, None, [])
    else SubmitItem(s, k, reply)
  }

  /**
   * An item Publish sends for review still meets the checklist afterwards
   * and, when its record stores a status, is awaiting review.
   */
  lemma {:induction false} PublishedItemKeepsChecklist(s: Session, k: int, confirmed: bool, reply: Reply<()>)
    requires ValidIndex(s, k) && PublishItem(s, k, confirmed, reply).calls == [true]
    ensures var r := PublishItem(s, k, confirmed, reply);
      && PublishChecklist(r.session.items[k])
      && ItemId(r.session.items[k]) == ItemId(s.items[k])
      && (s.items[k].catalog.value.displayProperties.Some? ==> StatusOf(r.session.items[k]) == Submitted)
  {
    var item := s.items[k];
    var r := PublishItem(s, k, confirmed, reply);
    assert r.session.items[k] == WithStatus(item, Submitted);
    assert ThumbnailUrl(r.session.items[k]) == ThumbnailUrl(item);
    assert Screenshots(r.session.items[k]) == Screenshots(item);
    assert Bundles(r.session.items[k]) == Bundles(item);
  }

  // ---------------------------------------------------------------------
  // Retarget
  // ---------------------------------------------------------------------

  /** The version a retarget that needs a new draft counts from: the draft's, or else the published one. */
  function BaseVersion(item: ItemData): (r: Option<string>)
    requires HasRecord(item)
    ensures DraftVersion(item).Some? ==> r == DraftVersion(item)
    ensures DraftVersion(item).None? ==> r == item.publishedVersion
  {
    if DraftVersion(item).Some? then DraftVersion(item) else item.publishedVersion
  }

  /** The metadata change a retarget sends, and whether it must first ask to create a new version. */
  datatype RetargetPlan = RetargetPlan(args: ItemArgument, createsVersion: bool)

  /**
   * `RetargetSceneForItem`'s callback: nothing for an empty path; the new
   * path alone when the draft may be edited; otherwise the new path
   * together with the successor of the base version.
   */
  function PlanRetarget(item: ItemData, newPath: Option<string>): (r: Option<RetargetPlan>)
    requires HasRecord(item)
    ensures r.None? <==> IsNullOrEmpty(newPath)
    ensures r.Some? ==> (
      && r.value.args.scenePath == newPath
      && r.value.args.title.None? && r.value.args.description.None? && r.value.args.tags.None?
      && (r.value.createsVersion <==> !CanEditMetadata(Some(item)))
      && (r.value.args.draftVersion.Some? <==> r.value.createsVersion)
      && (r.value.createsVersion ==> r.value.args.draftVersion == Some(GetNextVersionString(BaseVersion(item)))))
  {
    if IsNullOrEmpty(newPath) then None
    else if CanEditMetadata(Some(item)) then
      Some(RetargetPlan(NoItemChanges.(scenePath := newPath), false))
    else
      var v := GetNextVersionString(BaseVersion(item));
      Some(RetargetPlan(NoItemChanges.(scenePath := newPath, draftVersion := Some(v)), true))
  }

  /** The retarget as a whole: the plan, the user's confirmation when a version is created, and the update. */
  function RetargetScene(s: Session, k: int, newPath: Option<string>, confirmed: bool,
                         reply: Reply<CatalogItem>): (r: Call)
    requires ValidIndex(s, k)
    ensures |r.session.items| == |s.items|
    ensures IsNullOrEmpty(newPath) ==> r == Call(s, None, [])
    ensures r.request.Some? ==> (
      && PlanRetarget(s.items[k], newPath).Some?
      && (PlanRetarget(s.items[k], newPath).value.createsVersion ==> confirmed)
      && ItemOfDictionary(r.request.value) == PlanRetarget(s.items[k], newPath).value.args)
    ensures r.request.Some? <==>
      && PlanRetarget(s.items[k], newPath).Some?
      && (PlanRetarget(s.items[k], newPath).value.createsVersion ==> confirmed)
      && CanCallBackend(s) && ItemId(s.items[k]) != ""
    ensures (PlanRetarget(s.items[k], newPath).Some? && PlanRetarget(s.items[k], newPath).value.createsVersion
      && !confirmed) ==> r == Call(s, None, [])
    ensures r.calls == [true] <==> r.request.Some? && reply.Ok?
    ensures r.calls == [true] ==> r.session == s.(items := s.items[k := s.items[k].(catalog := Some(reply.value))])
    ensures r.calls != [true] ==> r.session == s
  {
    match PlanRetarget(s.items[k], newPath)
    case None => Call(s, None, [])
    case Some(plan) =>
      if plan.createsVersion && !confirmed then Call(s, None, [])
      else UpdateDraftItemMetadata(s, k, plan.args, reply)
  }

  /**
   * A retarget request carries the item id and the new scene path, plus a
   * draft version exactly when a new version is created, and nothing else.
   */
  lemma {:induction false} RetargetRequestKeys(s: Session, k: int, newPath: Option<string>, confirmed: bool,
                                               reply: Reply<CatalogItem>)
    requires ValidIndex(s, k)
    requires RetargetScene(s, k, newPath, confirmed, reply).request.Some?
    ensures var d := RetargetScene(s, k, newPath, confirmed, reply).request.value;
      && d.Keys == (if CanEditMetadata(Some(s.items[k])) then {"Id", "ScenePath"} else {"Id", "ScenePath", "DraftVersion"})
      && d["Id"] == StringArg(ItemId(s.items[k]))
      && d["ScenePath"] == StringArg(newPath.value)
  {
    var plan := PlanRetarget(s.items[k], newPath).value;
    var d := ItemToDictionary(plan.args, ItemId(s.items[k]));
    assert RetargetScene(s, k, newPath, confirmed, reply).request.value == d;
  }

  /**
   * When a retarget creates a version from a base that parses, the version
   * sent parses again and is newer than the base, unless the base is
   * 999.999.
   */
  lemma {:induction false} RetargetVersionIsNewer(item: ItemData, newPath: Option<string>)
    requires HasRecord(item) && !IsNullOrEmpty(newPath) && !CanEditMetadata(Some(item))
    requires TryParseVersion(BaseVersion(item)).Some?
    requires TryParseVersion(BaseVersion(item)).value != Version(999, 999)
    ensures var sent := PlanRetarget(item, newPath).value.args.draftVersion;
      && sent.Some?
      && TryParseVersion(sent).Some?
      && IsNewVersionGreater(TryParseVersion(BaseVersion(item)).value, TryParseVersion(sent).value)
  {
    NextVersionSpec(BaseVersion(item));
  }
}

=== FILE: numbers.dfy ===
/**
 * 32-bit integers as the C# source parses and prints them: `int.TryParse`
 * (white space at either end, an optional sign, decimal digits, failure on
 * overflow) and `int.ToString()` in the invariant culture.
 */
module Numbers {
  import opened Wrappers

  const INT32_MIN: int := -0x8000_0000
  const INT32_MAX: int := 0x7FFF_FFFF

  predicate IsInt32(n: int) {
    INT32_MIN <= n <= INT32_MAX
  }

  predicate IsDigit(c: char) {
    '0' <= c <= '9'
  }

  predicate AllDigits(s: string) {
    forall i :: 0 <= i < |s| ==> IsDigit(s[i])
  }

  function DigitChar(d: nat): (c: char)
    requires d < 10
    ensures IsDigit(c) && c as int - '0' as int == d
  {
    ('0' as int + d) as char
  }

  /** The value of a string of decimal digits, most significant first. */
  function DigitsValue(s: string): nat
    requires AllDigits(s)
  {
    if |s| == 0 then 0 else DigitsValue(s[..|s| - 1]) * 10 + (s[|s| - 1] as int - '0' as int)
  }

  function Pow10(n: nat): (p: nat)
    ensures p >= 1
  {
    if n == 0 then 1 else 10 * Pow10(n - 1)
  }

  /** A string of `n` digits denotes a value below 10^n. */
  lemma {:induction false} DigitsValueBound(s: string)
    requires AllDigits(s)
    ensures DigitsValue(s) < Pow10(|s|)
  {
    if |s| > 0 {
      DigitsValueBound(s[..|s| - 1]);
    }
  }

  /** The shortest decimal digits of `n`. */
  function NatToDigits(n: nat): (s: string)
    ensures 1 <= |s| && AllDigits(s)
    ensures DigitsValue(s) == n
  {
    if n < 10 then [DigitChar(n)]
    else
      var prefix := NatToDigits(n / 10);
      var s := prefix + [DigitChar(n % 10)];
      assert s[..|s| - 1] == prefix;
      s
  }

  /** Numbers up to 999 print in one to three digits, and larger ones in more. */
  lemma NatToDigitsLength(n: nat)
    ensures n <= 9 ==> |NatToDigits(n)| == 1
    ensures 10 <= n <= 99 ==> |NatToDigits(n)| == 2
    ensures 100 <= n <= 999 ==> |NatToDigits(n)| == 3
    ensures 1000 <= n ==> |NatToDigits(n)| >= 4
  {
    if n >= 10 {
      NatToDigitsLength(n / 10);
    }
  }

  /** `int.ToString()`: a minus sign for negative numbers, then the digits. */
  function IntToString(n: int): (s: string)
    ensures 1 <= |s|
    ensures n >= 0 ==> AllDigits(s) && DigitsValue(s) == n
    ensures n < 0 ==> s[0] == '-' && AllDigits(s[1..]) && DigitsValue(s[1..]) == -n
  {
    if n < 0 then "-" + NatToDigits(-n) else NatToDigits(n)
  }

  /** The white space `int.TryParse` skips at either end (NumberStyles.Integer). */
  predicate IsNumberWhite(c: char) {
    c == ' ' || ('\t' <= c <= '\r')
  }

  function TrimNumberWhiteStart(s: string): (r: string)
    ensures |r| <= |s|
    ensures |s| > 0 && !IsNumberWhite(s[0]) ==> r == s
  {
    if |s| > 0 && IsNumberWhite(s[0]) then TrimNumberWhiteStart(s[1..]) else s
  }

  function TrimNumberWhiteEnd(s: string): (r: string)
    ensures |r| <= |s|
    ensures |s| > 0 && !IsNumberWhite(s[|s| - 1]) ==> r == s
  {
    if |s| > 0 && IsNumberWhite(s[|s| - 1]) then TrimNumberWhiteEnd(s[..|s| - 1]) else s
  }

  /** Drops the white space `int.TryParse` allows around the number. */
  function TrimNumberWhite(s: string): (r: string)
    ensures |r| <= |s|
    ensures |s| > 0 && !IsNumberWhite(s[0]) && !IsNumberWhite(s[|s| - 1]) ==> r == s
  {
    TrimNumberWhiteEnd(TrimNumberWhiteStart(s))
  }

  /** A possibly negated digit string, kept only when it fits 32 bits. */
  function SignedValue(negative: bool, digits: string): (r: Option<int>)
    ensures r.Some? ==> IsInt32(r.value) && 1 <= |digits| && AllDigits(digits)
    ensures r.Some? ==> r.value == (if negative then -(DigitsValue(digits) as int) else DigitsValue(digits) as int)
  {
    if |digits| == 0 || !AllDigits(digits) then None
    else
      var v := if negative then -(DigitsValue(digits) as int) else DigitsValue(digits) as int;
      if IsInt32(v) then Some(v) else None
  }

  /** `int.TryParse(s, out v)`: `Some(v)` on success, `None` on failure. */
  function TryParseInt(s: string): (r: Option<int>)
    ensures r.Some? ==> IsInt32(r.value)
  {
    var t := TrimNumberWhite(s);
    if |t| > 0 && (t[0] == '-' || t[0] == '+') then SignedValue(t[0] == '-', t[1..])
    else SignedValue(false, t)
  }

  /** A parsed string of at most three characters has at most three digits. */
  lemma {:induction false} TryParseShort(s: string)
    requires |s| <= 3 && TryParseInt(s).Some?
    ensures -999 <= TryParseInt(s).value <= 999
  {
    var t := TrimNumberWhite(s);
    var digits := if |t| > 0 && (t[0] == '-' || t[0] == '+') then t[1..] else t;
    DigitsValueBound(digits);
    assert Pow10(|digits|) <= 1000 by {
      assert Pow10(3) == 1000;
      if |digits| < 3 {
        assert Pow10(2) == 100;
        assert Pow10(1) == 10;
      }
    }
  }

  /** Printing a 32-bit integer and parsing it back gives the integer. */
  lemma {:induction false} ParsePrintRoundTrip(n: int)
    requires IsInt32(n)
    ensures TryParseInt(IntToString(n)) == Some(n)
  {
    var s := IntToString(n);
    assert !IsNumberWhite(s[0]) && !IsNumberWhite(s[|s| - 1]) by {
      if n < 0 {
        assert s[1..][|s| - 2] == s[|s| - 1];
      }
    }
    assert TrimNumberWhite(s) == s;
  }
}

=== FILE: retarget_window.dfy ===
/**
 * The scene retarget window: the list of project scenes with the ones
 * another item already uses marked as linked, the order they are shown
 * in, and the radio-style selection that can only move to an unlinked
 * scene.
 */
module RetargetWindow {
  import opened Wrappers
  import opened Text
  import opened Items
  import opened ServiceRules
  import opened ManagerWindow

  datatype Entry = Entry(path: string, isLinked: bool, linkedName: Option<string>)

  // ---------------------------------------------------------------------
  // Gathering the scenes
  // ---------------------------------------------------------------------

  predicate DistinctPaths(s: seq<string>) {
    forall i, j :: 0 <= i < j < |s| ==> s[i] != s[j]
  }

  /** The non-empty paths in order of first occurrence, each once (`Where` then `Distinct`). */
  function UniquePaths(paths: seq<string>): (r: seq<string>)
    ensures DistinctPaths(r) && |r| <= |paths|
    ensures forall p :: p in r <==> p in paths && p != ""
  {
    if |paths| == 0 then []
    else
      var front := UniquePaths(paths[..|paths| - 1]);
      var last := paths[|paths| - 1];
      assert paths == paths[..|paths| - 1] + [last];
      if last == "" || last in front then front else front + [last]
  }

  /** Another item (by id, ignoring case) whose scene path equals `path` ignoring case. */
  predicate LinksElsewhere(item: ItemData, path: string, currentId: string)
    requires HasRecord(item)
  {
    !IsNullOrEmpty(ScenePath(item)) && EqualsIgnoreCase(ScenePath(item).value, path)
    && !EqualsIgnoreCase(ItemId(item), currentId)
  }

  /** The first item linking `path` elsewhere (`FirstOrDefault`), or null. */
  function LinkedItem(items: seq<ItemData>, path: string, currentId: string): (r: Option<nat>)
    requires AllRecords(items)
    ensures r.Some? ==> (r.value < |items| && LinksElsewhere(items[r.value], path, currentId)
      && forall j :: 0 <= j < r.value ==> !LinksElsewhere(items[j], path, currentId))
    ensures r.None? ==> forall j :: 0 <= j < |items| ==> !LinksElsewhere(items[j], path, currentId)
  {
    if |items| == 0 then None
    else if LinksElsewhere(items[0], path, currentId) then Some(0)
    else
      var rest := LinkedItem(items[1..], path, currentId);
      if rest.None? then None else Some(rest.value + 1)
  }

  function EntryFor(items: seq<ItemData>, path: string, currentId: string): (e: Entry)
    requires AllRecords(items)
    ensures e.path == path
    ensures e.isLinked <==> exists j :: 0 <= j < |items| && LinksElsewhere(items[j], path, currentId)
    ensures e.isLinked ==> e.linkedName.Some?
  {
    match LinkedItem(items, path, currentId)
    case None => Entry(path, false, None)
    case Some(j) => Entry(path, true, Some(Title(items[j])))
  }

  // ---------------------------------------------------------------------
  // Ordering
  // ---------------------------------------------------------------------

  /** `StringComparer.OrdinalIgnoreCase` as an order: folded characters compared lexicographically. */
  predicate FoldLe(a: string, b: string)
    decreases |a|
  {
    if |a| == 0 then true
    else if |b| == 0 then false
    else if Fold(a[0]) != Fold(b[0]) then Fold(a[0]) < Fold(b[0])
    else FoldLe(a[1..], b[1..])
  }

  lemma {:induction false} FoldLeTotal(a: string, b: string)
    ensures FoldLe(a, b) || FoldLe(b, a)
    decreases |a|
  {
    if |a| > 0 && |b| > 0 && Fold(a[0]) == Fold(b[0]) {
      FoldLeTotal(a[1..], b[1..]);
    }
  }

  lemma {:induction false} FoldLeTransitive(a: string, b: string, c: string)
    requires FoldLe(a, b) && FoldLe(b, c)
    ensures FoldLe(a, c)
    decreases |a|
  {
    if |a| > 0 && |b| > 0 && |c| > 0 && Fold(a[0]) == Fold(b[0]) && Fold(b[0]) == Fold(c[0]) {
      FoldLeTransitive(a[1..], b[1..], c[1..]);
    }
  }

  /** The first two sort keys: the current scene first, then unlinked before linked. */
  function Rank(e: Entry, current: Option<string>): (r: nat)
    ensures r < 4
    ensures r < 2 <==> NullableEqualsIgnoreCase(Some(e.path), current)
    ensures r % 2 == 1 <==> e.isLinked
  {
    (if NullableEqualsIgnoreCase(Some(e.path), current) then 0 else 2) + (if e.isLinked then 1 else 0)
  }

  /** `OrderByDescending(is current).ThenBy(IsLinked).ThenBy(Path, OrdinalIgnoreCase)` as a preorder. */
  predicate EntryLe(a: Entry, b: Entry, current: Option<string>) {
    Rank(a, current) < Rank(b, current) || (Rank(a, current) == Rank(b, current) && FoldLe(a.path, b.path))
  }

  lemma EntryLeTotal(a: Entry, b: Entry, current: Option<string>)
    ensures EntryLe(a, b, current) || EntryLe(b, a, current)
  {
    FoldLeTotal(a.path, b.path);
  }

  lemma EntryLeTransitive(a: Entry, b: Entry, c: Entry, current: Option<string>)
    requires EntryLe(a, b, current) && EntryLe(b, c, current)
    ensures EntryLe(a, c, current)
  {
    if Rank(a, current) == Rank(b, current) == Rank(c, current) {
      FoldLeTransitive(a.path, b.path, c.path);
    }
  }

  predicate SortedEntries(s: seq<Entry>, current: Option<string>) {
    forall i, j :: 0 <= i < j < |s| ==> EntryLe(s[i], s[j], current)
  }

  /** An entry below the head of a sorted list is below all of it. */
  lemma {:induction false} BelowHead(e: Entry, s: seq<Entry>, current: Option<string>)
    requires SortedEntries(s, current) && |s| > 0 && EntryLe(e, s[0], current)
    ensures forall j :: 0 <= j < |s| ==> EntryLe(e, s[j], current)
  {
    forall j | 0 < j < |s| ensures EntryLe(e, s[j], current) {
      EntryLeTransitive(e, s[0], s[j], current);
    }
  }

  /** An entry below every element of `s` and below `e` is below every element of a permutation of `s + [e]`. */
  lemma {:induction false} BelowPermutation(x: Entry, e: Entry, s: seq<Entry>, r: seq<Entry>, current: Option<string>)
    requires multiset(r) == multiset(s) + multiset{e}
    requires EntryLe(x, e, current) && forall j :: 0 <= j < |s| ==> EntryLe(x, s[j], current)
    ensures forall j :: 0 <= j < |r| ==> EntryLe(x, r[j], current)
  {
    forall j | 0 <= j < |r| ensures EntryLe(x, r[j], current) {
      assert r[j] in multiset(r);
      if r[j] != e {
        assert r[j] in multiset(s);
        var m :| 0 <= m < |s| && s[m] == r[j];
      }
    }
  }

  /** Putting an entry below all of a sorted list in front keeps it sorted. */
  lemma {:induction false} ConsSorted(x: Entry, s: seq<Entry>, current: Option<string>)
    requires SortedEntries(s, current) && forall j :: 0 <= j < |s| ==> EntryLe(x, s[j], current)
    ensures SortedEntries([x] + s, current)
  {
    var r := [x] + s;
    forall i, j | 0 <= i < j < |r| ensures EntryLe(r[i], r[j], current) {
      assert r[j] == s[j - 1];
      if i > 0 { assert r[i] == s[i - 1]; }
    }
  }

  /** The tail of a sorted list is sorted, and its head is below all of the tail. */
  lemma {:induction false} SplitSorted(s: seq<Entry>, current: Option<string>)
    requires SortedEntries(s, current) && |s| > 0
    ensures SortedEntries(s[1..], current)
    ensures forall j :: 0 <= j < |s[1..]| ==> EntryLe(s[0], s[1..][j], current)
  {
    forall i, j | 0 <= i < j < |s[1..]| ensures EntryLe(s[1..][i], s[1..][j], current) {
      assert s[1..][i] == s[i + 1] && s[1..][j] == s[j + 1];
    }
    forall j | 0 <= j < |s[1..]| ensures EntryLe(s[0], s[1..][j], current) {
      assert s[1..][j] == s[j + 1];
    }
  }

  /** `e` placed before the first entry strictly above it, so after every entry it ties with. */
  function Insert(e: Entry, s: seq<Entry>, current: Option<string>): (r: seq<Entry>)
    requires SortedEntries(s, current)
    ensures multiset(r) == multiset(s) + multiset{e}
    ensures SortedEntries(r, current)
  {
    if |s| == 0 then [e]
    else if !EntryLe(s[0], e, current) then
      EntryLeTotal(e, s[0], current);
      BelowHead(e, s, current);
      ConsSorted(e, s, current);
      [e] + s
    else
      var tail := s[1..];
      SplitSorted(s, current);
      var rest := Insert(e, tail, current);
      assert s == [s[0]] + tail;
      BelowPermutation(s[0], e, tail, rest, current);
      ConsSorted(s[0], rest, current);
      [s[0]] + rest
  }

  /** How many leading entries of `s` are at or below `e`. */
  function InsertPoint(e: Entry, s: seq<Entry>, current: Option<string>): (k: nat)
    ensures k <= |s|
    ensures forall j :: 0 <= j < k ==> EntryLe(s[j], e, current)
    ensures k < |s| ==> !EntryLe(s[k], e, current)
  {
    if |s| == 0 || !EntryLe(s[0], e, current) then 0
    else
      var k := InsertPoint(e, s[1..], current);
      assert forall j :: 0 < j <= k ==> s[j] == s[1..][j - 1];
      k + 1
  }

  /**
   * `Insert` puts `e` right after the leading entries at or below it: ties
   * already in the list stay in front of it.
   */
  lemma {:induction false} InsertAtPoint(e: Entry, s: seq<Entry>, current: Option<string>)
    requires SortedEntries(s, current)
    ensures var k := InsertPoint(e, s, current);
      Insert(e, s, current) == s[..k] + [e] + s[k..]
  {
    if |s| > 0 && EntryLe(s[0], e, current) {
      SplitSorted(s, current);
      InsertAtPoint(e, s[1..], current);
      InsertAtPointStep(e, s, current);
    } else {
      assert s[..0] + [e] + s[0..] == [e] + s;
    }
  }

  /** The inductive step of `InsertAtPoint`: from the tail to the whole list. */
  lemma InsertAtPointStep(e: Entry, s: seq<Entry>, current: Option<string>)
    requires SortedEntries(s, current) && |s| > 0 && EntryLe(s[0], e, current)
    requires SortedEntries(s[1..], current)
    requires var k := InsertPoint(e, s[1..], current);
      Insert(e, s[1..], current) == s[1..][..k] + [e] + s[1..][k..]
    ensures var k := InsertPoint(e, s, current);
      Insert(e, s, current) == s[..k] + [e] + s[k..]
  {
    var k := InsertPoint(e, s[1..], current);
    assert InsertPoint(e, s, current) == k + 1;
    InsertPastHead(e, s, current);
    ConsSplice(s, e, k);
  }

  /** An entry that the head does not exceed goes into the tail. */
  lemma InsertPastHead(e: Entry, s: seq<Entry>, current: Option<string>)
    requires SortedEntries(s, current) && |s| > 0 && EntryLe(s[0], e, current)
    ensures SortedEntries(s[1..], current)
    ensures Insert(e, s, current) == [s[0]] + Insert(e, s[1..], current)
  {
    SplitSorted(s, current);
  }

  /** Splicing `e` in at position `k` of the tail and putting the head back splices it in at `k + 1`. */
  lemma ConsSplice(s: seq<Entry>, e: Entry, k: nat)
    requires 0 < |s| && k < |s|
    ensures [s[0]] + (s[1..][..k] + [e] + s[1..][k..]) == s[..k + 1] + [e] + s[k + 1..]
  {
    assert s[..k + 1] == [s[0]] + s[1..][..k];
    assert s[k + 1..] == s[1..][k..];
  }

  /** Two entries that tie keep their input order. */
  lemma TiedPairKeepsOrder(a: Entry, b: Entry, current: Option<string>)
    requires EntryLe(a, b, current) && EntryLe(b, a, current)
    ensures SortEntries([a, b], current) == [a, b]
  {
    assert [a, b][..1] == [a];
    assert SortEntries([a], current) == [a] by {
      assert [a][..0] == [];
    }
  }

  /** The entries in display order: a sorted permutation of the input. */
  function SortEntries(es: seq<Entry>, current: Option<string>): (r: seq<Entry>)
    ensures multiset(r) == multiset(es)
    ensures SortedEntries(r, current)
  {
    if |es| == 0 then []
    else
      assert es == es[..|es| - 1] + [es[|es| - 1]];
      Insert(es[|es| - 1], SortEntries(es[..|es| - 1], current), current)
  }

  /** One entry per path, in the same order. */
  function BuildEntries(paths: seq<string>, items: seq<ItemData>, currentId: string): (r: seq<Entry>)
    requires AllRecords(items)
    ensures |r| == |paths|
    ensures forall m :: 0 <= m < |r| ==> r[m] == EntryFor(items, paths[m], currentId)
  {
    seq(|paths|, m requires 0 <= m < |paths| => EntryFor(items, paths[m], currentId))
  }

  /** `InitializeEntries`: one entry per distinct non-empty scene path, in display order. */
  function InitializeEntries(scenePaths: seq<string>, items: seq<ItemData>, item: ItemData): (r: seq<Entry>)
    requires AllRecords(items) && HasRecord(item)
    ensures SortedEntries(r, ScenePath(item))
    ensures forall p :: p in scenePaths && p != "" <==> exists i :: 0 <= i < |r| && r[i].path == p
    ensures forall i :: 0 <= i < |r| ==> r[i] == EntryFor(items, r[i].path, ItemId(item))
    ensures forall i, j :: 0 <= i < j < |r| ==> r[i].path != r[j].path
  {
    var paths := UniquePaths(scenePaths);
    var built := BuildEntries(paths, items, ItemId(item));
    var r := SortEntries(built, ScenePath(item));
    PermutedEntries(scenePaths, paths, items, ItemId(item), built, r);
    r
  }

  /** What sorting keeps of the built entries: the paths, each once, each with its own entry. */
  lemma {:induction false} PermutedEntries(scenePaths: seq<string>, paths: seq<string>, items: seq<ItemData>,
                                           currentId: string, built: seq<Entry>, r: seq<Entry>)
    requires AllRecords(items) && paths == UniquePaths(scenePaths)
    requires built == BuildEntries(paths, items, currentId) && multiset(r) == multiset(built)
    ensures forall p :: p in scenePaths && p != "" <==> exists i :: 0 <= i < |r| && r[i].path == p
    ensures forall i :: 0 <= i < |r| ==> r[i] == EntryFor(items, r[i].path, currentId)
    ensures forall i, j :: 0 <= i < j < |r| ==> r[i].path != r[j].path
  {
    forall i | 0 <= i < |r| ensures r[i] in built {
      assert r[i] in multiset(r);
    }
    forall p | p in scenePaths && p != "" ensures exists i :: 0 <= i < |r| && r[i].path == p {
      var m :| 0 <= m < |paths| && paths[m] == p;
      assert built[m] in multiset(r);
    }
    forall i | 0 <= i < |r| ensures r[i].path in scenePaths && r[i].path != "" {
      var m :| 0 <= m < |built| && built[m] == r[i];
      assert paths[m] in paths;
    }
    forall m, n | 0 <= m < n < |built| ensures built[m] != built[n] {
      assert built[m].path == paths[m] && built[n].path == paths[n];
    }
    CountAtMostOne(built);
    forall i, j | 0 <= i < j < |r| ensures r[i].path != r[j].path {
      CountTwo(r, i, j);
      assert multiset(r)[r[i]] <= 1;
      assert r[i] != r[j];
    }
  }

  /** In a sequence without repeats every element occurs once. */
  lemma {:induction false} CountAtMostOne(s: seq<Entry>)
    requires forall m, n :: 0 <= m < n < |s| ==> s[m] != s[n]
    ensures forall x :: multiset(s)[x] <= 1
  {
    if |s| > 0 {
      var front := s[..|s| - 1];
      CountAtMostOne(front);
      assert s == front + [s[|s| - 1]];
      assert s[|s| - 1] !in front by {
        forall m | 0 <= m < |front| ensures front[m] != s[|s| - 1] {
          assert front[m] == s[m];
        }
      }
    }
  }

  /** An element at two positions occurs at least twice. */
  lemma {:induction false} CountTwo(s: seq<Entry>, i: int, j: int)
    requires 0 <= i < j < |s|
    ensures s[i] == s[j] ==> multiset(s)[s[i]] >= 2
  {
    assert s == s[..i] + [s[i]] + s[i + 1..j] + [s[j]] + s[j + 1..];
  }

  /**
   * The display order: entries for the current scene come first and, among
   * the others, the unlinked ones come before the linked ones.
   */
  lemma {:induction false} DisplayOrder(scenePaths: seq<string>, items: seq<ItemData>, item: ItemData, i: int, j: int)
    requires AllRecords(items) && HasRecord(item)
    requires 0 <= i < j < |InitializeEntries(scenePaths, items, item)|
    ensures var r := InitializeEntries(scenePaths, items, item);
      && (NullableEqualsIgnoreCase(Some(r[j].path), ScenePath(item)) ==>
            NullableEqualsIgnoreCase(Some(r[i].path), ScenePath(item)))
      && (!NullableEqualsIgnoreCase(Some(r[i].path), ScenePath(item)) && !r[j].isLinked ==> !r[i].isLinked)
  {
    var r := InitializeEntries(scenePaths, items, item);
    assert EntryLe(r[i], r[j], ScenePath(item));
  }

  // ---------------------------------------------------------------------
  // Selection
  // ---------------------------------------------------------------------

  /** One row's toggle: an unlinked row turned on becomes the selection. */
  function ClickEntry(selected: Option<string>, e: Entry, newSelected: bool): (r: Option<string>)
    ensures r != selected ==> r == Some(e.path) && !e.isLinked && newSelected
    ensures !e.isLinked && newSelected ==> NullableEqualsIgnoreCase(r, Some(e.path))
  {
    var isSelected := NullableEqualsIgnoreCase(selected, Some(e.path));
    if !e.isLinked && newSelected && !isSelected then Some(e.path) else selected
  }

  /** A sequence of toggles, each on row `click.0` with new value `click.1`. */
  function ApplyClicks(selected: Option<string>, entries: seq<Entry>, clicks: seq<(nat, bool)>): Option<string>
    decreases |clicks|
  {
    if |clicks| == 0 then selected
    else
      var c := clicks[0];
      var next := if c.0 < |entries| then ClickEntry(selected, entries[c.0], c.1) else selected;
      ApplyClicks(next, entries, clicks[1..])
  }

  /** After any toggles the selection is the item's own path or the path of an unlinked row. */
  lemma {:induction false} SelectionStaysSelectable(selected: Option<string>, entries: seq<Entry>, clicks: seq<(nat, bool)>)
    ensures var r := ApplyClicks(selected, entries, clicks);
      r == selected || exists i :: 0 <= i < |entries| && !entries[i].isLinked && r == Some(entries[i].path)
    decreases |clicks|
  {
    if |clicks| > 0 {
      var c := clicks[0];
      var next := if c.0 < |entries| then ClickEntry(selected, entries[c.0], c.1) else selected;
      SelectionStaysSelectable(next, entries, clicks[1..]);
    }
  }

  /** Confirm is enabled only for a non-empty selection. */
  predicate ConfirmEnabled(selected: Option<string>) {
    !IsNullOrEmpty(selected)
  }

  /**
   * Whatever the toggles, a confirmed scene is the item's own scene or one
   * no other item uses, and the manager window then plans a retarget to it.
   */
  lemma {:induction false} ConfirmedSceneIsFree(scenePaths: seq<string>, items: seq<ItemData>, item: ItemData,
                                                clicks: seq<(nat, bool)>)
    requires AllRecords(items) && HasRecord(item)
    requires ConfirmEnabled(ApplyClicks(ScenePath(item), InitializeEntries(scenePaths, items, item), clicks))
    ensures var r := ApplyClicks(ScenePath(item), InitializeEntries(scenePaths, items, item), clicks);
      && PlanRetarget(item, r).Some?
      && (r == ScenePath(item) || (r.value in scenePaths
            && forall j :: 0 <= j < |items| ==> !LinksElsewhere(items[j], r.value, ItemId(item))))
  {
    var entries := InitializeEntries(scenePaths, items, item);
    SelectionStaysSelectable(ScenePath(item), entries, clicks);
    var r := ApplyClicks(ScenePath(item), entries, clicks);
    if r != ScenePath(item) {
      var i :| 0 <= i < |entries| && !entries[i].isLinked && r == Some(entries[i].path);
      assert entries[i] == EntryFor(items, entries[i].path, ItemId(item));
    }
  }
}

=== FILE: service_arguments.dfy ===
/**
 * The two argument records the item service sends to the draft-update
 * server functions, and the dictionaries they are serialised to: "Id"
 * plus exactly the fields that are set.
 */
module ServiceArguments {
  import opened Wrappers
  import opened Items

  /** A dictionary value as the server receives it. */
  datatype Arg =
    | StringArg(str: string)
    | StringsArg(strings: seq<string>)
    | ImageArg(image: Image)
    | ImagesArg(images: seq<Image>)
    | ContentsArg(contents: seq<Content>)
    | NumberArg(number: real)

  /** `UpdateDraftItemArgument`: metadata fields, null when unchanged. */
  datatype ItemArgument = ItemArgument(
    title: Option<string>,
    description: Option<string>,
    scenePath: Option<string>,
    tags: Option<seq<string>>,
    draftVersion: Option<string>)

  /** `UpdateDraftFilesArgument`: file fields, null when unchanged. */
  datatype FilesArgument = FilesArgument(
    thumbnail: Option<Image>,
    screenshots: Option<seq<Image>>,
    tracks: Option<seq<Content>>,
    sizeAnd: Option<real>,
    sizeIos: Option<real>,
    sizeWin: Option<real>)

  const NoItemChanges := ItemArgument(None, None, None, None, None)
  const NoFileChanges := FilesArgument(None, None, None, None, None, None)

  /** `d` with `key` bound to `v` when `v` is present. */
  function PutIf(d: map<string, Arg>, key: string, v: Option<Arg>): map<string, Arg> {
    if v.Some? then d[key := v.value] else d
  }

  function MapOpt<T>(o: Option<T>, f: T -> Arg): Option<Arg> {
    if o.Some? then Some(f(o.value)) else None
  }

  /** `UpdateDraftItemArgument.ToDictionary`. */
  function ItemToDictionary(a: ItemArgument, id: string): (d: map<string, Arg>)
    ensures "Id" in d && d["Id"] == StringArg(id)
    ensures forall k :: k in d ==> k in {"Id", "Title", "Description", "ScenePath", "Tags", "DraftVersion"}
    ensures ("Title" in d <==> a.title.Some?) && ("Description" in d <==> a.description.Some?)
      && ("ScenePath" in d <==> a.scenePath.Some?) && ("Tags" in d <==> a.tags.Some?)
      && ("DraftVersion" in d <==> a.draftVersion.Some?)
  {
    var d := map["Id" := StringArg(id)];
    var d := PutIf(d, "Title", MapOpt(a.title, (s: string) => StringArg(s)));
    var d := PutIf(d, "Description", MapOpt(a.description, (s: string) => StringArg(s)));
    var d := PutIf(d, "ScenePath", MapOpt(a.scenePath, (s: string) => StringArg(s)));
    var d := PutIf(d, "Tags", MapOpt(a.tags, (t: seq<string>) => StringsArg(t)));
    PutIf(d, "DraftVersion", MapOpt(a.draftVersion, (s: string) => StringArg(s)))
  }

  /** `UpdateDraftFilesArgument.ToDictionary`. */
  function FilesToDictionary(a: FilesArgument, id: string): (d: map<string, Arg>)
    ensures "Id" in d && d["Id"] == StringArg(id)
    ensures forall k :: k in d ==> k in {"Id", "Thumbnail", "Screenshots", "Tracks", "SizeAnd", "SizeIos", "SizeWin"}
    ensures ("Thumbnail" in d <==> a.thumbnail.Some?) && ("Screenshots" in d <==> a.screenshots.Some?)
      && ("Tracks" in d <==> a.tracks.Some?) && ("SizeAnd" in d <==> a.sizeAnd.Some?)
      && ("SizeIos" in d <==> a.sizeIos.Some?) && ("SizeWin" in d <==> a.sizeWin.Some?)
  {
    var d := map["Id" := StringArg(id)];
    var d := PutIf(d, "Thumbnail", MapOpt(a.thumbnail, (i: Image) => ImageArg(i)));
    var d := PutIf(d, "Screenshots", MapOpt(a.screenshots, (s: seq<Image>) => ImagesArg(s)));
    var d := PutIf(d, "Tracks", MapOpt(a.tracks, (c: seq<Content>) => ContentsArg(c)));
    var d := PutIf(d, "SizeAnd", MapOpt(a.sizeAnd, (x: real) => NumberArg(x)));
    var d := PutIf(d, "SizeIos", MapOpt(a.sizeIos, (x: real) => NumberArg(x)));
    PutIf(d, "SizeWin", MapOpt(a.sizeWin, (x: real) => NumberArg(x)))
  }

  // Reading a dictionary back, field by field, as the server does.

  function StringField(d: map<string, Arg>, key: string): Option<string> {
    if key in d && d[key].StringArg? then Some(d[key].str) else None
  }

  function NumberField(d: map<string, Arg>, key: string): Option<real> {
    if key in d && d[key].NumberArg? then Some(d[key].number) else None
  }

  function ItemOfDictionary(d: map<string, Arg>): ItemArgument {
    ItemArgument(
      StringField(d, "Title"),
      StringField(d, "Description"),
      StringField(d, "ScenePath"),
      if "Tags" in d && d["Tags"].StringsArg? then Some(d["Tags"].strings) else None,
      StringField(d, "DraftVersion"))
  }

  function FilesOfDictionary(d: map<string, Arg>): FilesArgument {
    FilesArgument(
      if "Thumbnail" in d && d["Thumbnail"].ImageArg? then Some(d["Thumbnail"].image) else None,
      if "Screenshots" in d && d["Screenshots"].ImagesArg? then Some(d["Screenshots"].images) else None,
      if "Tracks" in d && d["Tracks"].ContentsArg? then Some(d["Tracks"].contents) else None,
      NumberField(d, "SizeAnd"),
      NumberField(d, "SizeIos"),
      NumberField(d, "SizeWin"))
  }

  /** The metadata dictionary carries the id and every set field, unchanged. */
  lemma ItemDictionaryRoundTrip(a: ItemArgument, id: string)
    ensures ItemOfDictionary(ItemToDictionary(a, id)) == a
    ensures StringField(ItemToDictionary(a, id), "Id") == Some(id)
  {
  }

  /** The files dictionary carries the id and every set field, unchanged. */
  lemma FilesDictionaryRoundTrip(a: FilesArgument, id: string)
    ensures FilesOfDictionary(FilesToDictionary(a, id)) == a
    ensures StringField(FilesToDictionary(a, id), "Id") == Some(id)
  {
  }

  /** An argument with nothing set still sends the id, and nothing else. */
  lemma EmptyArgumentsSendOnlyId(id: string)
    ensures ItemToDictionary(NoItemChanges, id) == map["Id" := StringArg(id)]
    ensures FilesToDictionary(NoFileChanges, id) == map["Id" := StringArg(id)]
  {
  }
}

=== FILE: service_rules.dfy ===
/**
 * The stateless rules of the item service: the loose version-string
 * comparison, the status label, the submit/cancel/edit gates, the e-mail
 * test used to pick a login method, lookup by scene path, the merge of
 * draft and published records, and the screenshot list edits.
 */
module ServiceRules {
  import opened Wrappers
  import opened Text
  import opened Numbers
  import opened Items
  import opened Versions

  // ---------------------------------------------------------------------
  // Loose version comparison
  // ---------------------------------------------------------------------

  /** The i-th dotted component: its integer value, or 0 when missing or unparseable. */
  function ComponentValue(parts: seq<string>, i: nat): int {
    if i < |parts| then TryParseInt(parts[i]).GetOr(0) else 0
  }

  /** The comparison loop from position `i` up to `len`. */
  function CompareFrom(ap: seq<string>, bp: seq<string>, i: nat, len: nat): (c: int)
    ensures -1 <= c <= 1
    decreases len - i
  {
    if i >= len then 0
    else if ComponentValue(ap, i) < ComponentValue(bp, i) then -1
    else if ComponentValue(ap, i) > ComponentValue(bp, i) then 1
    else CompareFrom(ap, bp, i + 1, len)
  }

  function Max(a: int, b: int): int {
    if a >= b then a else b
  }

  /**
   * `CompareVersionStrings`: null and empty strings sort first; otherwise
   * the dotted components are compared in turn.
   */
  function CompareVersionStrings(a: Option<string>, b: Option<string>): (c: int)
    ensures -1 <= c <= 1
    ensures IsNullOrEmpty(a) && IsNullOrEmpty(b) ==> c == 0
    ensures IsNullOrEmpty(a) && !IsNullOrEmpty(b) ==> c == -1
    ensures !IsNullOrEmpty(a) && IsNullOrEmpty(b) ==> c == 1
  {
    if IsNullOrEmpty(a) && IsNullOrEmpty(b) then 0
    else if IsNullOrEmpty(a) then -1
    else if IsNullOrEmpty(b) then 1
    else
      var ap := Split(a.value, '.');
      var bp := Split(b.value, '.');
      CompareFrom(ap, bp, 0, Max(|ap|, |bp|))
  }

  lemma {:induction false} CompareFromAntisymmetric(ap: seq<string>, bp: seq<string>, i: nat, len: nat)
    ensures CompareFrom(ap, bp, i, len) == -CompareFrom(bp, ap, i, len)
    decreases len - i
  {
    if i < len && ComponentValue(ap, i) == ComponentValue(bp, i) {
      CompareFromAntisymmetric(ap, bp, i + 1, len);
    }
  }

  /** Swapping the arguments negates the result. */
  lemma CompareAntisymmetric(a: Option<string>, b: Option<string>)
    ensures CompareVersionStrings(a, b) == -CompareVersionStrings(b, a)
  {
    if !IsNullOrEmpty(a) && !IsNullOrEmpty(b) {
      var ap := Split(a.value, '.');
      var bp := Split(b.value, '.');
      CompareFromAntisymmetric(ap, bp, 0, Max(|ap|, |bp|));
      assert Max(|ap|, |bp|) == Max(|bp|, |ap|);
    }
  }

  /** The loop finds no difference exactly when all components in range agree. */
  lemma {:induction false} CompareFromZero(ap: seq<string>, bp: seq<string>, i: nat, len: nat)
    ensures CompareFrom(ap, bp, i, len) == 0 <==>
      forall j :: i <= j < len ==> ComponentValue(ap, j) == ComponentValue(bp, j)
    decreases len - i
  {
    if i < len && ComponentValue(ap, i) == ComponentValue(bp, i) {
      CompareFromZero(ap, bp, i + 1, len);
    }
  }

  /** `k` is the first position from `i` where the components differ, and `ap`'s is the smaller. */
  predicate FirstLessAt(ap: seq<string>, bp: seq<string>, i: nat, k: nat) {
    i <= k && ComponentValue(ap, k) < ComponentValue(bp, k)
    && forall j :: i <= j < k ==> ComponentValue(ap, j) == ComponentValue(bp, j)
  }

  /** Past a position where the components agree, the first smaller component is found from the next one. */
  lemma ShiftFirstLess(ap: seq<string>, bp: seq<string>, i: nat, k: nat)
    requires ComponentValue(ap, i) == ComponentValue(bp, i)
    ensures FirstLessAt(ap, bp, i, k) <==> i + 1 <= k && FirstLessAt(ap, bp, i + 1, k)
  {
  }

  /** Where `ap`'s component is the greater, no later position is the first smaller one. */
  lemma GreaterHere(ap: seq<string>, bp: seq<string>, i: nat)
    requires ComponentValue(ap, i) > ComponentValue(bp, i)
    ensures forall k: nat :: !FirstLessAt(ap, bp, i, k)
  {
    forall k: nat ensures !FirstLessAt(ap, bp, i, k) {
      if k > i { assert ComponentValue(ap, i) != ComponentValue(bp, i); }
    }
  }

  /** The loop answers -1 exactly when the first differing component in range is smaller in `ap`. */
  lemma {:induction false} CompareFromLess(ap: seq<string>, bp: seq<string>, i: nat, len: nat)
    ensures CompareFrom(ap, bp, i, len) == -1 <==> exists k: nat :: k < len && FirstLessAt(ap, bp, i, k)
    decreases len - i
  {
    if i < len {
      if ComponentValue(ap, i) < ComponentValue(bp, i) {
        assert FirstLessAt(ap, bp, i, i);
      } else if ComponentValue(ap, i) > ComponentValue(bp, i) {
        GreaterHere(ap, bp, i);
      } else {
        CompareFromLess(ap, bp, i + 1, len);
        if CompareFrom(ap, bp, i + 1, len) == -1 {
          var k: nat :| k < len && FirstLessAt(ap, bp, i + 1, k);
          ShiftFirstLess(ap, bp, i, k);
        } else {
          forall k: nat | k < len ensures !FirstLessAt(ap, bp, i, k) {
            ShiftFirstLess(ap, bp, i, k);
          }
        }
      }
    }
  }

  /**
   * Two non-empty version strings compare equal exactly when every
   * component agrees, counting missing or unparseable ones as 0; so "1"
   * and "1.0" are equal.
   */
  lemma CompareEqualIffComponentsAgree(a: string, b: string)
    requires a != "" && b != ""
    ensures CompareVersionStrings(Some(a), Some(b)) == 0 <==>
      forall i: nat :: ComponentValue(Split(a, '.'), i) == ComponentValue(Split(b, '.'), i)
  {
    var ap := Split(a, '.');
    var bp := Split(b, '.');
    var len := Max(|ap|, |bp|);
    assert CompareVersionStrings(Some(a), Some(b)) == CompareFrom(ap, bp, 0, len);
    CompareFromZero(ap, bp, 0, len);
    if CompareFrom(ap, bp, 0, len) == 0 {
      forall i: nat ensures ComponentValue(ap, i) == ComponentValue(bp, i) {
        if i >= len {
          assert ComponentValue(ap, i) == 0 && ComponentValue(bp, i) == 0;
        }
      }
    } else {
      var j: nat :| j < len && ComponentValue(ap, j) != ComponentValue(bp, j);
      assert ComponentValue(Split(a, '.'), j) != ComponentValue(Split(b, '.'), j);
    }
  }

  /** The numerals "1" and "0" parse to 1 and 0. */
  lemma ParsesOneAndZero()
    ensures TryParseInt("1") == Some(1) && TryParseInt("0") == Some(0)
  {
    ParsePrintRoundTrip(1);
    ParsePrintRoundTrip(0);
    assert IntToString(1) == "1";
    assert IntToString(0) == "0";
  }

  lemma TrailingZeroComponentIsIgnored()
    ensures CompareVersionStrings(Some("1"), Some("1.0")) == 0
  {
    var ap := Split("1", '.');
    var bp := Split("1.0", '.');
    SplitOne("1", '.');
    assert "1.0" == "1" + ['.'] + "0";
    SplitTwo("1", "0", '.');
    ParsesOneAndZero();
    assert ComponentValue(ap, 0) == 1 && ComponentValue(bp, 0) == 1;
    assert ComponentValue(ap, 1) == 0 && ComponentValue(bp, 1) == 0;
    assert CompareFrom(ap, bp, 1, 2) == 0;
  }

  /**
   * `a` is newer than `b` in the loose sense: `a` is non-empty, and `b` is
   * empty or null or, at the first dotted component where the two differ,
   * `b`'s value is the smaller.
   */
  ghost predicate LooselyNewer(a: Option<string>, b: Option<string>) {
    !IsNullOrEmpty(a) &&
    (IsNullOrEmpty(b) || exists k: nat :: FirstLessAt(Split(b.value, '.'), Split(a.value, '.'), 0, k))
  }

  /** Past the longer of two component lists every component counts as 0, so none is the first smaller one. */
  lemma NoFirstLessPastEnd(ap: seq<string>, bp: seq<string>, k: nat)
    requires k >= |ap| && k >= |bp|
    ensures !FirstLessAt(ap, bp, 0, k)
  {
  }

  /** The comparison answers 1 exactly when the first argument is loosely newer. */
  lemma {:induction false} CompareGreaterIffLooselyNewer(a: Option<string>, b: Option<string>)
    ensures CompareVersionStrings(a, b) == 1 <==> LooselyNewer(a, b)
  {
    if !IsNullOrEmpty(a) && !IsNullOrEmpty(b) {
      var ap := Split(a.value, '.');
      var bp := Split(b.value, '.');
      var len := Max(|ap|, |bp|);
      assert Max(|bp|, |ap|) == len;
      CompareAntisymmetric(a, b);
      assert CompareVersionStrings(b, a) == CompareFrom(bp, ap, 0, len);
      CompareFromLess(bp, ap, 0, len);
      if exists k: nat :: FirstLessAt(bp, ap, 0, k) {
        var k: nat :| FirstLessAt(bp, ap, 0, k);
        if k >= len {
          NoFirstLessPastEnd(bp, ap, k);
        }
        assert k < len && FirstLessAt(bp, ap, 0, k);
      }
    }
  }

  /**
   * On strings the strict parser accepts, the loose comparison agrees with
   * `IsNewVersionGreater`: it answers 1 exactly when the first is the newer,
   * and 0 exactly when both denote the same version.
   */
  lemma {:induction false} CompareAgreesWithStrictOrder(a: Option<string>, b: Option<string>)
    requires TryParseVersion(a).Some? && TryParseVersion(b).Some?
    ensures var va := TryParseVersion(a).value;
      var vb := TryParseVersion(b).value;
      && (CompareVersionStrings(a, b) == 1 <==> IsNewVersionGreater(vb, va))
      && (CompareVersionStrings(a, b) == 0 <==> va == vb)
  {
    var ap := Split(a.value, '.');
    var bp := Split(b.value, '.');
    assert ComponentValue(ap, 0) == TryParseVersion(a).value.major;
    assert ComponentValue(ap, 1) == TryParseVersion(a).value.minor;
    assert ComponentValue(bp, 0) == TryParseVersion(b).value.major;
    assert ComponentValue(bp, 1) == TryParseVersion(b).value.minor;
    assert CompareFrom(ap, bp, 2, 2) == 0;
  }

  // ---------------------------------------------------------------------
  // Gates
  // ---------------------------------------------------------------------

  /** An item reference the gates may read: null, or an item with its record. */
  predicate Readable(item: Option<ItemData>) {
    item.Some? ==> HasRecord(item.value)
  }

  /** `CanEdit`: any item that is not awaiting review. */
  function CanEdit(item: Option<ItemData>): (r: bool)
    requires Readable(item)
    ensures item.None? ==> !r
    ensures item.Some? ==> (r <==> !CanCancelSubmit(item))
  {
    item.Some? && StatusOf(item.value) != Submitted
  }

  /** `CanSubmit`: a Draft item whose draft version is newer than the approved one. */
  function CanSubmit(item: Option<ItemData>): (r: bool)
    requires Readable(item)
    ensures r ==> item.Some? && HasDraft(item.value) && StatusOf(item.value) == Draft
    ensures item.Some? && ApprovedVersion(item.value) == "" ==>
      (r <==> HasDraft(item.value) && StatusOf(item.value) == Draft)
    ensures item.Some? && HasDraft(item.value) && StatusOf(item.value) == Draft ==>
      (r <==> LooselyNewer(DraftVersion(item.value), Some(ApprovedVersion(item.value))))
  {
    if item.None? then false
    else if !HasDraft(item.value) then false
    else if StatusOf(item.value) != Draft then false
    else
      CompareGreaterIffLooselyNewer(DraftVersion(item.value), Some(ApprovedVersion(item.value)));
      CompareVersionStrings(DraftVersion(item.value), Some(ApprovedVersion(item.value))) > 0
  }

  /** `CanCancelSubmit`: an item awaiting review. */
  function CanCancelSubmit(item: Option<ItemData>): (r: bool)
    requires Readable(item)
    ensures r ==> item.Some? && !CanSubmit(item)
  {
    item.Some? && StatusOf(item.value) == Submitted
  }

  /** Submitting and cancelling are never both offered; editing is offered exactly when cancelling is not. */
  lemma GatesExclusive(item: Option<ItemData>)
    requires Readable(item)
    ensures !(CanSubmit(item) && CanCancelSubmit(item))
    ensures CanSubmit(item) ==> CanEdit(item)
    ensures item.Some? ==> (CanEdit(item) <==> !CanCancelSubmit(item))
  {
  }

  /**
   * A draft whose version parses and is newer than a parseable approved
   * version may be submitted.
   */
  lemma {:induction false} NewerDraftCanSubmit(item: ItemData)
    requires HasRecord(item) && StatusOf(item) == Draft
    requires TryParseVersion(DraftVersion(item)).Some?
    requires TryParseVersion(Some(ApprovedVersion(item))).Some?
    ensures CanSubmit(Some(item)) <==>
      IsNewVersionGreater(TryParseVersion(Some(ApprovedVersion(item))).value, TryParseVersion(DraftVersion(item)).value)
  {
    CompareAgreesWithStrictOrder(DraftVersion(item), Some(ApprovedVersion(item)));
  }

  // ---------------------------------------------------------------------
  // Status label
  // ---------------------------------------------------------------------

  /** The draft part of the label, coloured by status. */
  function DraftLabel(status: Status, df: string): string {
    match status
    case Submitted => ColorString("Waiting Review(" + df + ")", Some("blue"))
    case Rejected => RedString("Rejected(" + df + ")", true)
    case Approved => ColorString("Approved" + df, Some("green"))
    case _ => "Draft(" + df + ")"
  }

  /** The published part of the label, red when the published version was taken down. */
  function PublishedLabel(pv: string, rejected: bool): string {
    RedString("Published(" + pv + ")", rejected)
  }

  /**
   * `GetStatusDisplayText`: "Non-Existing" without a draft; the draft label
   * after "Non-Publish, " when nothing is published; otherwise the
   * published label, followed by the draft label only when the draft
   * compares newer.
   */
  function GetStatusDisplayText(item: Option<ItemData>): (r: string)
    requires Readable(item)
    ensures item.None? || !HasDraft(item.value) ==> r == "Non-Existing"
    ensures item.Some? && HasDraft(item.value) ==>
      var it := item.value;
      var draftLabel := DraftLabel(StatusOf(it), DraftVersion(it).value);
      && (!HasPublished(it) ==> r == "Non-Publish, " + draftLabel)
      && (HasPublished(it) ==>
            var pubLabel := PublishedLabel(it.publishedVersion.value, it.publishedRejected);
            r == (if CompareVersionStrings(DraftVersion(it), it.publishedVersion) > 0
                  then pubLabel + " - " + draftLabel else pubLabel))
  {
    if item.None? then "Non-Existing"
    else
      var it := item.value;
      if !HasDraft(it) then "Non-Existing"
      else
        var df := DraftVersion(it).value;
        var draftStr := DraftLabel(StatusOf(it), df);
        if !HasPublished(it) then "Non-Publish, " + draftStr
        else
          var pv2 := it.publishedVersion.value;
          var cmp := CompareVersionStrings(Some(df), it.publishedVersion);
          var pubStr := PublishedLabel(pv2, it.publishedRejected);
          if cmp == 0 then pubStr
          else if cmp > 0 then pubStr + " - " + draftStr
          else pubStr
  }

  /**
   * For a published Draft item whose versions both parse, the label lists
   * the draft next to the published version exactly when its metadata may
   * be edited.
   */
  lemma {:induction false} LabelShowsDraftIffEditable(item: ItemData)
    requires HasRecord(item) && StatusOf(item) == Draft && HasPublished(item)
    requires TryParseVersion(DraftVersion(item)).Some? && TryParseVersion(item.publishedVersion).Some?
    ensures var pubLabel := PublishedLabel(item.publishedVersion.value, item.publishedRejected);
      GetStatusDisplayText(Some(item)) != pubLabel <==> CanEditMetadata(Some(item))
  {
    CompareAgreesWithStrictOrder(DraftVersion(item), item.publishedVersion);
    var pubLabel := PublishedLabel(item.publishedVersion.value, item.publishedRejected);
    var draftLabel := DraftLabel(StatusOf(item), DraftVersion(item).value);
    assert |pubLabel + " - " + draftLabel| > |pubLabel|;
  }

  // ---------------------------------------------------------------------
  // Login name shape
  // ---------------------------------------------------------------------

  /** `IsEmailFormat`: decides between e-mail and user-name login. */
  function IsEmailFormat(value: Option<string>): bool {
    if IsNullOrEmpty(value) then false
    else
      var s := value.value;
      var at := IndexOf(s, '@', 0);
      if at <= 0 || at == |s| - 1 then false
      else
        var dot := IndexOf(s, '.', at);
        if dot <= at + 1 || dot == |s| - 1 then false
        else true
  }

  /**
   * The shape the test accepts: a first '@' that is not the first
   * character, and after it a first '.' that leaves at least one character
   * between them and at least one after it.
   */
  predicate LooksLikeEmail(s: string) {
    exists a, d | 0 <= a < |s| && 0 <= d < |s| :: EmailShapeAt(s, a, d)
  }

  /** '@' first occurs at `a` and the first '.' after it at `d`, with the gaps the test demands. */
  predicate EmailShapeAt(s: string, a: int, d: int) {
    && 0 < a && a + 1 < d < |s| - 1 && s[a] == '@' && s[d] == '.'
    && (forall k :: 0 <= k < a ==> s[k] != '@')
    && (forall k :: a <= k < d ==> s[k] != '.')
  }

  lemma {:induction false} IsEmailFormatIff(s: string)
    ensures IsEmailFormat(Some(s)) <==> LooksLikeEmail(s)
  {
    if IsEmailFormat(Some(s)) {
      EmailFormatHasShape(s);
    }
    if LooksLikeEmail(s) {
      var a, d :| 0 <= a < |s| && 0 <= d < |s| && EmailShapeAt(s, a, d);
      ShapeIsEmailFormat(s, a, d);
    }
  }

  lemma {:induction false} EmailFormatHasShape(s: string)
    requires IsEmailFormat(Some(s))
    ensures LooksLikeEmail(s)
  {
    var a := IndexOf(s, '@', 0);
    IndexOfSkips(s, '@', 0);
    var d := IndexOf(s, '.', a);
    IndexOfSkips(s, '.', a);
    assert EmailShapeAt(s, a, d);
  }

  lemma {:induction false} ShapeIsEmailFormat(s: string, a: int, d: int)
    requires EmailShapeAt(s, a, d)
    ensures IsEmailFormat(Some(s))
  {
    IndexOfAt(s, '@', 0, a);
    IndexOfAt(s, '.', a, d);
  }

  // ---------------------------------------------------------------------
  // Lookup and merge
  // ---------------------------------------------------------------------

  predicate AllRecords(items: seq<ItemData>) {
    forall i :: 0 <= i < |items| ==> HasRecord(items[i])
  }

  /** The item's scene path equals `path` ignoring case (a null scene path never does). */
  predicate ScenePathMatches(item: ItemData, path: string)
    requires HasRecord(item)
  {
    NullableEqualsIgnoreCase(ScenePath(item), Some(path))
  }

  function FirstMatchFrom(items: seq<ItemData>, path: string, from: nat): (r: Option<nat>)
    requires AllRecords(items) && from <= |items|
    ensures r.Some? ==> from <= r.value < |items| && ScenePathMatches(items[r.value], path)
    ensures forall j :: from <= j < |items| && (r.None? || j < r.value) ==> !ScenePathMatches(items[j], path)
    decreases |items| - from
  {
    if from == |items| then None
    else if ScenePathMatches(items[from], path) then Some(from)
    else FirstMatchFrom(items, path, from + 1)
  }

  /** `FindItemByScenePath`: the first item whose scene path matches ignoring case, or null. */
  function FindItemByScenePath(items: seq<ItemData>, scenePath: Option<string>): (r: Option<nat>)
    requires AllRecords(items)
    ensures IsNullOrEmpty(scenePath) ==> r.None?
    ensures r.Some? ==> (r.value < |items| && ScenePathMatches(items[r.value], scenePath.value)
      && forall j :: 0 <= j < r.value ==> !ScenePathMatches(items[j], scenePath.value))
    ensures r.None? && !IsNullOrEmpty(scenePath) ==>
      forall j :: 0 <= j < |items| ==> !ScenePathMatches(items[j], scenePath.value)
  {
    if IsNullOrEmpty(scenePath) then None else FirstMatchFrom(items, scenePath.value, 0)
  }

  /** The published record was rejected by moderation. */
  predicate ModerationRejectedOf(pub: Option<CatalogItem>) {
    pub.Some? && pub.value.moderation.Some? && pub.value.moderation.value.status == Some(ModerationRejected)
  }

  /** `MapCatalogItemToUGC`: pairs a draft record with what its published record says. */
  function MapCatalogItemToUGC(draft: Option<CatalogItem>, pub: Option<CatalogItem>): (r: ItemData)
    ensures r.catalog == draft
    ensures pub.None? ==> r.publishedVersion.None? && !r.publishedRejected
    ensures pub.Some? ==> r.publishedVersion == pub.value.displayVersion
    ensures r.publishedRejected <==> ModerationRejectedOf(pub)
    ensures r.publishedRejectReason.Some? ==> r.publishedRejected
    ensures r.publishedRejected ==> r.publishedRejectReason == pub.value.moderation.value.reason
  {
    var rejected := ModerationRejectedOf(pub);
    ItemData(
      draft,
      if pub.Some? then pub.value.displayVersion else None,
      rejected,
      if rejected then pub.value.moderation.value.reason else None)
  }

  /** `order` lists every element of `ids` exactly once. */
  predicate IsListing(order: seq<string>, ids: set<string>) {
    (forall x :: x in order ==> x in ids)
    && (forall x :: x in ids ==> x in order)
    && forall i, j :: 0 <= i < j < |order| ==> order[i] != order[j]
  }

  /**
   * `MergeDraftAndPublished`: one item per id in the union of draft and
   * published ids, in the enumeration order `order` of that union; a null
   * published map counts as empty.
   */
  function MergeDraftAndPublished(drafts: map<string, CatalogItem>, published: Option<map<string, CatalogItem>>,
                                  order: seq<string>): (items: seq<ItemData>)
    requires IsListing(order, drafts.Keys + published.GetOr(map[]).Keys)
    ensures |items| == |order|
    ensures forall i :: 0 <= i < |items| ==>
      && items[i].catalog == Get(drafts, order[i])
      && items[i].publishedVersion ==
           (if order[i] in published.GetOr(map[]) then published.GetOr(map[])[order[i]].displayVersion else None)
      && (items[i].publishedRejected <==> ModerationRejectedOf(Get(published.GetOr(map[]), order[i])))
      && (items[i].publishedRejected ==>
            items[i].publishedRejectReason == published.GetOr(map[])[order[i]].moderation.value.reason)
      && (!items[i].publishedRejected ==> items[i].publishedRejectReason.None?)
  {
    var pubs := published.GetOr(map[]);
    seq(|order|, i requires 0 <= i < |order| => MapCatalogItemToUGC(Get(drafts, order[i]), Get(pubs, order[i])))
  }

  /**
   * The merge covers the union exactly once: there are as many items as
   * ids of either map, and every such id has an item built from that
   * id's own draft record and published record.
   */
  lemma {:induction false} MergeCoversUnionOnce(drafts: map<string, CatalogItem>, published: Option<map<string, CatalogItem>>,
                                                order: seq<string>)
    requires IsListing(order, drafts.Keys + published.GetOr(map[]).Keys)
    ensures |MergeDraftAndPublished(drafts, published, order)| == |drafts.Keys + published.GetOr(map[]).Keys|
    ensures var items := MergeDraftAndPublished(drafts, published, order);
      forall id :: id in drafts || id in published.GetOr(map[]) ==>
        exists i :: (0 <= i < |items| && order[i] == id
          && items[i] == MapCatalogItemToUGC(Get(drafts, id), Get(published.GetOr(map[]), id)))
  {
    var ids := drafts.Keys + published.GetOr(map[]).Keys;
    var items := MergeDraftAndPublished(drafts, published, order);
    DistinctListingSize(order, ids);
    forall id | id in drafts || id in published.GetOr(map[])
      ensures exists i :: (0 <= i < |items| && order[i] == id
        && items[i] == MapCatalogItemToUGC(Get(drafts, id), Get(published.GetOr(map[]), id)))
    {
      assert id in ids;
      assert id in order;
      var i :| 0 <= i < |order| && order[i] == id;
      assert items[i] == MapCatalogItemToUGC(Get(drafts, id), Get(published.GetOr(map[]), id));
    }
  }

  lemma {:induction false} DistinctListingSize(order: seq<string>, ids: set<string>)
    requires IsListing(order, ids)
    ensures |order| == |ids|
    decreases |order|
  {
    if |order| > 0 {
      var rest := order[1..];
      assert forall x :: x in rest ==> x != order[0] by {
        forall x | x in rest ensures x != order[0] {
          var k :| 0 <= k < |rest| && rest[k] == x;
          assert order[k + 1] == x;
        }
      }
      assert IsListing(rest, ids - {order[0]}) by {
        forall x ensures x in rest <==> x in ids - {order[0]} {
          if x in ids - {order[0]} {
            assert x in order;
            var k :| 0 <= k < |order| && order[k] == x;
            assert k > 0;
            assert rest[k - 1] == x;
          }
        }
      }
      DistinctListingSize(rest, ids - {order[0]});
    }
  }

  // ---------------------------------------------------------------------
  // Screenshot list edits
  // ---------------------------------------------------------------------

  /** The list after deleting the screenshot at `index`; `None` when the index is out of range. */
  function RemoveScreenshot(shots: seq<Image>, index: int): (r: Option<seq<Image>>)
    ensures r.None? <==> !(0 <= index < |shots|)
    ensures r.Some? ==> (|r.value| + 1 == |shots|
      && multiset(r.value) + multiset{shots[index]} == multiset(shots)
      && forall j :: 0 <= j < |r.value| ==> r.value[j] == (if j < index then shots[j] else shots[j + 1]))
  {
    if index < 0 || index >= |shots| then None
    else
      assert shots == shots[..index] + [shots[index]] + shots[index + 1..];
      Some(shots[..index] + shots[index + 1..])
  }

  /** The list after uploading `img` for slot `index`: appended past the end, replaced otherwise. */
  function PlaceScreenshot(shots: seq<Image>, index: nat, img: Image): (r: seq<Image>)
    ensures index >= |shots| ==> |r| == |shots| + 1 && r[..|shots|] == shots && r[|shots|] == img
    ensures index < |shots| ==> (|r| == |shots| && r[index] == img
      && forall j :: 0 <= j < |shots| && j != index ==> r[j] == shots[j])
  {
    if index >= |shots| then shots + [img] else shots[index := img]
  }
}

=== FILE: service_session.dfy ===
/**
 * The item service as a state machine: the login state and the item list,
 * changed by login, logout, refresh, create, the review lifecycle, delete
 * and the draft updates. Each remote call is replaced by a parameter
 * carrying its reply, and each operation returns the new state together
 * with the sequence of values handed to its completion callback.
 */
module ServiceSession {
  import opened Wrappers
  import opened Text
  import opened Numbers
  import opened Items
  import opened ServiceRules
  import opened ServiceArguments

  /** The reply of a server function: a result, a result too large to return, or an error. */
  datatype Reply<T> = Ok(value: T) | TooLarge | Failed

  /** The slot a file upload produced; absent when reading, URL creation or the upload failed. */
  datatype UploadSlot = UploadSlot(id: string, url: string)

  datatype Session = Session(
    username: string,
    password: string,
    isLoggedIn: bool,
    isLoggingIn: bool,
    lastLoginError: Option<string>,
    hasAuthContext: bool,
    hasEntityKey: bool,
    trackModMaxCount: int,
    items: seq<ItemData>)

  /** The new state and the values passed to the completion callback, in order. */
  datatype Outcome = Outcome(session: Session, calls: seq<bool>)

  const DEFAULT_MAX_ITEMS := 5
  const USER_DATA_MAX_ITEMS_KEY := "trackModMaxCount"
  const EMPTY_CREDENTIALS_ERROR := "Username and password cannot be empty."

  predicate HasValidSession(s: Session) {
    s.isLoggedIn && s.hasAuthContext && s.hasEntityKey
  }

  /** The guard every server call starts with. */
  predicate CanCallBackend(s: Session) {
    s.isLoggedIn && s.hasAuthContext
  }

  /** An item of the list that carries its draft record. */
  predicate ValidIndex(s: Session, k: int) {
    0 <= k < |s.items| && HasRecord(s.items[k])
  }

  /** A new service; `shared` says the editor process still holds a login from an earlier instance. */
  function NewService(shared: bool): (s: Session)
    ensures HasValidSession(s) <==> shared
    ensures s.items == [] && !s.isLoggingIn && s.lastLoginError.None?
    ensures s.trackModMaxCount == DEFAULT_MAX_ITEMS && s.username == "" && s.password == ""
  {
    Session("", "", shared, false, None, shared, shared, DEFAULT_MAX_ITEMS, [])
  }

  /** `SetCredentials`: a null credential is stored as empty; nothing else changes. */
  function SetCredentials(s: Session, username: Option<string>, password: Option<string>): (r: Session)
    ensures IsNullOrEmpty(username) <==> r.username == ""
    ensures IsNullOrEmpty(password) <==> r.password == ""
    ensures r.(username := s.username, password := s.password) == s
  {
    s.(username := username.GetOr(""), password := password.GetOr(""))
  }

  // ---------------------------------------------------------------------
  // Login and logout
  // ---------------------------------------------------------------------

  datatype LoginRequest =
    | NoRequest
    | EmailLogin(email: string, secret: string)
    | UsernameLogin(name: string, secret: string)

  datatype LoginStart = LoginStart(session: Session, request: LoginRequest, calls: seq<bool>)

  /**
   * `StartLogin`: refuses empty credentials and a login already in flight;
   * otherwise marks the login in flight, caches the credentials and sends
   * an e-mail login when the user name looks like an e-mail address.
   */
  function StartLogin(s: Session, user: Option<string>, pass: Option<string>, auto: bool): (r: LoginStart)
    ensures r.session.items == s.items && r.session.hasAuthContext == s.hasAuthContext
    ensures r.session.hasEntityKey == s.hasEntityKey
    ensures r.request.NoRequest? <==> IsNullOrEmpty(user) || IsNullOrEmpty(pass) || s.isLoggingIn
    ensures r.request.NoRequest? ==> r.calls == [false]
    ensures IsNullOrEmpty(user) || IsNullOrEmpty(pass) ==>
      !r.session.isLoggedIn && (r.session.lastLoginError.Some? <==> !auto)
    ensures !r.request.NoRequest? ==> (
      && r.calls == [] && r.session.isLoggingIn && r.session.lastLoginError.None?
      && r.session.username == user.value && r.session.password == pass.value
      && (r.request.EmailLogin? <==> LooksLikeEmail(user.value)))
  {
    var s := s.(lastLoginError := None);
    if IsNullOrEmpty(user) || IsNullOrEmpty(pass) then
      var s := s.(isLoggedIn := false);
      var s := if !auto then s.(lastLoginError := Some(EMPTY_CREDENTIALS_ERROR)) else s;
      LoginStart(s, NoRequest, [false])
    else if s.isLoggingIn then
      LoginStart(s, NoRequest, [false])
    else
      var s := s.(isLoggingIn := true, username := user.value, password := pass.value);
      IsEmailFormatIff(user.value);
      if IsEmailFormat(user) then LoginStart(s, EmailLogin(user.value, pass.value), [])
      else LoginStart(s, UsernameLogin(user.value, pass.value), [])
  }

  /** `OnLoginSuccess`: the session becomes valid and the callback receives true. */
  function OnLoginSuccess(s: Session): (r: Outcome)
    ensures HasValidSession(r.session) && !r.session.isLoggingIn && r.session.lastLoginError.None?
    ensures r.session.items == s.items && r.session.username == s.username && r.session.password == s.password
    ensures r.calls == [true]
  {
    Outcome(s.(isLoggingIn := false, isLoggedIn := true, lastLoginError := None,
               hasAuthContext := true, hasEntityKey := true), [true])
  }

  /**
   * The read-only user data fetched after login: a "trackModMaxCount"
   * entry sets the item limit, to 1 when it does not parse.
   */
  function ApplyUserData(s: Session, data: map<string, string>): (r: Session)
    ensures USER_DATA_MAX_ITEMS_KEY !in data ==> r == s
    ensures USER_DATA_MAX_ITEMS_KEY in data ==> (
      && r.(trackModMaxCount := s.trackModMaxCount) == s
      && (TryParseInt(data[USER_DATA_MAX_ITEMS_KEY]).None? ==> r.trackModMaxCount == 1)
      && (TryParseInt(data[USER_DATA_MAX_ITEMS_KEY]).Some? ==>
            r.trackModMaxCount == TryParseInt(data[USER_DATA_MAX_ITEMS_KEY]).value))
    ensures IsInt32(s.trackModMaxCount) ==> IsInt32(r.trackModMaxCount)
  {
    if USER_DATA_MAX_ITEMS_KEY in data then
      s.(trackModMaxCount := TryParseInt(data[USER_DATA_MAX_ITEMS_KEY]).GetOr(1))
    else s
  }

  /** `OnLoginFailure`: not logged in, no login in flight; an interactive login records the message. */
  function OnLoginFailure(s: Session, auto: bool, message: string): (r: Outcome)
    ensures !HasValidSession(r.session) && !r.session.isLoggingIn
    ensures r.session.lastLoginError == (if auto then s.lastLoginError else Some(message))
    ensures r.session.items == s.items
    ensures r.calls == [false]
  {
    var s := s.(isLoggingIn := false, isLoggedIn := false);
    Outcome(if auto then s else s.(lastLoginError := Some(message)), [false])
  }

  /** `Logout`: the session ends, the password and the item list are cleared, the user name is kept. */
  function Logout(s: Session): (r: Session)
    ensures !HasValidSession(r) && !CanCallBackend(r) && !r.isLoggingIn && r.lastLoginError.None?
    ensures !r.hasAuthContext && !r.hasEntityKey
    ensures r.username == s.username && r.password == "" && r.items == []
    ensures r.trackModMaxCount == s.trackModMaxCount
  {
    s.(isLoggedIn := false, isLoggingIn := false, lastLoginError := None,
       hasAuthContext := false, hasEntityKey := false, password := "", items := [])
  }

  /**
   * A login with non-empty credentials that is not already in flight
   * sends a request; its success yields a valid session that logout ends,
   * and its failure leaves no login in flight, so a retry sends again.
   */
  lemma {:induction false} LoginLifecycle(s: Session, user: string, pass: string, auto: bool, message: string)
    requires user != "" && pass != "" && !s.isLoggingIn
    ensures var st := StartLogin(s, Some(user), Some(pass), auto);
      && !st.request.NoRequest?
      && HasValidSession(OnLoginSuccess(st.session).session)
      && !HasValidSession(Logout(OnLoginSuccess(st.session).session))
      && Logout(OnLoginSuccess(st.session).session).username == user
      && var failed := OnLoginFailure(st.session, auto, message).session;
         !StartLogin(failed, Some(user), Some(pass), auto).request.NoRequest?
  {
  }

  // ---------------------------------------------------------------------
  // Refresh
  // ---------------------------------------------------------------------

  /** A record of the map content type, compared ignoring case. */
  predicate IsTrack(c: CatalogItem) {
    NullableEqualsIgnoreCase(c.contentType, Some(TRACK_CONTENT_TYPE))
  }

  /** The track drafts by id, a later draft replacing an earlier one with the same id. */
  function DraftsById(list: seq<CatalogItem>): (m: map<string, CatalogItem>)
    ensures forall id :: id in m <==> exists i :: 0 <= i < |list| && IsTrack(list[i]) && list[i].id == id
    ensures forall id :: id in m ==> IsTrack(m[id]) && m[id].id == id && m[id] in list
  {
    if |list| == 0 then map[]
    else
      var init := list[..|list| - 1];
      var last := list[|list| - 1];
      var m := DraftsById(init);
      assert forall i :: 0 <= i < |init| ==> init[i] == list[i];
      assert forall x :: x in init ==> x in list;
      if IsTrack(last) then m[last.id := last] else m
  }

  function PublishedMap(published: Reply<map<string, CatalogItem>>): Option<map<string, CatalogItem>> {
    if published.Ok? then Some(published.value) else None
  }

  /**
   * `RefreshItemsFromServer`: `drafts` is the draft listing (`None` on
   * error), `published` the reply of the published lookup, which is only
   * made when there is at least one track draft, and `order` the
   * enumeration order of the merged id set.
   */
  function RefreshItems(s: Session, drafts: Option<seq<CatalogItem>>, published: Reply<map<string, CatalogItem>>,
                        order: seq<string>): (r: Outcome)
    requires drafts.Some? ==> IsListing(order, DraftsById(drafts.value).Keys + PublishedMap(published).GetOr(map[]).Keys)
    ensures !CanCallBackend(s) || !s.hasEntityKey ==> r == Outcome(s, [false])
    ensures r.session == s.(items := r.session.items)
    ensures r.session.items != s.items ==> r.session.items == [] || r.calls == [true]
    ensures |r.calls| <= 1
    ensures r.calls == [true] ==> drafts.Some?
    ensures CanCallBackend(s) && s.hasEntityKey && drafts.None? ==> r == Outcome(s.(items := []), [false])
    ensures CanCallBackend(s) && s.hasEntityKey && drafts.Some? && |DraftsById(drafts.value)| == 0 ==>
      r == Outcome(s.(items := []), [true])
    ensures CanCallBackend(s) && s.hasEntityKey && drafts.Some? && |DraftsById(drafts.value)| != 0 ==>
      r.calls == (if published.TooLarge? then [] else [true])
    ensures r.calls == [true] && |DraftsById(drafts.value)| != 0 ==>
      r.session.items == MergeDraftAndPublished(DraftsById(drafts.value), PublishedMap(published), order)
  {
    if !CanCallBackend(s) || !s.hasEntityKey then Outcome(s, [false])
    else if drafts.None? then Outcome(s.(items := []), [false])
    else
      var byId := DraftsById(drafts.value);
      if |byId| == 0 then
        Outcome(s.(items := []), [true])
      else if published.TooLarge? then
        Outcome(s.(items := []), [])
      else
        var items := MergeDraftAndPublished(byId, PublishedMap(published), order);
        MergeCoversUnionOnce(byId, PublishedMap(published), order);
        Outcome(s.(items := items), [true])
  }

  /**
   * Merging track drafts keyed by their own ids: every item that carries a
   * draft record carries a track record, and no two such items share an
   * item id.
   */
  lemma {:induction false} MergedDraftsAreDistinctTracks(byId: map<string, CatalogItem>,
                                                         published: Option<map<string, CatalogItem>>, order: seq<string>)
    requires IsListing(order, byId.Keys + published.GetOr(map[]).Keys)
    requires forall id :: id in byId ==> IsTrack(byId[id]) && byId[id].id == id
    ensures var items := MergeDraftAndPublished(byId, published, order);
      && (forall i :: 0 <= i < |items| && HasRecord(items[i]) ==> IsTrack(items[i].catalog.value))
      && forall i, j :: 0 <= i < j < |items| && HasRecord(items[i]) && HasRecord(items[j]) ==>
           ItemId(items[i]) != ItemId(items[j])
  {
    var items := MergeDraftAndPublished(byId, published, order);
    forall i | 0 <= i < |items| && HasRecord(items[i])
      ensures ItemId(items[i]) == order[i] && IsTrack(items[i].catalog.value)
    {
      assert items[i].catalog == Get(byId, order[i]);
    }
  }

  /**
   * After a successful refresh the list is empty when there was no track
   * draft, and otherwise holds one item per id of either kind; every item
   * that carries a draft record carries a track record, and no two such
   * items share an item id.
   */
  lemma {:induction false} RefreshedIdsAreDistinct(s: Session, drafts: Option<seq<CatalogItem>>,
                                                   published: Reply<map<string, CatalogItem>>, order: seq<string>)
    requires drafts.Some? ==> IsListing(order, DraftsById(drafts.value).Keys + PublishedMap(published).GetOr(map[]).Keys)
    requires RefreshItems(s, drafts, published, order).calls == [true]
    ensures var items := RefreshItems(s, drafts, published, order).session.items;
      var byId := DraftsById(drafts.value);
      && |items| == (if |byId| == 0 then 0 else |byId.Keys + PublishedMap(published).GetOr(map[]).Keys|)
      && (forall i :: 0 <= i < |items| && HasRecord(items[i]) ==> IsTrack(items[i].catalog.value))
      && (forall i, j :: 0 <= i < j < |items| && HasRecord(items[i]) && HasRecord(items[j]) ==>
           ItemId(items[i]) != ItemId(items[j]))
  {
    var byId := DraftsById(drafts.value);
    if |byId| != 0 {
      var items := MergeDraftAndPublished(byId, PublishedMap(published), order);
      MergeCoversUnionOnce(byId, PublishedMap(published), order);
      assert RefreshItems(s, drafts, published, order).session.items == items;
      MergedDraftsAreDistinctTracks(byId, PublishedMap(published), order);
    }
  }

  /**
   * After a successful refresh with at least one track draft, every id of
   * either kind has an item built from that id's own draft record and
   * published record.
   */
  lemma {:induction false} RefreshedItemsPairRecords(s: Session, drafts: Option<seq<CatalogItem>>,
                                                     published: Reply<map<string, CatalogItem>>, order: seq<string>)
    requires drafts.Some? ==> IsListing(order, DraftsById(drafts.value).Keys + PublishedMap(published).GetOr(map[]).Keys)
    requires RefreshItems(s, drafts, published, order).calls == [true]
    ensures var items := RefreshItems(s, drafts, published, order).session.items;
      var byId := DraftsById(drafts.value);
      var pubs := PublishedMap(published).GetOr(map[]);
      forall id :: id in byId || (|byId| != 0 && id in pubs) ==>
        exists i :: (0 <= i < |items| && order[i] == id && items[i] == MapCatalogItemToUGC(Get(byId, id), Get(pubs, id)))
  {
    var byId := DraftsById(drafts.value);
    if |byId| != 0 {
      assert RefreshItems(s, drafts, published, order).session.items
        == MergeDraftAndPublished(byId, PublishedMap(published), order);
      MergeCoversUnionOnce(byId, PublishedMap(published), order);
    }
  }

  // ---------------------------------------------------------------------
  // Create
  // ---------------------------------------------------------------------

  /** What the create function is sent. */
  datatype CreateRequest = CreateRequest(title: string, scenePath: string)

  datatype CreateOutcome = CreateOutcome(session: Session, request: Option<CreateRequest>, calls: seq<Option<ItemData>>)

  /** The title a new item gets: the display name, or the scene's file name without extension. */
  function DefaultTitle(scenePath: string, displayName: Option<string>): (t: string)
    ensures !IsNullOrEmpty(displayName) ==> t == displayName.value
    ensures IsNullOrEmpty(displayName) ==> t == FileNameWithoutExtension(scenePath)
  {
    if IsNullOrEmpty(displayName) then FileNameWithoutExtension(scenePath) else displayName.value
  }

  /**
   * `CreateItemOnServerForScene`: refused at the item limit, for an empty
   * scene path, when an item already uses the scene, and when logged out;
   * otherwise the created draft is appended.
   */
  function CreateItemForScene(s: Session, scenePath: Option<string>, displayName: Option<string>,
                              reply: Reply<CatalogItem>): (r: CreateOutcome)
    requires AllRecords(s.items)
    ensures r.request.Some? <==>
      && |s.items| < s.trackModMaxCount
      && !IsNullOrEmpty(scenePath)
      && FindItemByScenePath(s.items, scenePath).None?
      && CanCallBackend(s)
    ensures r.request.Some? ==> r.request.value == CreateRequest(DefaultTitle(scenePath.value, displayName), scenePath.value)
    ensures r.request.None? ==> r == CreateOutcome(s, None, [None])
    ensures r.session == s.(items := r.session.items)
    ensures r.request.Some? && reply.Ok? ==> (
      && |r.session.items| == |s.items| + 1
      && r.session.items[..|s.items|] == s.items
      && r.session.items[|s.items|] == MapCatalogItemToUGC(Some(reply.value), None)
      && r.calls == [Some(r.session.items[|s.items|])])
    ensures r.request.Some? && !reply.Ok? ==> r.session == s && r.calls == (if reply.TooLarge? then [] else [None])
    ensures r.session.items != s.items ==> |r.session.items| <= s.trackModMaxCount
  {
    if |s.items| >= s.trackModMaxCount then CreateOutcome(s, None, [None])
    else if IsNullOrEmpty(scenePath) then CreateOutcome(s, None, [None])
    else
      var title := DefaultTitle(scenePath.value, displayName);
      if FindItemByScenePath(s.items, scenePath).Some? then CreateOutcome(s, None, [None])
      else if !CanCallBackend(s) then CreateOutcome(s, None, [None])
      else
        var request := Some(CreateRequest(title, scenePath.value));
        match reply
        case TooLarge => CreateOutcome(s, request, [])
        case Failed => CreateOutcome(s, request, [None])
        case Ok(created) =>
          var data := MapCatalogItemToUGC(Some(created), None);
          CreateOutcome(s.(items := s.items + [data]), request, [Some(data)])
  }

  /** Creating never takes the list past the item limit it started within. */
  lemma CreateKeepsLimit(s: Session, scenePath: Option<string>, displayName: Option<string>, reply: Reply<CatalogItem>)
    requires AllRecords(s.items) && |s.items| <= s.trackModMaxCount
    ensures |CreateItemForScene(s, scenePath, displayName, reply).session.items| <= s.trackModMaxCount
  {
  }

  // ---------------------------------------------------------------------
  // Review lifecycle
  // ---------------------------------------------------------------------

  datatype StateOp = SubmitOp | NewVersionOp(version: Option<string>) | CancelSubmitOp

  function OpName(op: StateOp): string {
    match op
    case SubmitOp => "Submit"
    case NewVersionOp(_) => "NewVersion"
    case CancelSubmitOp => "CancelSubmit"
  }

  /** The status an accepted state change leaves. */
  function TargetStatus(op: StateOp): Status {
    if op.SubmitOp? then Submitted else Draft
  }

  /** The request of `UpdateItemState`: the id and the operation, and the new version for NewVersion. */
  function StateRequest(id: string, op: StateOp): (d: map<string, Option<string>>)
    ensures "Id" in d && d["Id"] == Some(id) && "Op" in d && d["Op"] == Some(OpName(op))
    ensures "DraftVersion" in d <==> op.NewVersionOp?
    ensures op.NewVersionOp? ==> d["DraftVersion"] == op.version
    ensures forall k :: k in d ==> k in {"Id", "Op", "DraftVersion"}
  {
    var d := map["Id" := Some(id), "Op" := Some(OpName(op))];
    if op.NewVersionOp? then d["DraftVersion" := op.version] else d
  }

  /** How the receiving side reads a state-change request back: the operation it names, if any. */
  function OpOfRequest(d: map<string, Option<string>>): (op: Option<StateOp>)
    ensures op.Some? ==> "Op" in d && d["Op"] == Some(OpName(op.value))
  {
    if "Op" !in d then None
    else if d["Op"] == Some("Submit") then Some(SubmitOp)
    else if d["Op"] == Some("CancelSubmit") then Some(CancelSubmitOp)
    else if d["Op"] == Some("NewVersion") then Some(NewVersionOp(if "DraftVersion" in d then d["DraftVersion"] else None))
    else None
  }

  /** A state-change request names its item and reads back as exactly the operation it was built from. */
  lemma StateRequestRoundTrip(id: string, op: StateOp)
    ensures OpOfRequest(StateRequest(id, op)) == Some(op)
    ensures StateRequest(id, op)["Id"] == Some(id)
  {
  }

  /** Distinct operations give distinct requests for the same item. */
  lemma {:induction false} StateRequestInjective(id: string, a: StateOp, b: StateOp)
    requires StateRequest(id, a) == StateRequest(id, b)
    ensures a == b
  {
    StateRequestRoundTrip(id, a);
    StateRequestRoundTrip(id, b);
  }

  /** The result of a state change: the request sent, if any, besides the session and the callbacks. */
  datatype StateCall = StateCall(session: Session, request: Option<map<string, Option<string>>>, calls: seq<bool>)

  /** What an accepted state change does to the item. */
  function ApplyStateOp(item: ItemData, op: StateOp): (r: ItemData)
    requires HasRecord(item)
    ensures HasRecord(r) && ItemId(r) == ItemId(item) && r.publishedVersion == item.publishedVersion
    ensures item.catalog.value.displayProperties.Some? ==> StatusOf(r) == TargetStatus(op)
    ensures DraftVersion(r) == (if op.NewVersionOp? then op.version else DraftVersion(item))
    ensures forall key :: key != STATUS_KEY ==> Property(r, key) == Property(item, key)
  {
    match op
    case SubmitOp =>
      StatusRoundTripIfDictionary(item, Submitted);
      WithStatus(item, Submitted)
    case NewVersionOp(v) =>
      var moved := WithDraftVersion(item, v);
      StatusRoundTripIfDictionary(moved, Draft);
      WithStatus(moved, Draft)
    case CancelSubmitOp =>
      StatusRoundTripIfDictionary(item, Draft);
      WithStatus(item, Draft)
  }

  lemma StatusRoundTripIfDictionary(item: ItemData, s: Status)
    requires HasRecord(item) && ValidStatus(s)
    ensures item.catalog.value.displayProperties.Some? ==> StatusOf(WithStatus(item, s)) == s
  {
    if item.catalog.value.displayProperties.Some? {
      StatusRoundTrip(item, s);
    }
  }

  /**
   * `UpdateItemState`: refused without a draft, when logged out and without
   * an entity; otherwise the request names the item, the operation and,
   * for NewVersion, the new version. A reply too large to return never
   * calls back; an accepted change rewrites item `k` and nothing else.
   */
  function UpdateItemState(s: Session, k: int, op: StateOp, reply: Reply<()>): (r: StateCall)
    requires ValidIndex(s, k)
    ensures ValidIndex(r.session, k) && |r.session.items| == |s.items|
    ensures r.request.Some? <==> HasDraft(s.items[k]) && CanCallBackend(s) && s.hasEntityKey
    ensures r.request.Some? ==> r.request.value == StateRequest(ItemId(s.items[k]), op)
    ensures r.request.None? ==> r == StateCall(s, None, [false])
    ensures reply.TooLarge? ==> r.session == s && |r.calls| <= 1
    ensures reply.Failed? ==> r.session == s && r.calls == [false]
    ensures r.calls == [true] <==> r.request.Some? && reply.Ok?
    ensures r.calls == [true] ==> r.session == s.(items := s.items[k := ApplyStateOp(s.items[k], op)])
    ensures r.calls != [true] ==> r.session == s
  {
    if !HasDraft(s.items[k]) then StateCall(s, None, [false])
    else if !CanCallBackend(s) then StateCall(s, None, [false])
    else if !s.hasEntityKey then StateCall(s, None, [false])
    else
      var request := StateRequest(ItemId(s.items[k]), op);
      match reply
      case TooLarge => StateCall(s, Some(request), [])
      case Failed => StateCall(s, Some(request), [false])
      case Ok(_) => StateCall(s.(items := s.items[k := ApplyStateOp(s.items[k], op)]), Some(request), [true])
  }

  /**
   * An accepted NewVersion sends, under "DraftVersion", exactly the draft
   * version the item is left with, and the request reads back as that
   * operation.
   */
  lemma {:induction false} NewVersionSendsTheNewDraftVersion(s: Session, k: int, version: Option<string>)
    requires ValidIndex(s, k) && UpdateItemState(s, k, NewVersionOp(version), Ok(())).calls == [true]
    ensures var r := UpdateItemState(s, k, NewVersionOp(version), Ok(()));
      && r.request.Some?
      && "DraftVersion" in r.request.value
      && r.request.value["DraftVersion"] == DraftVersion(r.session.items[k])
      && OpOfRequest(r.request.value) == Some(NewVersionOp(DraftVersion(r.session.items[k])))
  {
    var r := UpdateItemState(s, k, NewVersionOp(version), Ok(()));
    assert r.session.items[k] == ApplyStateOp(s.items[k], NewVersionOp(version));
    StateRequestRoundTrip(ItemId(s.items[k]), NewVersionOp(version));
  }

  /** `SubmitItemOnServer`: only a submittable item is sent for review. */
  function SubmitItem(s: Session, k: int, reply: Reply<()>): (r: StateCall)
    requires ValidIndex(s, k)
    ensures ValidIndex(r.session, k) && |r.session.items| == |s.items|
    ensures !CanSubmit(Some(s.items[k])) ==> r == StateCall(s, None, [false])
    ensures r.request.Some? <==> CanSubmit(Some(s.items[k])) && CanCallBackend(s) && s.hasEntityKey
    ensures r.request.Some? ==> OpOfRequest(r.request.value) == Some(SubmitOp)
    ensures |r.calls| <= 1
    ensures r.calls == [true] <==> r.request.Some? && reply.Ok?
    ensures r.calls == [true] ==> CanSubmit(Some(s.items[k]))
    ensures r.calls != [true] ==> r.session == s
    ensures r.calls == [true] && s.items[k].catalog.value.displayProperties.Some? ==>
      StatusOf(r.session.items[k]) == Submitted
  {
    if !CanSubmit(Some(s.items[k])) then StateCall(s, None, [false])
    else
      StateRequestRoundTrip(ItemId(s.items[k]), SubmitOp);
      UpdateItemState(s, k, SubmitOp, reply)
  }

  /** `CreateVersionOnServer`: moves the draft to a new version and back to Draft. */
  function CreateVersion(s: Session, k: int, version: Option<string>, reply: Reply<()>): (r: StateCall)
    requires ValidIndex(s, k)
    ensures ValidIndex(r.session, k) && |r.session.items| == |s.items|
    ensures r.request.Some? <==> HasDraft(s.items[k]) && CanCallBackend(s) && s.hasEntityKey
    ensures r.request.Some? ==> OpOfRequest(r.request.value) == Some(NewVersionOp(version))
    ensures r.calls == [true] <==> r.request.Some? && reply.Ok?
    ensures r.calls == [true] ==> (DraftVersion(r.session.items[k]) == version
      && ItemId(r.session.items[k]) == ItemId(s.items[k]))
    ensures r.calls == [true] && s.items[k].catalog.value.displayProperties.Some? ==>
      StatusOf(r.session.items[k]) == Draft
    ensures r.calls != [true] ==> r.session == s
  {
    StateRequestRoundTrip(ItemId(s.items[k]), NewVersionOp(version));
    UpdateItemState(s, k, NewVersionOp(version), reply)
  }

  /**
   * `CancelSubmitItemOnServer` as written: for an item that is not awaiting
   * review it reports false but does not stop, so the state change is still
   * sent and may report again.
   */
  function CancelSubmitItemAsWritten(s: Session, k: int, reply: Reply<()>): (r: StateCall)
    requires ValidIndex(s, k)
    ensures ValidIndex(r.session, k) && |r.session.items| == |s.items|
    ensures StatusOf(s.items[k]) == Submitted ==> r == UpdateItemState(s, k, CancelSubmitOp, reply)
    ensures StatusOf(s.items[k]) != Submitted ==>
      r.calls == [false] + UpdateItemState(s, k, CancelSubmitOp, reply).calls
    ensures r.request == UpdateItemState(s, k, CancelSubmitOp, reply).request
  {
    var early := if StatusOf(s.items[k]) != Submitted then [false] else [];
    var u := UpdateItemState(s, k, CancelSubmitOp, reply);
    StateCall(u.session, u.request, early + u.calls)
  }

  /**
   * The discrepancy: an Approved item with a draft, in a valid session,
   * gets two callbacks, false and then true, and is moved back to Draft.
   */
  lemma CancelSubmitAsWrittenReportsTwice(s: Session, k: int)
    requires ValidIndex(s, k) && HasValidSession(s) && HasDraft(s.items[k])
    requires StatusOf(s.items[k]) == Approved && s.items[k].catalog.value.displayProperties.Some?
    ensures CancelSubmitItemAsWritten(s, k, Ok(())).calls == [false, true]
    ensures CancelSubmitItemAsWritten(s, k, Ok(())).request.Some?
    ensures StatusOf(CancelSubmitItemAsWritten(s, k, Ok(())).session.items[k]) == Draft
  {
  }

  /** `CancelSubmitItemOnServer` with the missing return: a non-submitted item is left alone. */
  function CancelSubmitItem(s: Session, k: int, reply: Reply<()>): (r: StateCall)
    requires ValidIndex(s, k)
    ensures ValidIndex(r.session, k) && |r.session.items| == |s.items|
    ensures |r.calls| <= 1
    ensures !CanCancelSubmit(Some(s.items[k])) ==> r == StateCall(s, None, [false])
    ensures r.request.Some? <==>
      CanCancelSubmit(Some(s.items[k])) && HasDraft(s.items[k]) && CanCallBackend(s) && s.hasEntityKey
    ensures r.request.Some? ==> OpOfRequest(r.request.value) == Some(CancelSubmitOp)
    ensures r.calls == [true] <==> r.request.Some? && reply.Ok?
    ensures r.calls == [true] ==> CanCancelSubmit(Some(s.items[k]))
    ensures r.calls != [true] ==> r.session == s
    ensures r.calls == [true] && s.items[k].catalog.value.displayProperties.Some? ==>
      StatusOf(r.session.items[k]) == Draft
  {
    if StatusOf(s.items[k]) != Submitted then StateCall(s, None, [false])
    else
      StateRequestRoundTrip(ItemId(s.items[k]), CancelSubmitOp);
      UpdateItemState(s, k, CancelSubmitOp, reply)
  }

  /** Submitting and then cancelling, both accepted, returns the item to Draft with the same draft version. */
  lemma {:induction false} SubmitThenCancelRestoresDraft(s: Session, k: int)
    requires ValidIndex(s, k) && HasValidSession(s) && CanSubmit(Some(s.items[k]))
    requires s.items[k].catalog.value.displayProperties.Some?
    ensures var sub := SubmitItem(s, k, Ok(()));
      && sub.calls == [true]
      && var back := CancelSubmitItem(sub.session, k, Ok(()));
      && back.calls == [true]
      && StatusOf(back.session.items[k]) == Draft
      && DraftVersion(back.session.items[k]) == DraftVersion(s.items[k])
      && |back.session.items| == |s.items|
  {
    var sub := SubmitItem(s, k, Ok(()));
    assert sub.session.items[k] == ApplyStateOp(s.items[k], SubmitOp);
    assert sub.session.items[k].catalog.value.displayProperties.Some?;
  }

  // ---------------------------------------------------------------------
  // Delete
  // ---------------------------------------------------------------------

  /** Deletion is refused for an empty id, a published item and an item awaiting review. */
  predicate Deletable(item: ItemData)
    requires HasRecord(item)
  {
    ItemId(item) != "" && !HasPublished(item) && StatusOf(item) != Submitted
  }

  /** `DeleteItemOnServer`: `serverOk` is the reply of the delete request. */
  function DeleteItem(s: Session, k: int, serverOk: bool): (r: Outcome)
    requires ValidIndex(s, k)
    ensures r.calls == [true] <==> CanCallBackend(s) && s.hasEntityKey && Deletable(s.items[k]) && serverOk
    ensures r.calls == [true] ==> r.session == s.(items := s.items[..k] + s.items[k + 1..])
    ensures r.calls != [true] ==> r == Outcome(s, [false])
  {
    if !CanCallBackend(s) then Outcome(s, [false])
    else if !s.hasEntityKey then Outcome(s, [false])
    else if ItemId(s.items[k]) == "" then Outcome(s, [false])
    else if HasPublished(s.items[k]) then Outcome(s, [false])
    else if StatusOf(s.items[k]) == Submitted then Outcome(s, [false])
    else if !serverOk then Outcome(s, [false])
    else Outcome(s.(items := s.items[..k] + s.items[k + 1..]), [true])
  }

  /** A delete removes exactly the chosen item and keeps the others in order. */
  lemma {:induction false} DeleteRemovesExactlyOne(s: Session, k: int, serverOk: bool)
    requires ValidIndex(s, k) && DeleteItem(s, k, serverOk).calls == [true]
    ensures var items := DeleteItem(s, k, serverOk).session.items;
      && multiset(items) + multiset{s.items[k]} == multiset(s.items)
      && forall j :: 0 <= j < |items| ==> items[j] == (if j < k then s.items[j] else s.items[j + 1])
  {
    assert s.items == s.items[..k] + [s.items[k]] + s.items[k + 1..];
  }

  // ---------------------------------------------------------------------
  // Draft updates
  // ---------------------------------------------------------------------

  /** A server call's outcome together with the dictionary it sent, if it got that far. */
  datatype Call = Call(session: Session, request: Option<map<string, Arg>>, calls: seq<bool>)

  /**
   * The shared shape of `UpdateDraftItemMetadataOnServer` and
   * `UpdateDraftFiles`: refused when logged out or without an item id;
   * otherwise `request` is sent and the returned record replaces the
   * item's draft record.
   */
  function UpdateDraft(s: Session, k: int, request: map<string, Arg>, reply: Reply<CatalogItem>): (r: Call)
    requires ValidIndex(s, k)
    ensures |r.session.items| == |s.items|
    ensures r.request.Some? <==> CanCallBackend(s) && ItemId(s.items[k]) != ""
    ensures r.request.Some? ==> r.request.value == request
    ensures r.request.None? ==> r == Call(s, None, [false])
    ensures r.calls == [true] <==> r.request.Some? && reply.Ok?
    ensures r.calls == [true] ==> r.session == s.(items := s.items[k := s.items[k].(catalog := Some(reply.value))])
    ensures r.calls != [true] ==> r.session == s
  {
    if !CanCallBackend(s) then Call(s, None, [false])
    else if ItemId(s.items[k]) == "" then Call(s, None, [false])
    else
      match reply
      case TooLarge => Call(s, Some(request), [])
      case Failed => Call(s, Some(request), [false])
      case Ok(c) => Call(s.(items := s.items[k := s.items[k].(catalog := Some(c))]), Some(request), [true])
  }

  /** `UpdateDraftItemMetadataOnServer`. */
  function UpdateDraftItemMetadata(s: Session, k: int, args: ItemArgument, reply: Reply<CatalogItem>): (r: Call)
    requires ValidIndex(s, k)
    ensures |r.session.items| == |s.items|
    ensures r.request.Some? ==> (ItemOfDictionary(r.request.value) == args
      && StringField(r.request.value, "Id") == Some(ItemId(s.items[k])))
    ensures r.request.Some? <==> CanCallBackend(s) && ItemId(s.items[k]) != ""
    ensures r.calls == [true] <==> r.request.Some? && reply.Ok?
    ensures r.calls == [true] ==> r.session == s.(items := s.items[k := s.items[k].(catalog := Some(reply.value))])
    ensures r.calls == [true] ==> (reply.Ok? && r.session.items[k].catalog == Some(reply.value)
      && r.session.items[k].publishedVersion == s.items[k].publishedVersion)
    ensures r.calls != [true] ==> r.session == s
  {
    ItemDictionaryRoundTrip(args, ItemId(s.items[k]));
    UpdateDraft(s, k, ItemToDictionary(args, ItemId(s.items[k])), reply)
  }

  /** `UpdateDraftFiles`. */
  function UpdateDraftFiles(s: Session, k: int, args: FilesArgument, reply: Reply<CatalogItem>): (r: Call)
    requires ValidIndex(s, k)
    ensures |r.session.items| == |s.items|
    ensures r.request.Some? ==> (FilesOfDictionary(r.request.value) == args
      && StringField(r.request.value, "Id") == Some(ItemId(s.items[k])))
    ensures r.request.Some? <==> CanCallBackend(s) && ItemId(s.items[k]) != ""
    ensures r.calls == [true] <==> r.request.Some? && reply.Ok?
    ensures r.calls == [true] ==> r.session == s.(items := s.items[k := s.items[k].(catalog := Some(reply.value))])
    ensures r.calls != [true] ==> r.session == s
  {
    FilesDictionaryRoundTrip(args, ItemId(s.items[k]));
    UpdateDraft(s, k, FilesToDictionary(args, ItemId(s.items[k])), reply)
  }

  /** The image an upload slot becomes; its type is left for the server to fill in. */
  function SlotImage(slot: UploadSlot): Image {
    Image(Some(slot.id), Some(slot.url), None)
  }

  /** The guard the upload operations share before any file is read. */
  predicate CanUpload(s: Session) {
    CanCallBackend(s) && s.hasEntityKey
  }

  /**
   * `UploadThumbnailForItem`: with an existing local file, a session and an
   * uploaded slot, sends only the new thumbnail.
   */
  function UploadThumbnail(s: Session, k: int, fileExists: bool, slot: Option<UploadSlot>,
                           reply: Reply<CatalogItem>): (r: Call)
    requires ValidIndex(s, k)
    ensures !fileExists || !CanUpload(s) || slot.None? ==> r == Call(s, None, [false])
    ensures r.request.Some? <==> fileExists && CanUpload(s) && slot.Some? && ItemId(s.items[k]) != ""
    ensures r.calls == [true] <==> r.request.Some? && reply.Ok?
    ensures r.calls == [true] ==> r.session == s.(items := s.items[k := s.items[k].(catalog := Some(reply.value))])
    ensures r.calls != [true] ==> r.session == s
    ensures r.request.Some? ==>
      FilesOfDictionary(r.request.value) == NoFileChanges.(thumbnail := Some(SlotImage(slot.value)))
  {
    if !fileExists || !CanUpload(s) || slot.None? then Call(s, None, [false])
    else UpdateDraftFiles(s, k, NoFileChanges.(thumbnail := Some(SlotImage(slot.value))), reply)
  }

  /** `DeleteScreenShotForItem`: sends the screenshot list without the one at `index`. */
  function DeleteScreenshot(s: Session, k: int, index: int, reply: Reply<CatalogItem>): (r: Call)
    requires ValidIndex(s, k)
    ensures !(0 <= index < |Screenshots(s.items[k])|) ==> r == Call(s, None, [false])
    ensures r.request.Some? <==> 0 <= index < |Screenshots(s.items[k])| && CanCallBackend(s) && ItemId(s.items[k]) != ""
    ensures r.calls == [true] <==> r.request.Some? && reply.Ok?
    ensures r.calls == [true] ==> r.session == s.(items := s.items[k := s.items[k].(catalog := Some(reply.value))])
    ensures r.calls != [true] ==> r.session == s
    ensures r.request.Some? ==> (
      var sent := FilesOfDictionary(r.request.value);
      && sent == NoFileChanges.(screenshots := sent.screenshots)
      && sent.screenshots == RemoveScreenshot(Screenshots(s.items[k]), index))
  {
    var shots := RemoveScreenshot(Screenshots(s.items[k]), index);
    if shots.None? then Call(s, None, [false])
    else UpdateDraftFiles(s, k, NoFileChanges.(screenshots := shots), reply)
  }

  /**
   * `UploadScreenshotForItem`: with a local file, a session and an uploaded
   * slot, sends the screenshot list with the new image placed at `index`.
   */
  function UploadScreenshot(s: Session, k: int, hasFile: bool, index: nat, slot: Option<UploadSlot>,
                            reply: Reply<CatalogItem>): (r: Call)
    requires ValidIndex(s, k)
    ensures !hasFile || !CanUpload(s) || slot.None? ==> r == Call(s, None, [false])
    ensures r.request.Some? <==> hasFile && CanUpload(s) && slot.Some? && ItemId(s.items[k]) != ""
    ensures r.calls == [true] <==> r.request.Some? && reply.Ok?
    ensures r.calls == [true] ==> r.session == s.(items := s.items[k := s.items[k].(catalog := Some(reply.value))])
    ensures r.calls != [true] ==> r.session == s
    ensures r.request.Some? ==>
      FilesOfDictionary(r.request.value) ==
        NoFileChanges.(screenshots := Some(PlaceScreenshot(Screenshots(s.items[k]), index, SlotImage(slot.value))))
  {
    if !hasFile || !CanUpload(s) || slot.None? then Call(s, None, [false])
    else
      var shots := PlaceScreenshot(Screenshots(s.items[k]), index, SlotImage(slot.value));
      UpdateDraftFiles(s, k, NoFileChanges.(screenshots := Some(shots)), reply)
  }

  /**
   * A screenshot uploaded past the end and then deleted at the position it
   * was appended at gives back the list the item had.
   */
  lemma {:induction false} UploadThenDeleteRestoresScreenshots(s: Session, k: int, index: nat, slot: UploadSlot)
    requires ValidIndex(s, k) && index >= |Screenshots(s.items[k])|
    ensures var shots := Screenshots(s.items[k]);
      RemoveScreenshot(PlaceScreenshot(shots, index, SlotImage(slot)), |shots|) == Some(shots)
  {
    var shots := Screenshots(s.items[k]);
    var placed := PlaceScreenshot(shots, index, SlotImage(slot));
    assert placed[..|shots|] == shots;
    assert placed[..|shots|] + placed[|shots| + 1..] == shots;
  }
}

=== FILE: shaders.dfy ===
/**
 * The shader whitelist enforced before a bundle build: every shader a
 * scene depends on must be one of five names, compared exactly.
 */
module Shaders {
  import opened Wrappers
  import opened Text

  /** `AllowedShaders`: an ordinal (case-sensitive) set of shader names. */
  const ALLOWED_SHADER_NAMES: set<string> := {
    "FR Legend/Car Outline",
    "FR Legend/Toon Outline",
    "FR Legend/SkidMarks",
    "FR Legend/Hard Edge Unlit",
    "Projector/Multiply"
  }

  /** The name reported for a shader asset that does not load. */
  const MISSING_SHADER_NAME := "(missing)"

  const SHADER_EXTENSION := ".shader"

  predicate IsAllowed(name: string) {
    name in ALLOWED_SHADER_NAMES
  }

  /** Exactly the five names pass, and the comparison does not ignore case. */
  lemma AllowedNames()
    ensures |ALLOWED_SHADER_NAMES| == 5
    ensures IsAllowed("FR Legend/Car Outline") && IsAllowed("Projector/Multiply")
    ensures !IsAllowed("fr legend/car outline") && !IsAllowed("FR LEGEND/SKIDMARKS")
    ensures !IsAllowed(MISSING_SHADER_NAME) && !IsAllowed("")
  {
    assert "fr legend/car outline"[0] != "FR Legend/Car Outline"[0];
    assert "FR LEGEND/SKIDMARKS"[4] != "FR Legend/SkidMarks"[4];
  }

  /** A dependency of the scene: its asset path and, when it loads as a shader, the shader's name. */
  datatype Dependency = Dependency(path: string, loadedName: Option<string>)

  function ShaderName(d: Dependency): (name: string)
    ensures d.loadedName.None? ==> name == MISSING_SHADER_NAME
    ensures d.loadedName.Some? ==> name == d.loadedName.value
  {
    d.loadedName.GetOr(MISSING_SHADER_NAME)
  }

  predicate IsShaderAsset(d: Dependency) {
    EndsWithIgnoreCase(d.path, SHADER_EXTENSION)
  }

  /**
   * The extension test ignores case and looks only at the end of the path:
   * ".SHADER" counts, ".shadergraph" and ".shader.meta" do not.
   */
  lemma ShaderExtensionTest(stem: string, n: Option<string>)
    ensures IsShaderAsset(Dependency(stem + ".shader", n))
    ensures IsShaderAsset(Dependency(stem + ".SHADER", n))
    ensures !IsShaderAsset(Dependency(stem + ".shadergraph", n))
    ensures !IsShaderAsset(Dependency(stem + ".shader.meta", n))
  {
    var graph, meta := stem + ".shadergraph", stem + ".shader.meta";
    assert graph[|graph| - 7] == 'e' && meta[|meta| - 7] == 'e';
    assert Fold('e') != Fold('.');
  }

  /** A shader asset whose name is not on the whitelist. */
  predicate Offends(d: Dependency) {
    IsShaderAsset(d) && !IsAllowed(ShaderName(d))
  }

  /** The three-line report of one offending dependency. */
  function ViolationMessage(scenePath: string, d: Dependency): string {
    "Root  : " + scenePath + "\n" + "Shader: " + ShaderName(d) + "\n" + "Path  : " + d.path + "\n"
  }

  /** The reports, one per offending dependency, in dependency order. */
  function Violations(scenePath: string, deps: seq<Dependency>): (r: seq<string>)
    ensures |r| <= |deps|
    ensures |r| == 0 <==> forall i :: 0 <= i < |deps| ==> !Offends(deps[i])
  {
    if |deps| == 0 then []
    else
      var rest := Violations(scenePath, deps[1..]);
      assert forall i :: 1 <= i < |deps| ==> deps[i] == deps[1..][i - 1];
      if Offends(deps[0]) then [ViolationMessage(scenePath, deps[0])] + rest else rest
  }

  /** The reports of two dependency lists in a row are the two lists of reports in a row. */
  lemma {:induction false} ViolationsAppend(scenePath: string, a: seq<Dependency>, b: seq<Dependency>)
    ensures Violations(scenePath, a + b) == Violations(scenePath, a) + Violations(scenePath, b)
  {
    if |a| > 0 {
      assert (a + b)[0] == a[0] && (a + b)[1..] == a[1..] + b;
      ViolationsAppend(scenePath, a[1..], b);
    } else {
      assert a + b == b;
    }
  }

  /** Each dependency contributes its own report when it offends, and nothing otherwise. */
  lemma {:induction false} ViolationsOfOne(scenePath: string, d: Dependency)
    ensures Violations(scenePath, [d]) == (if Offends(d) then [ViolationMessage(scenePath, d)] else [])
  {
    assert [d][1..] == [];
  }

  /** `EnforceShaderWhitelist`: the build may go on exactly when nothing offends. */
  function EnforceShaderWhitelist(scenePath: string, deps: seq<Dependency>): (ok: bool)
    ensures ok <==> forall i :: 0 <= i < |deps| ==> !Offends(deps[i])
  {
    |Violations(scenePath, deps)| == 0
  }

  /**
   * A shader asset that does not load always stops the build, and
   * dependencies that are not shader assets never do.
   */
  lemma {:induction false} EnforceCases(scenePath: string, deps: seq<Dependency>, d: Dependency)
    ensures IsShaderAsset(d) && d.loadedName.None? ==> !EnforceShaderWhitelist(scenePath, deps + [d])
    ensures !IsShaderAsset(d) ==>
      (EnforceShaderWhitelist(scenePath, deps + [d]) <==> EnforceShaderWhitelist(scenePath, deps))
  {
    AllowedNames();
    ViolationsAppend(scenePath, deps, [d]);
    ViolationsOfOne(scenePath, d);
  }
}

=== FILE: text.dfy ===
/**
 * The .NET string operations the item rules rely on: null-or-empty tests,
 * ordinal case-insensitive comparison, `IndexOf`, `Split`, `Trim`,
 * `EndsWith` and `Path.GetFileNameWithoutExtension`.
 */
module Text {
  import opened Wrappers

  /** `string.IsNullOrEmpty`. */
  predicate IsNullOrEmpty(s: Option<string>) {
    s.None? || s.value == ""
  }

  /**
   * The case folding behind `StringComparison.OrdinalIgnoreCase`, which
   * compares upper-cased characters. Only ASCII letters are folded here.
   */
  function Fold(c: char): char {
    if 'a' <= c <= 'z' then (c as int - 32) as char else c
  }

  /** `string.Equals(a, b, StringComparison.OrdinalIgnoreCase)` on non-null strings. */
  predicate EqualsIgnoreCase(a: string, b: string) {
    |a| == |b| && forall i :: 0 <= i < |a| ==> Fold(a[i]) == Fold(b[i])
  }

  /** The same comparison where either side may be null: two nulls are equal. */
  predicate NullableEqualsIgnoreCase(a: Option<string>, b: Option<string>) {
    if a.None? || b.None? then a.None? && b.None? else EqualsIgnoreCase(a.value, b.value)
  }

  lemma EqualsIgnoreCaseIsEquivalence(a: string, b: string, c: string)
    ensures EqualsIgnoreCase(a, a)
    ensures EqualsIgnoreCase(a, b) ==> EqualsIgnoreCase(b, a)
    ensures EqualsIgnoreCase(a, b) && EqualsIgnoreCase(b, c) ==> EqualsIgnoreCase(a, c)
  {
  }

  /** `s.EndsWith(suffix, StringComparison.OrdinalIgnoreCase)`. */
  predicate EndsWithIgnoreCase(s: string, suffix: string) {
    |suffix| <= |s| && EqualsIgnoreCase(s[|s| - |suffix|..], suffix)
  }

  /** `s.IndexOf(c, from)`: the first position at or after `from` holding `c`, or -1. */
  function IndexOf(s: string, c: char, from: nat): (r: int)
    requires from <= |s|
    ensures r == -1 <==> c !in s[from..]
    ensures r != -1 ==> from <= r < |s| && s[r] == c && c !in s[from..r]
    decreases |s| - from
  {
    if from == |s| then -1
    else if s[from] == c then from
    else
      var r := IndexOf(s, c, from + 1);
      assert s[from..] == [s[from]] + s[from + 1..];
      assert r != -1 ==> s[from..r] == [s[from]] + s[from + 1..r];
      r
  }

  /** `IndexOf` finds `p` when `p` holds `c` and nothing between `from` and `p` does. */
  lemma {:induction false} IndexOfAt(s: string, c: char, from: nat, p: nat)
    requires from <= p < |s| && s[p] == c
    requires forall k :: from <= k < p ==> s[k] != c
    ensures IndexOf(s, c, from) == p
  {
    var r := IndexOf(s, c, from);
    assert s[from..][p - from] == c;
    assert forall q :: from <= q < r ==> s[q] == s[from..r][q - from];
  }

  /** Nothing between `from` and the position `IndexOf` reports holds `c`. */
  lemma IndexOfSkips(s: string, c: char, from: nat)
    requires from <= |s|
    ensures var r := IndexOf(s, c, from);
      r != -1 ==> forall k :: from <= k < r ==> s[k] != c
  {
    var r := IndexOf(s, c, from);
    assert forall q :: from <= q < r ==> s[q] == s[from..r][q - from];
  }

  /** The parts joined back with `sep` between consecutive parts (`string.Join`). */
  function Join(parts: seq<string>, sep: char): string {
    if |parts| == 0 then ""
    else if |parts| == 1 then parts[0]
    else parts[0] + [sep] + Join(parts[1..], sep)
  }

  /** `s.Split(sep)`: the maximal separator-free pieces, empty pieces included. */
  function Split(s: string, sep: char): (parts: seq<string>)
    ensures |parts| >= 1
    ensures forall i :: 0 <= i < |parts| ==> sep !in parts[i]
    ensures Join(parts, sep) == s
    decreases |s|
  {
    var i := IndexOf(s, sep, 0);
    if i == -1 then
      assert s[0..] == s;
      [s]
    else
      var rest := Split(s[i + 1..], sep);
      var parts := [s[..i]] + rest;
      assert parts[1..] == rest;
      assert s == s[..i] + [sep] + s[i + 1..];
      parts
  }

  /** Splitting a separator-free string gives the string itself. */
  lemma {:induction false} SplitOne(a: string, sep: char)
    requires sep !in a
    ensures Split(a, sep) == [a]
  {
    assert a[0..] == a;
  }

  /** Splitting `a + sep + b` where neither side holds `sep` gives exactly `[a, b]`. */
  lemma {:induction false} SplitTwo(a: string, b: string, sep: char)
    requires sep !in a && sep !in b
    ensures Split(a + [sep] + b, sep) == [a, b]
  {
    var s := a + [sep] + b;
    var i := IndexOf(s, sep, 0);
    assert s[..|a|] == a;
    assert s[|a|] == sep;
    assert sep in s[0..];
    assert forall k :: 0 <= k < |a| ==> s[k] == a[k];
    assert i == |a|;
    assert s[i + 1..] == b;
    SplitOne(b, sep);
  }

  /** The white-space characters of `char.IsWhiteSpace`, used by `string.Trim()`. */
  predicate IsWhiteSpace(c: char) {
    var n := c as int;
    (0x09 <= n <= 0x0D) || n == 0x20 || n == 0x85 || n == 0xA0 || n == 0x1680
    || (0x2000 <= n <= 0x200A) || n == 0x2028 || n == 0x2029 || n == 0x202F
    || n == 0x205F || n == 0x3000
  }

  /** The number of white-space characters at the start of `s`. */
  function LeadingWhite(s: string): (n: nat)
    ensures n <= |s|
    ensures forall k :: 0 <= k < n ==> IsWhiteSpace(s[k])
    ensures n == |s| || !IsWhiteSpace(s[n])
  {
    if |s| > 0 && IsWhiteSpace(s[0]) then 1 + LeadingWhite(s[1..]) else 0
  }

  /** The number of white-space characters at the end of `s`. */
  function TrailingWhite(s: string): (n: nat)
    ensures n <= |s|
    ensures forall k :: |s| - n <= k < |s| ==> IsWhiteSpace(s[k])
    ensures n == |s| || !IsWhiteSpace(s[|s| - n - 1])
  {
    if |s| > 0 && IsWhiteSpace(s[|s| - 1]) then 1 + TrailingWhite(s[..|s| - 1]) else 0
  }

  /**
   * `string.Trim()`: `s` with the white space at both ends removed. The
   * result is the slice of `s` that starts at its first non-white character
   * and ends at its last one, and is empty when `s` is all white space.
   */
  function Trim(s: string): (r: string)
    ensures var i := LeadingWhite(s);
      i + |r| <= |s| && r == s[i..i + |r|]
      && (r == [] <==> i == |s|)
      && (forall k :: i + |r| <= k < |s| ==> IsWhiteSpace(s[k]))
    ensures r == [] || (!IsWhiteSpace(r[0]) && !IsWhiteSpace(r[|r| - 1]))
  {
    var i := LeadingWhite(s);
    var t := s[i..];
    var j := |t| - TrailingWhite(t);
    assert forall k :: i + j <= k < |s| ==> s[k] == t[k - i];
    t[..j]
  }

  /** A string with no white space at either end is its own trim. */
  lemma TrimmedIsFixed(t: string)
    requires t == [] || (!IsWhiteSpace(t[0]) && !IsWhiteSpace(t[|t| - 1]))
    ensures Trim(t) == t
  {
    assert LeadingWhite(t) == 0;
  }

  /** Trimming twice is trimming once. */
  lemma TrimIdempotent(s: string)
    ensures Trim(Trim(s)) == Trim(s)
  {
    TrimmedIsFixed(Trim(s));
  }

  /** Keeps the first `n` characters when longer (`Substring(0, n)`), else the whole string. */
  function Truncate(s: string, n: nat): (r: string)
    ensures |r| <= n
    ensures r <= s
    ensures |s| <= n ==> r == s
    ensures |s| > n ==> |r| == n
  {
    if |s| > n then s[..n] else s
  }

  /** A directory separator recognised by `System.IO.Path` on Windows. */
  predicate IsDirectorySeparator(c: char) {
    c == '/' || c == '\\'
  }

  /** The position of the last directory separator in `s`, or -1. */
  function LastSeparator(s: string): (r: int)
    ensures -1 <= r < |s|
    ensures r >= 0 ==> IsDirectorySeparator(s[r])
    ensures forall k :: r < k < |s| ==> !IsDirectorySeparator(s[k])
  {
    if |s| == 0 then -1
    else if IsDirectorySeparator(s[|s| - 1]) then |s| - 1
    else LastSeparator(s[..|s| - 1])
  }

  /** The position of the last `c` in `s`, or -1 (`LastIndexOf`). */
  function LastIndexOf(s: string, c: char): (r: int)
    ensures -1 <= r < |s|
    ensures r >= 0 ==> s[r] == c
    ensures forall k :: r < k < |s| ==> s[k] != c
  {
    if |s| == 0 then -1
    else if s[|s| - 1] == c then |s| - 1
    else LastIndexOf(s[..|s| - 1], c)
  }

  /** `Path.GetFileName`: everything after the last directory separator. */
  function FileName(path: string): string {
    path[LastSeparator(path) + 1..]
  }

  /** `Path.GetFileNameWithoutExtension`: the file name cut before its last '.'. */
  function FileNameWithoutExtension(path: string): (r: string)
    ensures forall k :: 0 <= k < |r| ==> !IsDirectorySeparator(r[k])
    ensures r <= FileName(path)
  {
    var name := FileName(path);
    var dot := LastIndexOf(name, '.');
    if dot < 0 then name else name[..dot]
  }

  /**
   * A scene path `dir/stem.ext` yields `stem`, whatever `dir` holds, when
   * the extension holds no '.' and neither part holds a separator.
   */
  lemma {:induction false} FileNameWithoutExtensionOfPath(dir: string, sep: char, stem: string, ext: string)
    requires IsDirectorySeparator(sep)
    requires forall k :: 0 <= k < |stem| ==> !IsDirectorySeparator(stem[k])
    requires forall k :: 0 <= k < |ext| ==> !IsDirectorySeparator(ext[k]) && ext[k] != '.'
    ensures FileNameWithoutExtension(dir + [sep] + stem + ['.'] + ext) == stem
  {
    var path := dir + [sep] + stem + ['.'] + ext;
    var p := LastSeparator(path);
    assert IsDirectorySeparator(path[|dir|]);
    assert forall k :: |dir| < k < |path| ==> !IsDirectorySeparator(path[k]) by {
      forall k | |dir| < k < |path|
        ensures !IsDirectorySeparator(path[k])
      {
        if k < |dir| + 1 + |stem| {
          assert path[k] == stem[k - |dir| - 1];
        } else if k > |dir| + 1 + |stem| {
          assert path[k] == ext[k - |dir| - 2 - |stem|];
        }
      }
    }
    assert p == |dir|;
    var name := FileName(path);
    assert name == stem + ['.'] + ext;
    var dot := LastIndexOf(name, '.');
    assert name[|stem|] == '.';
    assert forall k :: |stem| < k < |name| ==> name[k] == ext[k - |stem| - 1];
    assert dot == |stem|;
    assert name[..dot] == stem;
  }

  // ---------------------------------------------------------------------
  // Lists of strings
  // ---------------------------------------------------------------------

  /** The position of the first occurrence of `x` in `s`. */
  function FirstIndex(s: seq<string>, x: string): (i: nat)
    requires x in s
    ensures i < |s| && s[i] == x && x !in s[..i]
  {
    if s[0] == x then 0
    else
      var j := FirstIndex(s[1..], x);
      assert s[..j + 1] == [s[0]] + s[1..][..j];
      j + 1
  }

  /** `list.Remove(x)`: drops the first occurrence of `x`, if any, and keeps the rest in order. */
  function RemoveFirst(s: seq<string>, x: string): (r: seq<string>)
    ensures multiset(r) == multiset(s) - multiset{x}
    ensures x !in s ==> r == s
    ensures x in s ==> r == s[..FirstIndex(s, x)] + s[FirstIndex(s, x) + 1..]
  {
    var r := (
      if |s| == 0 then []
      else if s[0] == x then
        assert s[..0] + s[1..] == s[1..];
        s[1..]
      else
        var rest := RemoveFirst(s[1..], x);
        ConsDrops(s, x, rest);
        [s[0]] + rest);
    RemovedMultiset(s, x, r);
    r
  }

  /** Dropping the first `x` of the tail and putting back a head other than `x` drops the first `x` of the whole. */
  lemma ConsDrops(s: seq<string>, x: string, rest: seq<string>)
    requires |s| > 0 && s[0] != x
    requires x !in s[1..] ==> rest == s[1..]
    requires x in s[1..] ==> rest == s[1..][..FirstIndex(s[1..], x)] + s[1..][FirstIndex(s[1..], x) + 1..]
    ensures x !in s ==> [s[0]] + rest == s
    ensures x in s ==> [s[0]] + rest == s[..FirstIndex(s, x)] + s[FirstIndex(s, x) + 1..]
  {
    if x in s[1..] {
      var j := FirstIndex(s[1..], x);
      assert FirstIndex(s, x) == j + 1;
      assert s[..j + 1] == [s[0]] + s[1..][..j];
      assert s[j + 2..] == s[1..][j + 1..];
    } else {
      assert [s[0]] + s[1..] == s;
    }
  }

  /** Whatever drops exactly the first occurrence of `x` drops one copy of `x`. */
  lemma RemovedMultiset(s: seq<string>, x: string, r: seq<string>)
    requires x !in s ==> r == s
    requires x in s ==> r == s[..FirstIndex(s, x)] + s[FirstIndex(s, x) + 1..]
    ensures multiset(r) == multiset(s) - multiset{x}
  {
    if x in s {
      var i := FirstIndex(s, x);
      var before, after := s[..i], s[i + 1..];
      assert s == before + [x] + after;
      assert multiset(s) == multiset(before) + multiset{x} + multiset(after);
      assert r == before + after;
    } else {
      assert multiset(s)[x] == 0;
    }
  }
}

=== FILE: versions.dfy ===
/**
 * Draft version arithmetic: strict "major.minor" parsing, the successor
 * version, the "is newer" order, the metadata-edit gate, and the rich-text
 * colour helpers used for status labels.
 */
module Versions {
  import opened Wrappers
  import opened Text
  import opened Numbers
  import opened Items

  datatype Version = Version(major: int, minor: int)

  /** Both parts lie in 0..999, as every parsed version does. */
  predicate InRange(v: Version) {
    0 <= v.major <= 999 && 0 <= v.minor <= 999
  }

  /**
   * `TryParseVersion`: exactly two '.'-separated parts of one to three
   * characters each, each accepted by `int.TryParse` and non-negative.
   */
  function TryParseVersion(s: Option<string>): (r: Option<Version>)
    ensures IsNullOrEmpty(s) || s == Some("N/A") ==> r.None?
    ensures r.Some? ==> InRange(r.value)
    ensures r.Some? ==> (var parts := Split(s.value, '.');
      |parts| == 2 && 1 <= |parts[0]| <= 3 && 1 <= |parts[1]| <= 3
      && TryParseInt(parts[0]) == Some(r.value.major) && TryParseInt(parts[1]) == Some(r.value.minor))
  {
    if IsNullOrEmpty(s) || s.value == "N/A" then None
    else
      var parts := Split(s.value, '.');
      if |parts| != 2 then None
      else if |parts[0]| == 0 || |parts[0]| > 3 then None
      else if |parts[1]| == 0 || |parts[1]| > 3 then None
      else
        match TryParseInt(parts[0])
        case None => None
        case Some(major) =>
          match TryParseInt(parts[1])
          case None => None
          case Some(minor) =>
            if major < 0 || minor < 0 then None
            else
              TryParseShort(parts[0]);
              TryParseShort(parts[1]);
              Some(Version(major, minor))
  }

  /** The string `$"{major}.{minor}"`. */
  function Format(v: Version): string {
    IntToString(v.major) + "." + IntToString(v.minor)
  }

  /** A printed version with non-negative parts splits into its two numerals. */
  lemma {:induction false} FormatSplits(v: Version)
    requires v.major >= 0 && v.minor >= 0
    ensures Split(Format(v), '.') == [IntToString(v.major), IntToString(v.minor)]
    ensures Format(v) != "" && Format(v) != "N/A"
  {
    var a := IntToString(v.major);
    var b := IntToString(v.minor);
    assert '.' !in a && '.' !in b by {
      assert forall i :: 0 <= i < |a| ==> IsDigit(a[i]);
      assert forall i :: 0 <= i < |b| ==> IsDigit(b[i]);
    }
    assert Format(v) == a + ['.'] + b;
    SplitTwo(a, b, '.');
    assert IsDigit(Format(v)[0]);
  }

  /** Every in-range version prints to a string that parses back to it. */
  lemma {:induction false} FormatRoundTrip(v: Version)
    requires InRange(v)
    ensures TryParseVersion(Some(Format(v))) == Some(v)
  {
    FormatSplits(v);
    NatToDigitsLength(v.major);
    NatToDigitsLength(v.minor);
    ParsePrintRoundTrip(v.major);
    ParsePrintRoundTrip(v.minor);
  }

  /** A major part of 1000 or more prints too long to parse. */
  lemma {:induction false} FormatTooLong(v: Version)
    requires v.major >= 1000 && 0 <= v.minor <= 999
    ensures TryParseVersion(Some(Format(v))).None?
  {
    FormatSplits(v);
    NatToDigitsLength(v.major);
  }

  /** The successor: minor + 1, or major + 1 with minor kept once minor reaches 999. */
  function Next(v: Version): Version {
    if v.minor >= 999 then Version(v.major + 1, v.minor) else Version(v.major, v.minor + 1)
  }

  /** `GetNextVersionString`: "0.1" for anything that does not parse. */
  function GetNextVersionString(current: Option<string>): (r: string)
    ensures TryParseVersion(current).None? ==> r == "0.1"
  {
    match TryParseVersion(current)
    case None => "0.1"
    case Some(v) => Format(Next(v))
  }

  /** `IsNewVersionGreater(current, candidate)`: `candidate` is later in (major, minor) order. */
  predicate IsNewVersionGreater(current: Version, candidate: Version) {
    if candidate.major > current.major then true
    else if candidate.major < current.major then false
    else candidate.minor > current.minor
  }

  /** The order is a strict total order: irreflexive, asymmetric, transitive, and total on unequal versions. */
  lemma GreaterIsStrictTotalOrder(a: Version, b: Version, c: Version)
    ensures !IsNewVersionGreater(a, a)
    ensures IsNewVersionGreater(a, b) ==> !IsNewVersionGreater(b, a)
    ensures IsNewVersionGreater(a, b) && IsNewVersionGreater(b, c) ==> IsNewVersionGreater(a, c)
    ensures a != b ==> IsNewVersionGreater(a, b) || IsNewVersionGreater(b, a)
  {
  }

  /** On in-range versions the order is the order of the number major * 1000 + minor. */
  lemma GreaterMatchesKey(a: Version, b: Version)
    requires InRange(a) && InRange(b)
    ensures IsNewVersionGreater(a, b) <==> a.major * 1000 + a.minor < b.major * 1000 + b.minor
  {
  }

  /**
   * The successor of a parsed version parses again and is greater, except
   * for 999.999 whose successor "1000.999" no longer parses.
   */
  lemma {:induction false} NextVersionSpec(current: Option<string>)
    requires TryParseVersion(current).Some?
    ensures var v := TryParseVersion(current).value;
      var r := TryParseVersion(Some(GetNextVersionString(current)));
      && (v.minor < 999 ==> r == Some(Version(v.major, v.minor + 1)))
      && (v.minor == 999 && v.major < 999 ==> r == Some(Version(v.major + 1, 999)))
      && (v == Version(999, 999) <==> r.None?)
      && (r.Some? ==> IsNewVersionGreater(v, r.value))
  {
    var v := TryParseVersion(current).value;
    var n := Next(v);
    if InRange(n) {
      FormatRoundTrip(n);
    } else {
      FormatTooLong(n);
    }
  }

  /**
   * `CanEditMetadata`: only a Draft item, and then only when nothing is
   * published or when both versions parse and the draft is the newer.
   */
  function CanEditMetadata(item: Option<ItemData>): (r: bool)
    requires item.Some? ==> HasRecord(item.value)
    ensures r <==> (item.Some? && StatusOf(item.value) == Draft
      && (!HasPublished(item.value)
          || (TryParseVersion(DraftVersion(item.value)).Some?
              && TryParseVersion(item.value.publishedVersion).Some?
              && IsNewVersionGreater(TryParseVersion(item.value.publishedVersion).value,
                                     TryParseVersion(DraftVersion(item.value)).value))))
  {
    match item
    case None => false
    case Some(it) =>
      if StatusOf(it) != Draft then false
      else if !HasPublished(it) then true
      else if !HasDraft(it) then false
      else
        match TryParseVersion(DraftVersion(it))
        case None => false
        case Some(d) =>
          match TryParseVersion(it.publishedVersion)
          case None => false
          case Some(p) => IsNewVersionGreater(p, d)
  }

  /** The opening rich-text tag `<color=...>`. */
  function ColorTag(color: string): string {
    "<color=" + color + ">"
  }

  /** `ColorString`: `s` unchanged for a missing colour, otherwise wrapped in a colour tag. */
  function ColorString(s: string, color: Option<string>): (r: string)
    ensures IsNullOrEmpty(color) <==> r == s
    ensures !IsNullOrEmpty(color) ==> r == ColorTag(color.value) + s + "</color>"
  {
    if IsNullOrEmpty(color) then s else ColorTag(color.value) + s + "</color>"
  }

  /** `RedString`: `s` wrapped in a red tag exactly when `red` holds. */
  function RedString(s: string, red: bool): (r: string)
    ensures red <==> r != s
    ensures red ==> r == ColorString(s, Some("red"))
  {
    if red then ColorTag("red") + s + "</color>" else s
  }
}

=== FILE: wrappers.dfy ===
/** The Option type used for every value the source allows to be null. */
module Wrappers {

  /** `None` stands for a C# `null`; `Some(v)` for a non-null value `v`. */
  datatype Option<+T> = None | Some(value: T) {

    /** The value, or `default` for `None` (the C# `??` operator). */
    function GetOr(default: T): T {
      match this
      case Some(v) => v
      case None => default
    }
  }

  /** Looks `k` up in `m`, as `Dictionary.TryGetValue`. */
  function Get<K, V>(m: map<K, V>, k: K): (r: Option<V>)
    ensures r.Some? <==> k in m
    ensures r.Some? ==> r.value == m[k]
  {
    if k in m then Some(m[k]) else None
  }
}
